=== FILE: README.md ===
# CryWatchdog core, modelled in Dafny

CryWatchdog watches a CryEngine / Lumberyard project tree. Container files hold
paths to assets such as textures, models and materials:

- XML-family files: `.mtl`, `.xml`, `.lay`, `.lyr`, `.cdf`;
- Lua scripts: `.lua`.

The tool keeps a two-way index between containers and the asset paths they
reference. When an asset or a directory is renamed, it rewrites every
container that refers to it, in place, without disturbing the rest of the
file. It also ships batch tasks:

- a finder of unused assets;
- a finder of broken references;
- a text cleaner;
- a packer that concatenates files into one archive under `===== FILE: … =====` banners, and an unpacker that splits such an archive back;
- an extension analyzer.

This project models that core as pure Dafny functions over immutable data and
proves what the code promises.

| module | file | what it models |
|---|---|---|
| `Wrappers` | `wrappers.dfy` | `Option` |
| `Strings` | `strings.dfy` | ASCII `lower`, `strip` and its variants, `replace`, `splitlines`, `join`, decimal printing |
| `Paths` | `paths.dfy` | `Path.suffix`, `with_suffix("")`, `os.path.splitext`, `relative_to` and joining |
| `Order` | `order.dfy` | Python's ordering of `str` and of `Path` (component by component; on Windows on the lower-cased components); an insertion sort proved to yield a sorted permutation |
| `Config` | `config.dfy` | the handler table and the extension sets |
| `Handlers` | `handlers.dfy` | `parse` and `rewrite` of the XML and Lua handlers, in both copies |
| `RefIndex` | `refindex.dfy` | the forward and reverse maps of `AssetReferenceIndex` and the operations on them |
| `Watcher` | `watcher.dfy` | the index worker, `build_index`, the per-file updates, renames, directory moves, cooldowns and the event handler's move detection |
| `Finding` | `finding.dfy` | `UnusedAssetFinder` and `MissingAssetFinder` |
| `Cleaner` | `cleaner.dfy` | both copies of the cleaner worker and `ProjectCleaner.run` |
| `Packer` | `packer.dfy` | both copies of `AssetPacker` and `AssetUnpacker`, including a scanner for the unpacker's regular expression |
| `Analyzer` | `analyzer.dfy` | `ProjectAnalyzer` |

The file system is a map from absolute paths to contents. A directory walk is
the sequence of files it yields. Whatever cannot be computed is a parameter:

- `os.path.sep`, `os.linesep` and `os.path.normpath`;
- the text encoder;
- the clock, as a `now` argument;
- whether a file exists;
- whether a write fails: an error for the cleaner, the packer and the unpacker, a `writable` flag on each container for the handlers.

A container's contents are given as the sequence of literal runs and pattern
matches the handler's regular expression splits them into (`Handlers.Document`).
`Handlers.WellFormed` states what the pattern guarantees of each match. The
cleaner's path pattern is modelled the same way, through a `scan` parameter.
The unpacker's pattern `={5,}\s*FILE:\s*(.*?)\s*={5,}\n\n(.*?)(?=\n\n={5,}\s*FILE:|\Z)`
is implemented as a scanner: `Packer.MatchAt`, `Packer.Search` and
`Packer.FindAll`. The lazy groups are the shortest matches and the
look-ahead is a predicate. These properties are proved:

- the index stays consistent under every event;
- the outcome of a rename or move;
- that a pack unpacks back to its files;
- the contents of the unused and missing reports;
- the cleaner's write decisions;
- that the analyzer's counts add up.

Where the two copies of a component differ, both are modelled. The handler
copies differ only in module layout. The copies of the tasks differ in their
messages, which `Packer.Edition` selects, and in the cleaner's encoding and
trimming stages.

The code differs from a plain reading of its description in four places. The
model follows the code in each:

- both `parse` implementations strip the matched path before replacing separators and lowering;
- `allow_ext_change` is stored but never consulted;
- `build_index` returns without clearing the index when the walk finds no container file;
- a directory move rewrites paths using only the first entry of its replacement table.

## Model

| member | source | states |
|---|---|---|
| Config.HandlerTable | app/services/asset_handlers.py:163-170 | a suffix has a handler exactly when it is one of the six container suffixes; the five XML formats get the XML handler and `.lua` the Lua handler; the older table in app/asset_handlers.py maps the same suffixes the same way |
| Strings.LowerIsLower | app/services/asset_handlers.py:72 | a lowered string is lower-case, and lowering it again changes nothing |
| Strings.LowerConcat | app/watcher.py:164-167 | lowering distributes over concatenation, so a lowered `stem + ext` is the lowered stem followed by the lowered extension |
| Strings.RStrip | app/tasks/packer.py:47 | `rstrip` returns a prefix of the input that does not end in a blank, and it drops only blanks |
| Strings.LStrip | app/tasks/packer.py:39 | `lstrip` returns a suffix of the input that does not start with a blank, and it drops only blanks (the `\s*` of the unpack pattern) |
| Strings.ReplaceCharRemoves | app/services/asset_handlers.py:56 | replacing the platform separator by '/' leaves no separator behind, keeps every other character in place, and a second replacement changes nothing |
| Strings.ReplaceAllRemoves | app/tasks/cleaner.py:86 | after the CRLF and CR replacements no carriage return is left |
| Strings.ReplaceAllAbsent | app/tasks/cleaner.py:86 | replacing a character that does not occur leaves the text unchanged |
| Strings.SplitLinesRejoin | app/tasks/cleaner.py:65 | `splitlines` loses nothing: putting each line back with the break that ended it rebuilds the text; no line holds a break, every break is "\n", "\r", "\r\n" or another character `str.splitlines` breaks at, and only the last line may have no break after it |
| Strings.SplitJoin | app/tasks/cleaner.py:65-66 | joining pieces that hold no "\n" with "\n" and splitting the result at "\n" gives the pieces back |
| Strings.DecimalRoundTrip | app/tasks/packer.py:27 | the printed count reads back as the count, without leading zeros |
| Paths.Suffix | app/watcher.py:30 | `Path.suffix` is a tail of the path without '/', and it is empty or a dot followed by at least one character; SuffixSpec states which dot starts it and when it is empty |
| Paths.SuffixSpec | app/watcher.py:30 | `Path.suffix` starts at the last '.' of the final component, and it is non-empty exactly when that component has a dot that neither opens nor ends it with no dot after it |
| Paths.WithoutSuffix | app/watcher.py:161-162 | `with_suffix("")` followed by the suffix gives the path back |
| Paths.SplitExt | app/tasks.py:138 | `os.path.splitext` returns a tail of the name that is empty or starts with a dot |
| Paths.ToRel | app/watcher.py:67-71 | a path has a relative form exactly when it is the root or lies under `root + "/"`, compared case-sensitively (see "## Left out"), and the form is never empty |
| Paths.ToRelJoin | app/watcher.py:198 | taking `root / rel` relative to the root gives `rel` back |
| Paths.ToRelInjective | app/watcher.py:26 | two files under the root with the same relative path are the same file |
| Order.StrLeTotal | app/tasks/finding.py:98 | Python's order on strings is total |
| Order.StrLeTrans | app/tasks/finding.py:98 | Python's order on strings is transitive |
| Order.StrLeAntisym | app/tasks/finding.py:98 | Python's order on strings is antisymmetric |
| Order.PartsLeTotal | app/tasks/packer.py:19 | the `Path` order, on path components, is total |
| Order.PartsLeTrans | app/tasks/packer.py:19 | the `Path` order is transitive |
| Order.SortSorted | app/tasks/packer.py:19 | the sort returns a sorted sequence under any total, transitive order |
| Order.SortStrings | app/tasks/finding.py:98 | `sorted(unused)` is a permutation of its input in string order |
| Order.SortPaths | app/tasks/packer.py:19 | `sorted(files)` is a permutation of its input in `Path` order: component by component, and on Windows on the lower-cased components |
| Order.WindowsOrderIgnoresCase | app/tasks/packer.py:19 | on Windows a path sorts exactly as its lower-cased spelling does |
| Order.CaseOrderDiffers | app/tasks/packer.py:19 | `[B.xml, a.xml]` keeps its order on POSIX and is reversed on Windows |
| Handlers.ParseEmptyFile | app/services/asset_handlers.py:46-47 | an empty container parses to no reference; the Lua parse and the older XML parse in app/asset_handlers.py return nothing for an empty file in the same way |
| Handlers.EmptyRenderHasNoMatch | app/services/asset_handlers.py:38-41 | a file with empty text has no match, so returning early on an empty file loses no reference |
| Handlers.ParseMembership | app/services/asset_handlers.py:53-60 | a path is in the parse result exactly when some match, stripped, with '/' for the separator and lowered, equals it; the same holds for the Lua parse and for the older XML parse in app/asset_handlers.py |
| Handlers.NormalizedIsClean | app/services/asset_handlers.py:56-60 | a parsed reference is lower-case and holds no platform separator |
| Handlers.NormalizeKeepsExtension | app/services/asset_handlers.py:38-41 | a match ending in a tracked extension, in any case, still ends with that extension after normalisation |
| Handlers.NormalizedShape | app/services/asset_handlers.py:53-60 | the normal form of a match is lower-case, has no platform separator and ends with a tracked extension |
| Handlers.ParsedPathShape | app/services/asset_handlers.py:110-128 | every reference either handler finds is lower-case, separator-free and ends with a tracked extension; the same holds for the older Lua handler in app/asset_handlers.py |
| Handlers.LowerKeyMap | app/services/asset_handlers.py:67 | the keys of the lowered table are exactly the lowered keys of the replacement table |
| Handlers.LowerKeyMapLastWins | app/services/asset_handlers.py:135 | when two keys lower to the same string, the later entry's value wins |
| Handlers.SubstitutePointwise | app/services/asset_handlers.py:94 | `pattern.sub` succeeds exactly when the callback succeeds on every match, and then it maps each piece to the callback's result |
| Handlers.SubstSegmentFormat | app/services/asset_handlers.py:83-85 | a substitution keeps the key prefix and reuses the opening quote on both sides; text between matches is untouched; a path changes only to the decided value; the older XML callback in app/asset_handlers.py rebuilds a match the same way |
| Handlers.SubstituteRaisesOnlyOnEmptyDirTable | app/services/asset_handlers.py:75-76 | the callback can only fail through `next(iter(...))` on an empty table in a directory move, and then only if there is a match |
| Handlers.ExactRenameDecision | app/services/asset_handlers.py:80-84 | in a file rename, a match is replaced exactly when its stripped, '/'-separated, lowered path is a lowered key with a non-empty value, and the new path is that value verbatim; the Lua callback decides the same way without stripping, and the older XML callback in app/asset_handlers.py as the XML one |
| Handlers.DirMoveDecision | app/services/asset_handlers.py:75-79 | in a directory move, a match is replaced exactly when its lowered path starts with the lowered old directory and '/'; the new path is the new directory followed by the rest of the path in its original case; only the first table entry is used; the Lua callback and the older XML callback in app/asset_handlers.py move directories the same way |
| Handlers.RenderAppend | app/services/asset_handlers.py:94 | the text of a split file is the concatenation of its pieces' texts |
| Handlers.NothingApplicableIsNoOp | app/services/asset_handlers.py:94-98 | when the callback keeps every match, the file is neither changed nor written |
| Handlers.RewriteWritesOnlyChanges | app/services/asset_handlers.py:96-98 | the file is written only when the new text differs from the old; the older Lua rewrite in app/asset_handlers.py also writes only changed text |
| Handlers.RewriteFailureLeavesFile | app/services/asset_handlers.py:100-101 | a rewrite that cannot read the file, or whose callback raises, is logged and leaves the file as it was; the older XML rewrite in app/asset_handlers.py also swallows the failure |
| Handlers.Parse | app/services/asset_handlers.py:43-60 | the set of normalised paths the pattern matches, empty for an empty file; ParseMembership and ParseEmptyFile state it |
| Handlers.Rewrite | app/services/asset_handlers.py:62-101 | `pattern.sub` with the replacement callback, written back only when the text changed and the write succeeds; SubstitutePointwise, RewriteWritesOnlyChanges, RewriteFailureLeavesFile and RewriteKeepsWellFormed state it |
| Handlers.RewriteKeepsWellFormed | app/services/asset_handlers.py:38-98 | when every value the callback can substitute is a quote-free path ending in a tracked extension, the rewritten file still has the shape the pattern gives each match, so the pattern would split it the same way |
| Handlers.LowerKeyMapValue | app/services/asset_handlers.py:67 | every value of the lowered replacement table is one of the table's values |
| Handlers.ExactRenameKeepsWellFormed | app/services/asset_handlers.py:69-98 | for an exact rename, the rewritten file keeps the pattern's shape when every non-empty new path is quote-free and ends in a tracked extension |
| Handlers.RewriteCanLeavePatternShape | app/services/asset_handlers.py:38-98 | renaming `a.cgf` to `a.cgf.bak` rewrites `File="a.cgf"` to a match the pattern would no longer find, yet the stored document still parses to `a.cgf.bak` (see Left out) |
| RefIndex.ConsistentIsCanonical | app/watcher.py:64-65 | the two maps agree exactly when the reverse map is the one the forward map determines |
| RefIndex.FromForward | app/watcher.py:90-96 | the index rebuilt from a forward map is consistent |
| RefIndex.DetachCanonical | app/watcher.py:120-125 | forgetting a container's old references from the reverse map leaves the reverse map of the forward map without that container, with empty entries deleted |
| RefIndex.AttachCanonical | app/watcher.py:127-129 | adding a container under each of its references gives the reverse map of the extended forward map |
| RefIndex.UpsertCanonical | app/watcher.py:119-129 | re-indexing one container equals rebuilding the whole index with that container's entry replaced |
| RefIndex.RemoveCanonical | app/watcher.py:140-147 | removing a container equals rebuilding without it; an unknown container changes nothing |
| RefIndex.Upsert | app/watcher.py:119-129 | replaces a container's forward entry and the reverse entries it contributes; UpsertCanonical states the result |
| RefIndex.Remove | app/watcher.py:140-147 | drops a container's forward entry and its reverse entries; RemoveCanonical states the result |
| RefIndex.EntryMap | app/watcher.py:93-94 | the containers of the rebuilt forward map are exactly those the parse results name |
| RefIndex.BuildCanonical | app/watcher.py:90-96 | with distinct containers, the build loop yields exactly the index its results determine, whatever their order |
| RefIndex.Build | app/watcher.py:90-96 | the build loop over worker results; BuildCanonical states the result |
| RefIndex.MoveStepShape | app/watcher.py:206-209 | one pass of the rename loop removes the old variant's entry and adds its containers under every new variant |
| RefIndex.MovedFormShape | app/watcher.py:205-209 | the closed form of the rename loop: the old variants are gone and every new variant holds all pooled containers |
| RefIndex.PooledAdd | app/watcher.py:183-185 | each old variant adds its own containers to the affected set |
| RefIndex.MoveStepForm | app/watcher.py:205-209 | one more pass of the rename loop extends the closed form by one old variant |
| RefIndex.MoveAllForm | app/watcher.py:205-209 | the rename loop over any sequence of old variants reaches the closed form for all of them |
| RefIndex.MovedFormNothingDone | app/watcher.py:205-209 | before any pass the closed form is the reverse map itself |
| RefIndex.MoveAllClosedForm | app/watcher.py:205-209 | the result of the rename loop does not depend on the order in which the set of old variants is iterated |
| RefIndex.PooledHolders | app/watcher.py:182-185 | in a consistent index the affected containers are exactly those whose forward entry holds an old variant |
| RefIndex.RenameReverse | app/watcher.py:205-209 | after a rename that affects something, old variants lose their reverse entries and every new variant holds the affected containers on top of its own |
| RefIndex.RenameForward | app/watcher.py:211-214 | each affected container trades its old variants for all new ones; every other entry is kept |
| RefIndex.MovedShapeConsistent | app/watcher.py:204-214 | the two updated maps agree whenever they have the shapes the rename loops produce |
| RefIndex.RenameConsistent | app/watcher.py:204-214 | a rename keeps a consistent index consistent |
| RefIndex.RenameEffect | app/watcher.py:181-214 | the containers a rename affects are those holding an old variant; each then holds every new variant and no old one that is not also new; all other containers keep their entries |
| RefIndex.Rename | app/watcher.py:204-214 | moves every container holding an old variant over to the new variants; RenameEffect and RenameConsistent state the result |
| Watcher.ParseWorkerSpec | app/watcher.py:20-45 | the worker skips paths outside the root and files without a handler, reports a missing, empty or unreadable file as "keep old data", and otherwise returns exactly the normalised matches |
| Watcher.ParseWorker | app/watcher.py:20-45 | the index worker; ParseWorkerSpec states its result |
| Watcher.ParseMembershipAll | app/watcher.py:38 | a non-empty container's parse result is exactly the set of its normalised matches |
| Watcher.ProcessContainerEffect | app/watcher.py:103-129 | processing a container replaces its entry as a rebuild would, keeps the index consistent, and changes nothing when the file is on cooldown, outside the root, without a handler or unreadable |
| Watcher.RemoveContainerEffect | app/watcher.py:131-147 | removing a container drops exactly its entry, unless the path is on cooldown or outside the root |
| Watcher.ProcessContainer | app/watcher.py:103-129 | re-indexes one container; ProcessContainerEffect states the result |
| Watcher.RemoveContainer | app/watcher.py:131-147 | drops one container from the index; RemoveContainerEffect states the result |
| Watcher.PatchFilesEffect | app/watcher.py:195-199 | exactly the affected containers that have a handler are rewritten with the table; no other file changes |
| Watcher.SetCooldownsEffect | app/watcher.py:201-202 | exactly the rewritten containers get an expiry two seconds from now; other cooldowns are kept |
| Watcher.NameStartJoin | app/watcher.py:198 | the file name of `root / rel` is the file name of `rel` |
| Watcher.SuffixJoin | app/watcher.py:196-198 | `root / rel` has the same suffix as `rel` |
| Watcher.LowerSameSuffix | app/watcher.py:163-167 | lowering a stem plus an extension gives the same result for every spelling of the extension that lowers to it |
| Watcher.TableCovers | app/watcher.py:158-172 | some table entry renames the old path, up to case, to its target: the new path, or the new stem with the old texture extension when texture matching is on |
| Watcher.PlanCoversPath | app/watcher.py:158-179 | the old path's lowered form is an old variant and the target's lowered form a new variant, so references to the renamed file itself are always rewritten |
| Watcher.UpdateAssetPathEffect | app/watcher.py:149-214 | a rename keeps the index consistent; outside the root or with no holder it does nothing; otherwise it rewrites and cools down exactly the holders of an old variant, and each of them then holds the new variants instead of the old |
| Watcher.UpdateAssetPath | app/watcher.py:149-214 | the rename of one asset: rewrite the holders, rename in the index, set cooldowns; UpdateAssetPathEffect and FailedWriteStillRenamesIndex state the result |
| Watcher.FailedWriteStillRenamesIndex | app/watcher.py:190-214 | when a holder's write fails, the file keeps its old contents, but the index still records the new paths for it |
| Watcher.ContainerFiles | app/utils.py:68-75 | the walker picks exactly the files whose lowered name ends with a container suffix |
| Watcher.Outcomes | app/watcher.py:86-88 | there is one worker result per container file, and result k is the worker's result for file k |
| Watcher.Collect | app/watcher.py:88 | the kept results are exactly the workers' parsed results |
| Watcher.CollectDistinct | app/watcher.py:88-94 | results naming distinct files give entries for distinct containers |
| Watcher.OutcomesDistinct | app/watcher.py:26 | a walk of distinct files under the root gives worker results with distinct relative paths |
| Watcher.ContainerFilesUnder | app/watcher.py:80 | selecting container files keeps a walk distinct and under the root |
| Watcher.EntryMapAt | app/watcher.py:93-94 | with distinct containers, each entry's container maps to that entry's references |
| Watcher.BuildFromOutcomes | app/watcher.py:88-96 | the rebuilt index is consistent, maps each parsed file to its references, and holds nothing else |
| Watcher.BuildIndexEffect | app/watcher.py:77-96 | a walk with no container leaves the index as it was; otherwise the index becomes exactly that of the files the worker could parse, and files that stayed unreadable are dropped |
| Watcher.BuildIndex | app/watcher.py:77-101 | the full index build; BuildIndexEffect, IndexFindsEach and IndexFindsOnly state the result |
| Watcher.IndexFindsEach | app/watcher.py:86-96 | every container file of the walk that the worker parses ends up in the index with exactly the references it yielded |
| Watcher.IndexFindsOnly | app/watcher.py:86-96 | nothing but the walk's parsed container files is indexed, each with the references its parse yielded |
| Watcher.DirectoryMoveEffect | app/watcher.py:216-247 | a directory move keeps the index consistent. It is a no-op when disabled, outside the root, or when no reference lies under the old directory. Otherwise it rewrites and cools down exactly the containers holding such a reference, then rebuilds |
| Watcher.HandleDirectoryMove | app/watcher.py:216-247 | the rewrite of every reference under a moved directory, then a rebuild; DirectoryMoveEffect states the result |
| Watcher.StepConsistent | app/watcher.py:314-361 | every file-system event keeps the index consistent |
| Watcher.Step | app/watcher.py:314-361 | dispatches one file-system event to its handler; StepConsistent states that the index stays consistent |
| Watcher.OnCreated | app/watcher.py:314-330 | a creation: a move completed within a second, then re-indexing a container; MoveDetection and DeleteThenCreateIsMove state it |
| Watcher.OnModified | app/watcher.py:332-337 | a modification re-indexes a container; CooldownSuppresses states the cooldown case |
| Watcher.OnDeleted | app/watcher.py:339-349 | a deletion records a tracked or container file and drops a container from the index; MoveDetection states it |
| Watcher.OnFileMoved | app/watcher.py:351-361 | a file move renames a tracked asset and re-indexes a moved container; OnFileMovedEffect states it and StepConsistent keeps the index consistent |
| Watcher.OnFileMovedEffect | app/watcher.py:351-361 | a file move never records a deletion; a tracked source has its references renamed first; a container is then dropped under its old path and indexed under its new one unless the new path is on cooldown, giving the index of the forward map with the old entry removed and the new one set; any other move leaves the state after the rename |
| Watcher.MoveDetection | app/watcher.py:314-349 | deleting a tracked or container file records its name, path and time, and deleting any other file changes nothing; a created file that has a deletion record with the same name within a second consumes it and, when tracked, renames references to the old path; a container is then re-indexed unless it is on cooldown; a later creation leaves the record |
| Watcher.DeleteThenCreateIsMove | app/watcher.py:314-349 | deleting a tracked file and creating one with the same name elsewhere is a rename of the old path to the new one when less than a second passes, and otherwise only leaves a fresh deletion record |
| Watcher.CooldownSuppresses | app/watcher.py:332-349 | while a container is on cooldown, modifying it changes nothing and deleting it leaves the index and files alone |
| Finding.ParseWrapperMembership | app/tasks/finding.py:13-24 | the wrapper returns exactly the normalised matches of a readable container with a handler, and nothing for any other file or a failing parse |
| Finding.ParseWrapper | app/tasks/finding.py:13-24 | the finders' parse wrapper; ParseWrapperMembership states its result |
| Finding.AssetAt | app/tasks/finding.py:52-60 | an asset found in the walk is filed under its own stem: its relative path without suffix, lowered |
| Finding.AssetMapLastWins | app/tasks/finding.py:46-60 | a stem is an asset exactly when some asset file has it, and it maps to the path of the last such file in the walk |
| Finding.AssetsOfWellStemmed | app/tasks/finding.py:58-60 | every asset found is filed under its own stem |
| Finding.AssetMapStems | app/tasks/finding.py:58-60 | every path the asset map keeps has the stem it is filed under |
| Finding.StemInjective | app/tasks/finding.py:93 | the map never keeps one path under two stems, so the unused list has no repeats |
| Finding.AllRefs | app/tasks/finding.py:85-87 | the pooled references are exactly those some container makes |
| Finding.SuffixContainers | app/tasks/finding.py:64-66 | the unused-asset scan parses exactly the walked files whose suffix has a handler |
| Finding.FindUnused | app/tasks/finding.py:37-101 | the unused list is sorted, lists each unreferenced asset's path once and nothing else, and the total is the number of distinct asset stems |
| Finding.DistinctMultiset | app/tasks/finding.py:93 | a list without repeats that holds exactly a set's elements has that set's multiset |
| Finding.UnusedMeaning | app/tasks/finding.py:85-93 | an asset is reported unused exactly when it is the path kept for its stem and no reference has that stem, whatever their extensions and case |
| Finding.UnusedSetMeaning | app/tasks/finding.py:93 | the same, for any well-stemmed asset map |
| Finding.CacheAll | app/tasks/finding.py:141-150 | the cache gains exactly the references not seen before, each with its existence; earlier entries are kept |
| Finding.AppendAll | app/tasks/finding.py:152-153 | each missing reference gets the current container appended to its list |
| Finding.ScanContainerFacts | app/tasks/finding.py:140-153 | scanning one container keeps the cache truthful and its check count equal to its size, and extends the missing map by this container |
| Finding.ScanContainerStep | app/tasks/finding.py:129-155 | the scan invariant holds after one more container |
| Finding.InvariantParts | app/tasks/finding.py:120-153 | the scan invariant is the conjunction of its parts |
| Finding.MissingStep | app/tasks/finding.py:152-153 | after one more container, each missing list is still the list of containers making that reference |
| Finding.HoldersOutside | app/tasks/finding.py:152-153 | a reference no container makes has no holders |
| Finding.AllRefsSnoc | app/tasks/finding.py:140 | the references seen after one more container are those before it plus its own |
| Finding.ScanAllInvariant | app/tasks/finding.py:126-155 | after any prefix of the containers, the cache holds exactly the references seen, each with its true existence; the missing map holds exactly the unsatisfied ones, each with the containers making it |
| Finding.FindMissingEffect | app/tasks/finding.py:114-162 | the report's keys are exactly the references some container makes that neither exist nor, for `.tif`/`.png`/`.tga`, have a `.dds` sibling; each lists the containers making it; every container is counted |
| Finding.Found | app/tasks/finding.py:143-148 | a reference counts as present when its path exists or, for `.tif`/`.png`/`.tga`, its `.dds` sibling does; FindMissingEffect reports in terms of it |
| Finding.FindMissing | app/tasks/finding.py:114-162 | the missing-reference finder; FindMissingEffect and HoldersMeaning state its report |
| Finding.CheckedOncePerReference | app/tasks/finding.py:121-122 | existence is checked once per distinct reference, and every cached answer is the true one |
| Finding.HoldersMeaning | app/tasks/finding.py:152-153 | a missing reference lists each container making it exactly once |
| Cleaner.Find | app/tasks/cleaner.py:35 | `find("<")` returns the first '<', or -1 when there is none |
| Cleaner.StripHeaderEffect | app/tasks/cleaner.py:32-38 | the header is stripped exactly when the option is on, the file is XML-family and text without '<' precedes the first '<'; the dropped text and the result make up the input, and the result starts with '<'; the older worker in app/tasks.py strips under the same condition |
| Cleaner.StripHeader | app/tasks/cleaner.py:32-38 | the header-stripping stage; StripHeaderEffect states it |
| Cleaner.CleanPathShape | app/tasks/cleaner.py:43-54 | without `normpath`, a cleaned path keeps its length and each character is only turned from '\\' to '/' and/or lowered; with lowercasing on, the result is lower-case |
| Cleaner.ProcessSegFrame | app/tasks/cleaner.py:43-54 | the callback keeps each match's key, quote characters and trailing comma and blanks; a path without '.' is left as matched |
| Cleaner.RenderPathsSame | app/tasks/cleaner.py:60 | pieces with the same texts render the same text |
| Cleaner.PathStageIdle | app/tasks/cleaner.py:40-62 | when no match's path is changed by the edits, the path stage neither changes the text nor records "cleaned paths" |
| Cleaner.TrimmedLines | app/tasks/cleaner.py:64-66 | splitting the trimmed text at "\n" gives back exactly the right-stripped lines: none ends in a blank, and none is merged or split |
| Cleaner.RStripNoBreak | app/tasks/cleaner.py:66 | a right-stripped line still holds no line break |
| Cleaner.TrimKeepsFinalNewline | app/tasks/cleaner.py:67-68 | when the original text ended in a line break, both trimming stages end their result in a newline |
| Cleaner.TrimStage | app/tasks/cleaner.py:64-71 | the newer trimming stage; TrimmedLines and TrimKeepsFinalNewline state it |
| Cleaner.LegacyTrimStage | app/tasks.py:62-68 | the older trimming stage, as written; LegacyTrimMissesEqualLength shows where it misses a change |
| Cleaner.LegacyTrimMissesEqualLength | app/tasks.py:62-68 | as written, the older trimming stage records nothing when trimming changes the text but not its length (see Findings) |
| Cleaner.LegacyTrimStageCorrected | app/tasks/cleaner.py:69-70 | the corrected older stage produces the same text as the original and records an action exactly when the text changed (see Findings) |
| Cleaner.LegacyTrimCorrectedRecordsChanges | app/tasks/cleaner.py:69-70 | the corrected older stage records nothing only when trimming left the text unchanged, and it records the change the original misses |
| Cleaner.NewlineFor | app/tasks/cleaner.py:78-84 | the newline chosen is always CRLF, LF or CR |
| Cleaner.NewlineTable | app/tasks/cleaner.py:78-84 | the three labels select their newline; any other label, or none, selects CRLF |
| Cleaner.ToLF | app/tasks/cleaner.py:86 | converting CRLF and then CR to LF leaves no carriage return |
| Cleaner.ToLFOfUnix | app/tasks/cleaner.py:86 | text already free of '\r' is left alone by the conversion |
| Cleaner.ReplaceAllAbsentPattern | app/tasks/cleaner.py:86-87 | a pattern whose first character does not occur is never replaced |
| Cleaner.Finish | app/tasks/cleaner.py:96-100 | with no action the file is reported unchanged and not written; otherwise it is written with the planned text, encoding and newline, and a failed write is an error |
| Cleaner.CleanFileEffect | app/tasks/cleaner.py:15-103 | an unreadable file is an error and an empty one is skipped, neither written; otherwise the file is written exactly when some action applied; with encoding normalisation the written text has no '\r' and uses the chosen newline |
| Cleaner.CleanPlan | app/tasks/cleaner.py:32-94 | the newer worker's stages and the write it plans; CleanFileEffect and EncodingAloneWrites state it |
| Cleaner.CleanFile | app/tasks/cleaner.py:15-103 | the newer worker; CleanFileEffect states its outcome |
| Cleaner.LegacyCleanFile | app/tasks.py:18-86 | the older worker, as written; LegacyEncodingNeverAlone, LegacyTrimOnlyAsWritten and LegacyWorkerMissesTrim state it |
| Cleaner.LegacyCleanFileCorrected | app/tasks.py:18-86 | the older worker with the trimming stage corrected; LegacyTrimOnly states it |
| Cleaner.EncodingAloneWrites | app/tasks/cleaner.py:76-94 | with only encoding normalisation on, the newer worker writes a file exactly when re-encoding it with the target newline gives different bytes |
| Cleaner.EncodingActionAlone | app/tasks/cleaner.py:76-94 | encoding normalisation is recorded as an action exactly when it is on, the re-encoded text gives other bytes and no other action applied, and it is then the only action |
| Cleaner.LegacyEncodingNeverAlone | app/tasks.py:70-80 | in the older worker, encoding normalisation never causes a write by itself: with the text options off every file is reported unchanged |
| Cleaner.LegacyTrimOnly | app/tasks.py:62-71 | with only trimming on, the corrected older worker leaves a file alone exactly when trimming does not change it, and otherwise writes the trimmed text |
| Cleaner.LegacyTrimOnlyAsWritten | app/tasks.py:62-71 | with only trimming on, the older worker as written reports a file unchanged exactly when trimming keeps its length, and otherwise writes the trimmed text |
| Cleaner.LegacyWorkerMissesTrim | app/tasks.py:62-71 | with `os.linesep` "\r\n" and only trimming on, the file "a \n" is reported "Already clean" and not written by the older worker as written, while the corrected worker writes "a\r\n" |
| Cleaner.NewlineNames | app/tasks.py:79 | the older worker names the newlines CRLF, LF and CR |
| Cleaner.TallyAll | app/tasks/cleaner.py:116-131 | the four counts add up to the number of files, and there is one failure line per error |
| Cleaner.TallyCounts | app/tasks/cleaner.py:124-128 | each count is the number of files with that status |
| Cleaner.WithStatusSnoc | app/tasks/cleaner.py:126 | one more result adds itself to exactly the set of its own status |
| Cleaner.TallyFailures | app/tasks.py:107-111 | the failure list holds "name: message" for each erroring file, in order |
| Cleaner.CleanProjectEffect | app/tasks/cleaner.py:110-114 | a walk without a handled text file reports that nothing was found; otherwise every handled file is cleaned and counted once |
| Cleaner.CleanProject | app/tasks/cleaner.py:110-140 | the project cleaner; CleanProjectEffect states its report |
| Packer.CenterPad | app/tasks/packer.py:23 | `center` pads to the width, never truncates, and splits the padding within one character of even, the extra one going right for an even width |
| Packer.HeaderPieces | app/tasks/packer.py:21-23 | the banner is 80 characters wide unless the path makes it longer, and it is a run of at least five '=', " FILE: ", the path, a blank and another run of at least five '='; the older packer in app/tasks.py writes the same banner |
| Packer.Selected | app/tasks/packer.py:14 | the packer picks exactly the walked files whose lowered suffix is one of the extensions |
| Packer.NoneSelected | app/tasks/packer.py:15-16 | the selection is empty exactly when no walked file has a listed extension |
| Packer.PackFails | app/tasks/packer.py:15-26 | packing fails exactly when no file has a listed extension or the archive cannot be written, and the message says which; the older packer in app/tasks.py fails under the same conditions, with its own wording |
| Packer.Pack | app/tasks/packer.py:13-27 | the packer; PackFails, PackContents and PackUnpack state it |
| Packer.PackContents | app/tasks/packer.py:14-27 | a successful archive holds every selected file once, in `Path` order, and the summary counts them |
| Packer.EqRun | app/tasks/packer.py:39 | the run of '=' read is never longer than the text |
| Packer.EqRunSpec | app/tasks/packer.py:39 | `={5,}` is read whole: the run is all '=' and is not followed by another '=' |
| Packer.FirstClose | app/tasks/packer.py:39 | where the lazy name group ends, the banner close matches |
| Packer.FirstCloseSpec | app/tasks/packer.py:39 | the lazy name group stops at the first place the banner close matches |
| Packer.BodyEnd | app/tasks/packer.py:39 | the lazy body group ends where the look-ahead holds |
| Packer.BodyEndSpec | app/tasks/packer.py:39 | the lazy body group stops at the first place the look-ahead holds |
| Packer.MatchAt | app/tasks/packer.py:39 | a match consumes at least one character, so `findall` progresses |
| Packer.Search | app/tasks/packer.py:40 | the leftmost match also consumes input |
| Packer.Writes | app/tasks/packer.py:43-47 | there is one write per match found; write k goes to the match's path under the output directory, and its text is the match's body right-stripped followed by one newline |
| Packer.WriteAll | app/tasks/packer.py:43-49 | files are written in order until the first failure, which the result reports; without a failure all are written |
| Packer.UnpackFoundFailures | app/tasks/packer.py:41-50 | once the pattern has run, no match is a failure that writes nothing, success writes one file per match with no write failing, and a failing write stops after the files before it |
| Packer.UnpackFailures | app/tasks/packer.py:35-49 | a missing archive, or one without a banner, writes nothing and fails; success writes one file per match; a failure part-way stops after the files before it; the older unpacker in app/tasks.py fails under the same conditions, with its own wording |
| Packer.Unpack | app/tasks/packer.py:34-50 | the unpacker; UnpackFailures and UnpackPack state it |
| Packer.SectionPieces | app/tasks/packer.py:23-24 | a packed section is a blank line, the banner, another blank line and the text |
| Packer.SectionRuns | app/tasks/packer.py:23 | both '=' runs of a banner have at least five characters |
| Packer.EqRunRepeat | app/tasks/packer.py:39 | a run of n '=' followed by something else reads as n |
| Packer.LStripConcat | app/tasks/packer.py:39 | `\s*` stops at the first non-blank character |
| Packer.NoCloseInPath | app/tasks/packer.py:39 | no banner close starts inside a path without '=' that ends in a non-blank |
| Packer.FirstCloseAfter | app/tasks/packer.py:39 | the lazy name group ends exactly after such a path |
| Packer.BodyEndAtShape | app/tasks/packer.py:39 | where the look-ahead holds on non-empty text, the text starts with a blank line and '=' |
| Packer.NoBodyEndInText | app/tasks/packer.py:39 | the look-ahead does not hold inside a text without a blank line followed by '=' |
| Packer.BodyEndAfter | app/tasks/packer.py:39 | the lazy body group ends exactly after such a text, before the next section or the end |
| Packer.BannerOpen | app/tasks/packer.py:39 | `={5,}\s*FILE:\s*` consumes a banner's opening up to the path |
| Packer.BannerClose | app/tasks/packer.py:39 | `\s*={5,}\n\n` consumes a banner's close, and the body starts after it |
| Packer.SectionEndsBody | app/tasks/packer.py:39 | the look-ahead holds at the start of every section |
| Packer.MatchAtSteps | app/tasks/packer.py:39 | the pattern at a position is the opening run, then the name up to the first close, then the body up to the look-ahead |
| Packer.BannerMatch | app/tasks/packer.py:39 | the pattern tried at a banner yields that banner's path and text |
| Packer.SearchHere | app/tasks/packer.py:40 | the search stops at the first position where the pattern matches |
| Packer.SearchBlankLine | app/tasks/packer.py:40 | the search passes over the blank line before a banner |
| Packer.SectionMatch | app/tasks/packer.py:22-23 | searching a section followed by the end or another section finds exactly that section's path and text |
| Packer.ArchiveStart | app/tasks/packer.py:23 | an archive is empty or starts with a blank line, where a body ends |
| Packer.FindAllStep | app/tasks/packer.py:40 | `findall` continues after the text of each match |
| Packer.FindAllArchive | app/tasks/packer.py:19-24 | scanning an archive of packable entries finds exactly those entries, in order |
| Packer.FindAll | app/tasks/packer.py:41 | `pattern.findall` of the unpack pattern; FindAllArchive states what it finds in a packed archive |
| Packer.StripTrimmed | app/tasks/packer.py:45 | a path without blanks at either end is its own `strip()` |
| Packer.WriteAllSucceeds | app/tasks/packer.py:43-47 | when no write fails, every file is written |
| Packer.UnpackPack | app/tasks/packer.py:43-47 | unpacking a packed archive writes every packed file back, in order, at its '/'-separated path under the output directory, with its text right-stripped and ending in one newline |
| Packer.PackUnpack | app/tasks/packer.py:9-50 | packing a tree and unpacking the archive writes back exactly the selected files, each at its path with its text right-stripped and ending in one newline |
| Analyzer.SplitExtSpec | app/tasks.py:138 | the extension is empty or one dot followed by no other, and it is empty exactly when no dot in the name has a non-dot before it |
| Analyzer.ExtKey | app/tasks.py:138 | every counter key starts with a dot |
| Analyzer.ExtKeyCases | app/tasks.py:138 | a name without an extension is counted under `.<no_ext>`, and any other under its extension, lowered |
| Analyzer.Count | app/tasks.py:134-138 | the counter holds exactly the keys seen, each with its number of occurrences |
| Analyzer.AnalyzeCounts | app/tasks.py:132-143 | the total is the number of walked files, and every key seen is counted with a positive count |
| Analyzer.Analyze | app/tasks.py:132-143 | the extension analyzer; AnalyzeCounts and TotalIsSum state its report |
| Analyzer.Copies | app/tasks.py:138 | n increments of one key add n copies of that key |
| Analyzer.SumMultiset | app/tasks.py:134-138 | summing each key's count once gives the number of counted files |
| Analyzer.TotalIsSum | app/tasks.py:134-142 | the reported total equals the sum of the reported counts |

## Left out

- File reading and decoding: `chardet`, codecs, `errors="ignore"`/`"replace"` and the UTF-8 bytes behind `mmap` are not modelled. A file is readable with a given text, or unreadable. The cleaner's encoder is a parameter.
- Regular expressions: matching of the handlers' and cleaner's patterns is not modelled. Texts come already split into literal runs and matches. `Handlers.WellFormed` states the shape a match has, such as the key names and the quote closing with the same character, as a hypothesis rather than deriving it. The unpacker's pattern is the exception: it is implemented.
- `os.path.normpath`, `os.path.sep`, `os.linesep` and the text encoder are parameters. Paths are plain '/'-separated strings assumed already normalised. `Path`'s collapsing of repeated separators and of "." parts is not modelled.
- Paths.ToRel: `relative_to` and the `Path`-keyed write-cooldown map (`OnCooldown`, `SetCooldowns`) are modelled with exact, case-sensitive string comparison, also on Windows, where `PureWindowsPath` compares and hashes ignoring case; so `ToRel("C:/Proj", "c:/proj/a.mtl")` is None in the model but "a.mtl" in Python. The difference only shows when two spellings of one path meet. The walk, the observer and the cooldown keys all start from the same configured root string, and the containers' relative paths come from that same walk, so the file system's spelling is what every side sees.
- Lowercasing is ASCII-only: `str.lower` on non-ASCII letters is not modelled, in the handlers and in the Windows case-folding of `Path` order alike.
- Concurrency: the process and thread pools, the index lock, `as_completed` order and progress signals are not modelled. Results are processed in walk order. For the missing-reference report, each list of containers is therefore in walk order, not completion order.
- Watcher.ParseWorker: the ten retries with 50 ms sleeps are collapsed into one readability check on the current snapshot.
- Time: `time.time()` is the `now` argument. Durations and the "duration" fields of reports are left out.
- Writes: `atomic_write`, `mkdir(parents=True)` and file modes are not modelled. The model records the text written. The cleaner, the packer and the unpacker take an optional failure; a container's `writable` flag says whether a handler's write succeeds, and a failed write leaves the file as it was.
- Packer.Pack: a partially written archive left behind by a failure is not modelled; a failure only yields the message.
- Packer.Unpack: the archive's text is a parameter, so a failure to read it is not modelled separately.
- Packer.PackUnpack: proved only for packable entries: a non-empty path without '=' and without edge blanks, and a text with no blank line followed by '='. Other entries can be split or merged differently by the unpack pattern, and that case is not characterised.
- Packer.Selected: `rglob("*")` with `is_file()` is a list of files; directories are assumed already filtered out.
- Cleaner.CleanProjectEffect: a worker that raises out of the process pool (the "Critical" branch) is not modelled, because the worker catches every exception itself.
- The `WatcherService` thread and observer lifecycle, signals, logging, the UI, configuration loading and saving, and the `.tod`/Lua-compiler/duplicate/converter tasks are outside this model.
- `app/tasks/analyzer.py` is not part of this model. The analyzer modelled is the one in `app/tasks.py`.
- Handlers.Rewrite: the rewritten document keeps the split of the document it came from; it is not matched again. A new value that is not a quote-free path with a tracked extension therefore stays a match although the pattern would no longer find it, and a later parse still reports it (Handlers.RewriteCanLeavePatternShape). The pattern's shape is proved kept only when every substituted value is such a path (Handlers.RewriteKeepsWellFormed, Handlers.ExactRenameKeepsWellFormed); no such result is proved for directory moves, and Watcher.Step does not carry the shape as an invariant.
- Watcher.UpdateAssetPathEffect: `allow_ext_change` is never consulted by the code, so it has no counterpart here.

## Findings

| source | as written | input that shows it | evidently intended | confidence | as-written member | corrected member |
|---|---|---|---|---|---|---|
| app/tasks.py:62-68 | the older cleaner records "trimmed whitespace" only when the trimmed text's length differs from the original text's | with `os.linesep` = "\r\n" and only trimming on, the file "a \n" trims to "a\r\n". The length is unchanged, so no action is recorded and the file is reported "Already clean" without being written | record the action whenever trimming changed the text, as the newer worker at app/tasks/cleaner.py:69-70 does by comparing contents | medium, not executed | Cleaner.LegacyCleanFile, shown by Cleaner.LegacyWorkerMissesTrim and Cleaner.LegacyTrimMissesEqualLength | Cleaner.LegacyCleanFileCorrected, proved by Cleaner.LegacyTrimOnly and Cleaner.LegacyTrimCorrectedRecordsChanges |

=== FILE: analyzer.dfy ===
/** The project analyzer of the legacy `app/tasks.py`: it counts the files
    under a root by lowered extension.  The directory walk is given as the
    sequence of the walked files' names; the run time it reports is left out. */
module Analyzer {
  import opened Strings
  import opened Paths

  /** The extension `os.path.splitext` gives is empty or one dot followed by
      no other, and it is empty exactly when no dot in the name has a
      non-dot before it (`.bashrc`, `..`, `README`). */
  lemma SplitExtSpec(name: string)
    ensures var e := SplitExt(name);
      && (e == "" || (e[0] == '.' && forall j :: 0 < j < |e| ==> e[j] != '.'))
      && (e != "" <==> exists i, j :: 0 <= i < j < |name| && name[i] != '.' && name[j] == '.')
  {
    var d := LastDot(name);
    var e := SplitExt(name);
    if e != "" {
      var i :| 0 <= i < d && name[i] != '.';
      assert name[i] != '.' && name[d] == '.';
      forall j | 0 < j < |e| ensures e[j] != '.' {
        assert e[j] == name[d + j];
      }
    }
  }

  /** The counter key of a file: its lowered extension, or `.<no_ext>`. */
  function ExtKey(name: string): (k: string)
    ensures |k| > 0 && k[0] == '.'
  {
    var e := Lower(SplitExt(name));
    if e == "" then ".<no_ext>"
    else
      assert e[0] == LowerChar(SplitExt(name)[0]) by {
        SplitExtSpec(name);
      }
      e
  }

  /** A name with no extension is counted under `.<no_ext>`, and one with an
      extension under that extension, lowered. */
  lemma ExtKeyCases(name: string)
    ensures !(exists i, j :: 0 <= i < j < |name| && name[i] != '.' && name[j] == '.') ==> ExtKey(name) == ".<no_ext>"
    ensures (exists i, j :: 0 <= i < j < |name| && name[i] != '.' && name[j] == '.') ==> ExtKey(name) == Lower(SplitExt(name))
  {
    SplitExtSpec(name);
  }

  /** The keys of the walked files, in walk order. */
  function Keys(names: seq<string>): (ks: seq<string>)
    ensures |ks| == |names| && forall i :: 0 <= i < |names| ==> ks[i] == ExtKey(names[i])
  {
    seq(|names|, i requires 0 <= i < |names| => ExtKey(names[i]))
  }

  /** `Counter(keys)`: each key seen maps to the number of times it is seen. */
  function Count(keys: seq<string>): (m: map<string, nat>)
    ensures forall k :: k in m <==> k in multiset(keys)
    ensures forall k :: k in m ==> m[k] == multiset(keys)[k]
  {
    if |keys| == 0 then map[]
    else
      var init := keys[..|keys| - 1];
      var last := keys[|keys| - 1];
      assert keys == init + [last];
      var m := Count(init);
      m[last := (if last in m then m[last] else 0) + 1]
  }

  /** What the analysis reports. */
  datatype Report = Report(totalFiles: nat, extensions: map<string, nat>)

  /** `ProjectAnalyzer.run`. */
  function Analyze(names: seq<string>): Report {
    Report(|names|, Count(Keys(names)))
  }

  /** The total is the number of walked files, every walked file is counted
      under its own key, and the counts add up to the total. */
  lemma AnalyzeCounts(names: seq<string>)
    ensures var r := Analyze(names);
      && r.totalFiles == |names|
      && (forall k :: k in r.extensions <==> exists i :: 0 <= i < |names| && ExtKey(names[i]) == k)
      && (forall k :: k in r.extensions ==> r.extensions[k] == multiset(Keys(names))[k] > 0)
      && |multiset(Keys(names))| == r.totalFiles
  {
    var ks := Keys(names);
    forall k ensures k in multiset(ks) <==> exists i :: 0 <= i < |names| && ExtKey(names[i]) == k {
      if k in multiset(ks) {
        assert k in ks;
        var i :| 0 <= i < |ks| && ks[i] == k;
        assert ExtKey(names[i]) == k;
      }
    }
  }

  /** The sum of the counts of the keys listed. */
  function SumOf(m: map<string, nat>, ks: seq<string>): nat
    requires forall i :: 0 <= i < |ks| ==> ks[i] in m
  {
    if |ks| == 0 then 0 else m[ks[0]] + SumOf(m, ks[1..])
  }

  /** `n` copies of `x`. */
  function Copies(x: string, n: nat): (r: multiset<string>)
    ensures |r| == n && r[x] == n && forall y :: y != x ==> r[y] == 0
  {
    if n == 0 then multiset{} else Copies(x, n - 1) + multiset{x}
  }

  /** Summing the multiplicities of every element of a multiset, each once,
      gives its size. */
  lemma {:induction false} SumMultiset(ms: multiset<string>, m: map<string, nat>, ks: seq<string>)
    requires forall i, j :: 0 <= i < j < |ks| ==> ks[i] != ks[j]
    requires forall k :: k in ms ==> k in ks
    requires forall i :: 0 <= i < |ks| ==> ks[i] in m && m[ks[i]] == ms[ks[i]]
    ensures SumOf(m, ks) == |ms|
    decreases |ks|
  {
    if |ks| > 0 {
      var x := ks[0];
      var rest := ms[x := 0];
      assert ms == rest + Copies(x, ms[x]);
      SumMultiset(rest, m, ks[1..]);
    }
  }

  /** Summing a counter's counts over its keys, each once, gives the number
      of items counted. */
  lemma CountSum(keys: seq<string>, ks: seq<string>)
    requires forall i, j :: 0 <= i < j < |ks| ==> ks[i] != ks[j]
    requires forall k :: k in Count(keys) <==> k in ks
    ensures SumOf(Count(keys), ks) == |keys|
  {
    var ms := multiset(keys);
    var m := Count(keys);
    assert forall k :: k in ms ==> k in ks by {
      forall k | k in ms ensures k in ks {
        assert k in m;
      }
    }
    assert forall i :: 0 <= i < |ks| ==> ks[i] in m && m[ks[i]] == ms[ks[i]];
    SumMultiset(ms, m, ks);
  }

  /** The reported total is the sum of the reported counts, whatever order the
      keys are listed in. */
  lemma TotalIsSum(names: seq<string>, ks: seq<string>)
    requires forall i, j :: 0 <= i < j < |ks| ==> ks[i] != ks[j]
    requires forall k :: k in Analyze(names).extensions <==> k in ks
    ensures SumOf(Analyze(names).extensions, ks) == Analyze(names).totalFiles
  {
    CountSum(Keys(names), ks);
  }
}

=== FILE: cleaner.dfy ===
/** The project cleaner: the per-file worker of `app/tasks/cleaner.py` and its
    legacy copy in `app/tasks.py`, and the tally `ProjectCleaner.run` keeps.

    The worker's text pipeline is modelled stage by stage on strings.  The
    path regex is a `scan` parameter that splits a text into literal runs and
    matches; `os.path.normpath`, the encoder, the decoder (UTF-8 with a
    chardet fallback) and the outcome of `atomic_write` are parameters too.
 */
module Cleaner {
  import opened Wrappers
  import opened Strings
  import opened Paths
  import opened Order
  import opened Config
  import opened Watcher

  type Bytes = seq<bv8>

  /** The worker's options; a missing key reads as false or as the default. */
  datatype Options = Options(
    stripBom: bool, normalizePaths: bool, resolveRedundantPaths: bool, convertToLowercase: bool,
    trimWhitespace: bool, normalizeEncoding: bool, targetEncoding: Option<string>, newlineLabel: Option<string>)

  /** What the worker calls outside the text pipeline: the separator and
      `os.linesep`, `os.path.normpath`, and `str.encode` (None when it raises). */
  datatype Platform = Platform(sep: char, linesep: string, normpath: string -> string, encode: (string, string) -> Option<Bytes>)

  /** A file as read: its bytes with the decoded text and the encoding used,
      or the message of the exception reading it raised. */
  datatype Source = Unreadable(error: string) | Source(bytes: Bytes, text: string, encoding: string)

  datatype Status = Modified | Unchanged | Skipped | Error

  /** The `atomic_write` call: text, encoding and newline translation. */
  datatype Write = Write(text: string, encoding: string, newline: Option<string>)

  datatype Outcome = Outcome(status: Status, message: string, write: Option<Write>)

  // ---------------------------------------------------------------- header

  /** `s.find(c)`. */
  function Find(s: string, c: char): (r: int)
    ensures -1 <= r < |s|
    ensures r >= 0 ==> s[r] == c
    ensures forall j :: 0 <= j < |s| && (r == -1 || j < r) ==> s[j] != c
  {
    if |s| == 0 then -1
    else if s[0] == c then 0
    else
      var r := Find(s[1..], c);
      assert forall j :: 1 <= j < |s| ==> s[j] == s[1..][j - 1];
      if r == -1 then -1 else r + 1
  }

  /** `strip_bom`: for an XML-family file, drop whatever precedes the first '<'
      when something does. */
  function StripHeader(o: Options, suffix: string, text: string): (string, bool) {
    var i := Find(text, '<');
    if o.stripBom && suffix in XmlExtensions && i > 0 then (text[i..], true) else (text, false)
  }

  /** The header is stripped exactly when the option is on, the file is of the
      XML family and some text without a '<' precedes the first '<'; then the
      result starts with that '<' and the dropped text and the result make up
      the input. */
  lemma StripHeaderEffect(o: Options, suffix: string, text: string)
    ensures var (r, acted) := StripHeader(o, suffix, text);
      && (acted <==> o.stripBom && suffix in XmlExtensions && |text| > 0 && text[0] != '<' && Contains(text, '<'))
      && (acted ==> exists h :: h + r == text && |h| > 0 && !Contains(h, '<') && r[0] == '<')
      && (!acted ==> r == text)
  {
    var i := Find(text, '<');
    if Contains(text, '<') {
      var j :| 0 <= j < |text| && text[j] == '<';
    }
    if i > 0 {
      var h := text[..i];
      assert h + text[i..] == text;
      assert !Contains(h, '<');
    }
  }

  // ---------------------------------------------------------------- paths

  /** A text as the path regex splits it: literal runs and matches
      `key =`, quote, path, the same quote, and trailing comma/blanks. */
  datatype PathSeg = Plain(text: string) | PathMatch(keyEq: string, quote: char, path: string, tail: string)

  function RenderSeg(g: PathSeg): string {
    match g
    case Plain(t) => t
    case PathMatch(k, q, p, tl) => k + [q] + p + [q] + tl
  }

  function RenderPaths(segs: seq<PathSeg>): string
    decreases |segs|
  {
    if |segs| == 0 then "" else RenderPaths(segs[..|segs| - 1]) + RenderSeg(segs[|segs| - 1])
  }

  /** The processor's path edits, in order: separators, `normpath`, case. */
  function CleanPath(o: Options, pf: Platform, path: string): string {
    var p1 := if o.normalizePaths then ReplaceChar(path, '\\', '/') else path;
    var p2 := if o.resolveRedundantPaths then ReplaceChar(pf.normpath(p1), pf.sep, '/') else p1;
    if o.convertToLowercase then Lower(p2) else p2
  }

  /** The regex callback: a path without a '.' is left as matched. */
  function ProcessSeg(o: Options, pf: Platform, g: PathSeg): PathSeg {
    match g
    case Plain(_) => g
    case PathMatch(k, q, p, tl) => if Contains(p, '.') then PathMatch(k, q, CleanPath(o, pf, p), tl) else g
  }

  function ProcessAll(o: Options, pf: Platform, segs: seq<PathSeg>): (r: seq<PathSeg>)
    ensures |r| == |segs| && forall i :: 0 <= i < |segs| ==> r[i] == ProcessSeg(o, pf, segs[i])
  {
    seq(|segs|, i requires 0 <= i < |segs| => ProcessSeg(o, pf, segs[i]))
  }

  predicate PathOptions(o: Options) {
    o.normalizePaths || o.resolveRedundantPaths || o.convertToLowercase
  }

  /** The path stage; "cleaned paths" is recorded when the text changed. */
  function PathStage(o: Options, pf: Platform, scan: string -> seq<PathSeg>, text: string): (string, bool) {
    if PathOptions(o) then
      var r := RenderPaths(ProcessAll(o, pf, scan(text)));
      (r, r != text)
    else (text, false)
  }

  /** Without `normpath` the path keeps its length and each character is only
      turned from '\\' to '/' and/or lowered; with lowercasing on the result is
      lower-case whatever else ran. */
  lemma CleanPathShape(o: Options, pf: Platform, path: string)
    ensures o.convertToLowercase ==> IsLower(CleanPath(o, pf, path))
    ensures !o.resolveRedundantPaths ==>
      var r := CleanPath(o, pf, path);
      && |r| == |path|
      && forall i :: 0 <= i < |path| ==>
           var c := if o.normalizePaths && path[i] == '\\' then '/' else path[i];
           r[i] == if o.convertToLowercase then LowerChar(c) else c
  {
    var p1 := if o.normalizePaths then ReplaceChar(path, '\\', '/') else path;
    var p2 := if o.resolveRedundantPaths then ReplaceChar(pf.normpath(p1), pf.sep, '/') else p1;
    LowerIsLower(p2);
  }

  /** A processed match keeps its key, `=`, quote characters and trailing
      comma/blanks; literal runs are kept verbatim. */
  lemma ProcessSegFrame(o: Options, pf: Platform, g: PathSeg)
    ensures var r := ProcessSeg(o, pf, g);
      && (g.Plain? ==> r == g)
      && (g.PathMatch? ==> r.PathMatch? && r.keyEq == g.keyEq && r.quote == g.quote && r.tail == g.tail)
      && (g.PathMatch? && !Contains(g.path, '.') ==> r == g)
  {
  }

  lemma {:induction false} RenderPathsSame(a: seq<PathSeg>, b: seq<PathSeg>)
    requires |a| == |b|
    requires forall i :: 0 <= i < |a| ==> RenderSeg(a[i]) == RenderSeg(b[i])
    ensures RenderPaths(a) == RenderPaths(b)
    decreases |a|
  {
    if |a| > 0 {
      RenderPathsSame(a[..|a| - 1], b[..|b| - 1]);
    }
  }

  /** When the scan splits the text faithfully and no match's path is changed
      by the edits, the stage leaves the text alone and records nothing. */
  lemma PathStageIdle(o: Options, pf: Platform, scan: string -> seq<PathSeg>, text: string)
    requires RenderPaths(scan(text)) == text
    requires forall i :: 0 <= i < |scan(text)| && scan(text)[i].PathMatch? ==>
      CleanPath(o, pf, scan(text)[i].path) == scan(text)[i].path
    ensures PathStage(o, pf, scan, text) == (text, false)
  {
    if PathOptions(o) {
      RenderPathsSame(ProcessAll(o, pf, scan(text)), scan(text));
    }
  }

  // ---------------------------------------------------------------- whitespace

  function RStripAll(lines: seq<string>): (r: seq<string>)
    ensures |r| == |lines| && forall k :: 0 <= k < |lines| ==> r[k] == RStrip(lines[k])
  {
    seq(|lines|, k requires 0 <= k < |lines| => RStrip(lines[k]))
  }

  /** `"\n".join(line.rstrip() for line in text.splitlines())`. */
  function TrimmedBody(text: string): string {
    Join(RStripAll(SplitLines(text)), "\n")
  }

  predicate EndsWithBreak(s: string) {
    |s| > 0 && (s[|s| - 1] == '\n' || s[|s| - 1] == '\r')
  }

  /** The trimming stage: a final "\n" is restored when the original text
      ended in a newline; "trimmed whitespace" is recorded when the text
      differs once newlines are ignored. */
  function TrimStage(original: string, text: string): (string, bool) {
    var t := TrimmedBody(text);
    var t' := if original != "" && EndsWithBreak(original) && !EndsWith(t, "\n") then t + "\n" else t;
    (t', ReplaceAll(t', "\n", "") != ReplaceAll(ReplaceAll(text, "\r", ""), "\n", ""))
  }

  /** The legacy trimming stage: `os.linesep` is restored, and the action is
      recorded when the length differs from the original text's. */
  function LegacyTrimStage(pf: Platform, original: string, text: string): (string, bool) {
    var t := TrimmedBody(text);
    var t' := if original != "" && EndsWithBreak(original) && !EndsWithBreak(t) then t + pf.linesep else t;
    (t', |t'| != |original|)
  }

  /** The legacy stage as its evident intent reads, and as the newer worker
      does it: the action is recorded exactly when trimming changed the text. */
  function LegacyTrimStageCorrected(pf: Platform, original: string, text: string): (r: (string, bool))
    ensures r.0 == LegacyTrimStage(pf, original, text).0
  {
    var t' := LegacyTrimStage(pf, original, text).0;
    (t', t' != text)
  }

  /** With `os.linesep` = "\r\n", trimming "a \n" gives "a\r\n": the text
      changed but its length did not, so the legacy stage records nothing. */
  lemma LegacyTrimMissesEqualLength(pf: Platform)
    requires pf.linesep == "\r\n"
    ensures LegacyTrimStage(pf, "a \n", "a \n") == ("a\r\n", false)
    ensures LegacyTrimStage(pf, "a \n", "a \n").0 != "a \n"
  {
    var s := "a \n";
    assert FirstLineBreak(s[2..]) == 0;
    assert FirstLineBreak(s[1..]) == 1 by { assert s[1..][1..] == s[2..]; }
    assert FirstLineBreak(s) == 2;
    assert SplitLines(s) == [s[..2]] + SplitLines(s[3..]);
    assert s[3..] == "" && s[..2] == "a ";
    assert SplitLines("") == [];
    assert SplitLines(s) == ["a "];
    assert RStrip("a ") == "a" by { assert "a "[..1] == "a"; }
    assert RStripAll(["a "]) == ["a"];
    assert TrimmedBody(s) == "a";
    assert EndsWithBreak(s) && !EndsWithBreak("a");
    assert "a" + pf.linesep == "a\r\n";
  }

  /** The corrected stage records nothing only when trimming left the text as
      it was, and records the change the legacy stage misses. */
  lemma LegacyTrimCorrectedRecordsChanges(pf: Platform, original: string, text: string)
    ensures var r := LegacyTrimStageCorrected(pf, original, text);
      !r.1 ==> r.0 == text
    ensures pf.linesep == "\r\n" ==> LegacyTrimStageCorrected(pf, "a \n", "a \n") == ("a\r\n", true)
  {
    if pf.linesep == "\r\n" {
      LegacyTrimMissesEqualLength(pf);
    }
  }

  /** Splitting the trimmed text at "\n" gives back exactly the right-stripped
      lines: no line keeps trailing blanks and none is merged or split. */
  lemma TrimmedLines(text: string)
    requires |SplitLines(text)| > 0
    ensures SplitOn(TrimmedBody(text), '\n') == RStripAll(SplitLines(text))
    ensures var parts := RStripAll(SplitLines(text));
      forall k :: 0 <= k < |parts| ==> |parts[k]| == 0 || !IsSpace(parts[k][|parts[k]| - 1])
  {
    TrimmedSplit(text);
    TrimmedNoTrailingBlank(text);
  }

  lemma TrimmedSplit(text: string)
    requires |SplitLines(text)| > 0
    ensures SplitOn(TrimmedBody(text), '\n') == RStripAll(SplitLines(text))
  {
    RStripAllSplit(SplitLines(text));
  }

  lemma TrimmedNoTrailingBlank(text: string)
    ensures var parts := RStripAll(SplitLines(text));
      forall k :: 0 <= k < |parts| ==> |parts[k]| == 0 || !IsSpace(parts[k][|parts[k]| - 1])
  {
  }

  /** Right-stripped lines without breaks are recovered from their join. */
  lemma RStripAllSplit(lines: seq<string>)
    requires |lines| > 0
    requires forall k :: 0 <= k < |lines| ==> forall j :: 0 <= j < |lines[k]| ==> !IsLineBreak(lines[k][j])
    ensures var parts := RStripAll(lines);
      SplitOn(Join(parts, "\n"), '\n') == parts &&
      forall k :: 0 <= k < |parts| ==> |parts[k]| == 0 || !IsSpace(parts[k][|parts[k]| - 1])
  {
    var parts := RStripAll(lines);
    forall k | 0 <= k < |parts| ensures !Contains(parts[k], '\n') {
      RStripNoBreak(lines[k]);
    }
    assert "\n" == ['\n'];
    SplitJoin(parts, '\n');
  }

  lemma RStripNoBreak(l: string)
    requires forall j :: 0 <= j < |l| ==> !IsLineBreak(l[j])
    ensures !Contains(RStrip(l), '\n')
  {
    var r := RStrip(l);
    forall j | 0 <= j < |r| ensures r[j] != '\n' {
      assert r[j] == l[j];
    }
  }

  /** Both trimming stages keep a final newline when the original had one. */
  lemma TrimKeepsFinalNewline(pf: Platform, original: string, text: string)
    requires EndsWithBreak(original)
    requires |pf.linesep| > 0 && pf.linesep[|pf.linesep| - 1] == '\n'
    ensures EndsWith(TrimStage(original, text).0, "\n")
    ensures EndsWithBreak(LegacyTrimStage(pf, original, text).0)
  {
  }

  // ---------------------------------------------------------------- encoding

  /** `newline_map.get(label, "\r\n")`. */
  function NewlineFor(choice: Option<string>): (nl: string)
    ensures nl == "\r\n" || nl == "\n" || nl == "\r"
  {
    match choice
    case Some("CRLF (Windows)") => "\r\n"
    case Some("LF (Unix/macOS)") => "\n"
    case Some("CR (Classic Mac OS)") => "\r"
    case _ => "\r\n"
  }

  /** The three labels select their newline; anything else, or no label,
      selects "\r\n". */
  lemma NewlineTable(choice: Option<string>)
    ensures NewlineFor(choice) == "\n" <==> choice == Some("LF (Unix/macOS)")
    ensures NewlineFor(choice) == "\r" <==> choice == Some("CR (Classic Mac OS)")
    ensures NewlineFor(choice) == "\r\n" <==> choice != Some("LF (Unix/macOS)") && choice != Some("CR (Classic Mac OS)")
  {
  }

  /** CRLF and then lone CR become LF. */
  function ToLF(t: string): (r: string)
    ensures !Contains(r, '\r')
  {
    ReplaceAllRemoves(ReplaceAll(t, "\r\n", "\n"), '\r', "\n");
    ReplaceAll(ReplaceAll(t, "\r\n", "\n"), "\r", "\n")
  }

  /** Text already free of '\r' is left alone by the conversion. */
  lemma ToLFOfUnix(t: string)
    requires !Contains(t, '\r')
    ensures ToLF(t) == t
  {
    ReplaceAllAbsentPattern(t, "\r\n");
    ReplaceAllAbsent(t, '\r', "\n");
  }

  /** A pattern whose first character does not occur is never replaced. */
  lemma {:induction false} ReplaceAllAbsentPattern(s: string, pat: string)
    requires |pat| > 0 && !Contains(s, pat[0])
    ensures forall repl :: ReplaceAll(s, pat, repl) == s
    decreases |s|
  {
    if |s| > 0 {
      assert !Contains(s[1..], pat[0]) by {
        forall i | 0 <= i < |s[1..]| ensures s[1..][i] != pat[0] {
          assert s[1..][i] == s[i + 1];
        }
      }
      ReplaceAllAbsentPattern(s[1..], pat);
      assert !StartsWith(s, pat) by {
        assert s[0] != pat[0];
      }
      assert s == [s[0]] + s[1..];
    }
  }

  function TargetEncoding(o: Options): string {
    match o.targetEncoding
    case Some(e) => e
    case None => "utf-8"
  }

  /** A label as the f-string prints an optional value. */
  function LabelText(choice: Option<string>): string {
    match choice
    case Some(l) => l
    case None => "None"
  }

  // ---------------------------------------------------------------- worker

  /** What the stages decided: the text to write, the actions, and the
      encoding and newline to write with. */
  datatype Plan = Plan(text: string, actions: seq<string>, encoding: string, newline: Option<string>)

  /** No action leaves the file alone; otherwise it is written and the
      actions are reported in sorted order; a failed write is an error. */
  function Finish(p: Plan, sourceEncoding: string, writeError: Option<string>): (r: Outcome)
    ensures r.status == Unchanged <==> p.actions == []
    ensures r.write.Some? <==> r.status == Modified
    ensures r.status == Modified ==> r.write == Some(Write(p.text, p.encoding, p.newline))
    ensures r.status == Error <==> p.actions != [] && writeError.Some?
  {
    if p.actions == [] then Outcome(Unchanged, "Already clean (" + sourceEncoding + ")", None)
    else
      match writeError
      case Some(e) => Outcome(Error, e, None)
      case None => Outcome(Modified, "Cleaned (" + Join(SortStrings(p.actions), ", ") + ")", Some(Write(p.text, p.encoding, p.newline)))
  }

  /** The newer worker's stages on a non-empty file. */
  function CleanPlan(o: Options, pf: Platform, scan: string -> seq<PathSeg>, suffix: string, bytes: Bytes, text: string, encoding: string): Plan {
    var (t1, a1) := StripHeader(o, suffix, text);
    var (t2, a2) := PathStage(o, pf, scan, t1);
    var (t3, a3) := if o.trimWhitespace then TrimStage(text, t2) else (t2, false);
    var acts := TextActions(a1, a2, a3);
    if o.normalizeEncoding then
      var enc := TargetEncoding(o);
      var nl := NewlineFor(o.newlineLabel);
      var lf := ToLF(t3);
      var newBytes := pf.encode(enc, ReplaceAll(lf, "\n", nl));
      var a4 := newBytes.Some? && newBytes.value != bytes && acts == [];
      Plan(lf, acts + (if a4 then ["normalized to " + enc + " / " + LabelText(o.newlineLabel)] else []), enc, Some(nl))
    else Plan(t3, acts, encoding, None)
  }

  /** `_cleaner_process_file_worker` in `app/tasks/cleaner.py`. */
  function CleanFile(o: Options, pf: Platform, scan: string -> seq<PathSeg>, suffix: string, src: Source, writeError: Option<string>): Outcome {
    match src
    case Unreadable(e) => Outcome(Error, e, None)
    case Source(bytes, text, encoding) =>
      if |bytes| == 0 then Outcome(Skipped, "File is empty", None)
      else Finish(CleanPlan(o, pf, scan, suffix, bytes, text, encoding), encoding, writeError)
  }

  /** The newer worker: an unreadable file is an error and an empty one is
      skipped, neither written; otherwise a file is written exactly when some
      action applied; with encoding normalisation the text written is free of
      '\r' (EncodingActionAlone says when normalisation counts as an action). */
  lemma CleanFileEffect(o: Options, pf: Platform, scan: string -> seq<PathSeg>, suffix: string, src: Source, writeError: Option<string>)
    ensures var r := CleanFile(o, pf, scan, suffix, src, writeError);
      && (src.Unreadable? ==> r == Outcome(Error, src.error, None))
      && (src.Source? && |src.bytes| == 0 ==> r == Outcome(Skipped, "File is empty", None))
      && (r.write.Some? <==> r.status == Modified)
      && (src.Source? && |src.bytes| > 0 ==>
            var p := CleanPlan(o, pf, scan, suffix, src.bytes, src.text, src.encoding);
            && (r.status == Unchanged <==> p.actions == [])
            && (o.normalizeEncoding ==> !Contains(p.text, '\r') && p.newline == Some(NewlineFor(o.newlineLabel))))
  {
  }

  /** The action the newer worker records for encoding normalisation. */
  predicate IsEncodingAction(a: string) {
    StartsWith(a, "normalized to ")
  }

  /** The actions the newer worker's text stages record, in order. */
  function TextActions(a1: bool, a2: bool, a3: bool): (acts: seq<string>)
    ensures forall k :: 0 <= k < |acts| ==> !IsEncodingAction(acts[k])
  {
    assert !IsEncodingAction("stripped header") by {
      assert "stripped header"[..14][0] == 's';
    }
    assert !IsEncodingAction("trimmed whitespace") by {
      assert "trimmed whitespace"[..14][0] == 't';
    }
    (if a1 then ["stripped header"] else []) + (if a2 then ["cleaned paths"] else []) + (if a3 then ["trimmed whitespace"] else [])
  }

  /** An encoding note appended only to an empty list of other actions is
      there exactly when it was due and nothing else is, and then alone. */
  lemma EncodingNoteAlone(acts: seq<string>, note: string, due: bool)
    requires forall k :: 0 <= k < |acts| ==> !IsEncodingAction(acts[k])
    requires IsEncodingAction(note)
    ensures var all := acts + (if due && acts == [] then [note] else []);
      (exists k :: 0 <= k < |all| && IsEncodingAction(all[k])) <==>
        due && forall k :: 0 <= k < |all| ==> IsEncodingAction(all[k])
    ensures var all := acts + (if due && acts == [] then [note] else []);
      (exists k :: 0 <= k < |all| && IsEncodingAction(all[k])) ==> |all| == 1
  {
    var all := acts + (if due && acts == [] then [note] else []);
    if due && acts == [] {
      assert all == [note];
      assert IsEncodingAction(all[0]);
      assert forall k :: 0 <= k < |all| ==> IsEncodingAction(all[k]);
    } else {
      assert all == acts;
      assert !exists k :: 0 <= k < |all| && IsEncodingAction(all[k]);
      if due {
        assert !IsEncodingAction(all[0]);
      }
    }
  }

  /** Encoding normalisation counts as an action exactly when it is on, the
      re-encoded text gives other bytes and no other action applied; it is
      then the only action. */
  lemma EncodingActionAlone(o: Options, pf: Platform, scan: string -> seq<PathSeg>, suffix: string, bytes: Bytes, text: string, encoding: string)
    ensures var p := CleanPlan(o, pf, scan, suffix, bytes, text, encoding);
      var b := pf.encode(p.encoding, ReplaceAll(p.text, "\n", NewlineFor(o.newlineLabel)));
      (exists k :: 0 <= k < |p.actions| && IsEncodingAction(p.actions[k])) <==>
        && o.normalizeEncoding && b.Some? && b.value != bytes
        && forall k :: 0 <= k < |p.actions| ==> IsEncodingAction(p.actions[k])
    ensures var p := CleanPlan(o, pf, scan, suffix, bytes, text, encoding);
      (exists k :: 0 <= k < |p.actions| && IsEncodingAction(p.actions[k])) ==> |p.actions| == 1
  {
    var (t1, a1) := StripHeader(o, suffix, text);
    var (t2, a2) := PathStage(o, pf, scan, t1);
    var (t3, a3) := if o.trimWhitespace then TrimStage(text, t2) else (t2, false);
    var acts := TextActions(a1, a2, a3);
    var p := CleanPlan(o, pf, scan, suffix, bytes, text, encoding);
    if o.normalizeEncoding {
      var enc := TargetEncoding(o);
      var nl := NewlineFor(o.newlineLabel);
      var lf := ToLF(t3);
      var newBytes := pf.encode(enc, ReplaceAll(lf, "\n", nl));
      var note := "normalized to " + enc + " / " + LabelText(o.newlineLabel);
      assert IsEncodingAction(note) by {
        assert note[..14] == "normalized to ";
      }
      var due := newBytes.Some? && newBytes.value != bytes;
      assert p == Plan(lf, acts + (if due && acts == [] then [note] else []), enc, Some(nl));
      EncodingNoteAlone(acts, note, due);
    } else {
      assert p.actions == acts;
    }
  }

  /** With only encoding normalisation on, the newer worker writes a file
      exactly when re-encoding it with the target newline gives other bytes. */
  lemma EncodingAloneWrites(o: Options, pf: Platform, scan: string -> seq<PathSeg>, suffix: string, bytes: Bytes, text: string, encoding: string)
    requires |bytes| > 0
    requires !o.stripBom && !PathOptions(o) && !o.trimWhitespace && o.normalizeEncoding
    ensures var r := CleanFile(o, pf, scan, suffix, Source(bytes, text, encoding), None);
      var b := pf.encode(TargetEncoding(o), ReplaceAll(ToLF(text), "\n", NewlineFor(o.newlineLabel)));
      (r.status == Modified <==> b.Some? && b.value != bytes)
  {
  }

  /** The legacy worker's stages on a non-empty file; `corrected` picks the
      trimming stage's record: as written (a length comparison) or as
      evidently intended (a text comparison). */
  function LegacyPlan(o: Options, pf: Platform, scan: string -> seq<PathSeg>, suffix: string, text: string, encoding: string, corrected: bool): Plan {
    var (t1, a1) := StripHeader(o, suffix, text);
    var (t2, a2) := PathStage(o, pf, scan, t1);
    var (t3, a3) :=
      if !o.trimWhitespace then (t2, false)
      else if corrected then LegacyTrimStageCorrected(pf, text, t2)
      else LegacyTrimStage(pf, text, t2);
    var acts := (if a1 then ["stripped header"] else []) + (if a2 then ["cleaned paths"] else []) + (if a3 then ["trimmed whitespace"] else []);
    if acts != [] && o.normalizeEncoding then
      var enc := TargetEncoding(o);
      var nl := NewlineFor(o.newlineLabel);
      Plan(t3, acts + ["normalized to " + enc + " (" + NewlineName(nl) + ")"], enc, Some(nl))
    else Plan(t3, acts, encoding, None)
  }

  /** `final_newline.replace("\r\n", "CRLF").replace("\n", "LF").replace("\r", "CR")`. */
  function NewlineName(nl: string): string {
    ReplaceAll(ReplaceAll(ReplaceAll(nl, "\r\n", "CRLF"), "\n", "LF"), "\r", "CR")
  }

  /** The legacy worker around either trimming record. */
  function LegacyWorker(o: Options, pf: Platform, scan: string -> seq<PathSeg>, suffix: string, src: Source, writeError: Option<string>, corrected: bool): Outcome {
    match src
    case Unreadable(e) => Outcome(Error, e, None)
    case Source(bytes, text, encoding) =>
      if |bytes| == 0 then Outcome(Skipped, "File is empty", None)
      else Finish(LegacyPlan(o, pf, scan, suffix, text, encoding, corrected), encoding, writeError)
  }

  /** `_cleaner_process_file_worker` in `app/tasks.py`, as written. */
  function LegacyCleanFile(o: Options, pf: Platform, scan: string -> seq<PathSeg>, suffix: string, src: Source, writeError: Option<string>): Outcome {
    LegacyWorker(o, pf, scan, suffix, src, writeError, false)
  }

  /** The legacy worker with the trimming record corrected. */
  function LegacyCleanFileCorrected(o: Options, pf: Platform, scan: string -> seq<PathSeg>, suffix: string, src: Source, writeError: Option<string>): Outcome {
    LegacyWorker(o, pf, scan, suffix, src, writeError, true)
  }

  /** In the legacy worker encoding normalisation never causes a write by
      itself: with the text options off every readable non-empty file is
      reported unchanged and left alone. */
  lemma LegacyEncodingNeverAlone(o: Options, pf: Platform, scan: string -> seq<PathSeg>, suffix: string, src: Source, writeError: Option<string>)
    requires !o.stripBom && !PathOptions(o) && !o.trimWhitespace
    requires src.Source? && |src.bytes| > 0
    ensures LegacyCleanFile(o, pf, scan, suffix, src, writeError).status == Unchanged
    ensures LegacyCleanFile(o, pf, scan, suffix, src, writeError).write == None
  {
  }

  /** With trimming the only option on, the legacy worker as written leaves a
      file alone exactly when trimming keeps its length, whether or not the
      text changed. */
  lemma LegacyTrimOnlyAsWritten(o: Options, pf: Platform, scan: string -> seq<PathSeg>, suffix: string, bytes: Bytes, text: string, encoding: string)
    requires |bytes| > 0
    requires !o.stripBom && !PathOptions(o) && o.trimWhitespace
    ensures var r := LegacyCleanFile(o, pf, scan, suffix, Source(bytes, text, encoding), None);
      (r.status == Unchanged <==> |LegacyTrimStage(pf, text, text).0| == |text|)
      && (r.status == Modified ==> r.write.Some? && r.write.value.text == LegacyTrimStage(pf, text, text).0)
  {
  }

  /** With trimming the only option on, the corrected legacy worker leaves a
      file alone exactly when trimming does not change it. */
  lemma LegacyTrimOnly(o: Options, pf: Platform, scan: string -> seq<PathSeg>, suffix: string, bytes: Bytes, text: string, encoding: string)
    requires |bytes| > 0
    requires !o.stripBom && !PathOptions(o) && o.trimWhitespace
    ensures var r := LegacyCleanFileCorrected(o, pf, scan, suffix, Source(bytes, text, encoding), None);
      (r.status == Unchanged <==> LegacyTrimStage(pf, text, text).0 == text)
      && (r.status == Modified ==> r.write.Some? && r.write.value.text == LegacyTrimStage(pf, text, text).0)
  {
  }

  /** The worker-level consequence of the length comparison: on a "\r\n"
      platform, trimming "a \n" with only trimming on, the worker as written
      reports the file clean and writes nothing, while the corrected worker
      writes "a\r\n". */
  lemma LegacyWorkerMissesTrim(o: Options, pf: Platform, scan: string -> seq<PathSeg>, suffix: string, bytes: Bytes, encoding: string)
    requires pf.linesep == "\r\n" && |bytes| > 0
    requires !o.stripBom && !PathOptions(o) && o.trimWhitespace
    ensures LegacyCleanFile(o, pf, scan, suffix, Source(bytes, "a \n", encoding), None) == Outcome(Unchanged, "Already clean (" + encoding + ")", None)
    ensures var r := LegacyCleanFileCorrected(o, pf, scan, suffix, Source(bytes, "a \n", encoding), None);
      r.status == Modified && r.write.Some? && r.write.value.text == "a\r\n"
  {
    LegacyTrimMissesEqualLength(pf);
    LegacyTrimOnlyAsWritten(o, pf, scan, suffix, bytes, "a \n", encoding);
    LegacyTrimOnly(o, pf, scan, suffix, bytes, "a \n", encoding);
  }

  /** The legacy newline names. */
  lemma NewlineNames()
    ensures NewlineName("\r\n") == "CRLF"
    ensures NewlineName("\n") == "LF"
    ensures NewlineName("\r") == "CR"
  {
    assert ReplaceAll("\r\n", "\r\n", "CRLF") == "CRLF";
    assert ReplaceAll("CRLF", "\n", "LF") == "CRLF";
  }

  // ---------------------------------------------------------------- tally

  /** `stats` and `failed_files` of `ProjectCleaner.run`. */
  datatype Tally = Tally(modified: nat, alreadyClean: nat, skipped: nat, errors: nat, failed: seq<string>)

  /** Counting the outcomes, by file name, in the order they arrive. */
  function TallyAll(results: seq<(string, Outcome)>): (t: Tally)
    ensures t.modified + t.alreadyClean + t.skipped + t.errors == |results|
    ensures |t.failed| == t.errors
    decreases |results|
  {
    if |results| == 0 then Tally(0, 0, 0, 0, [])
    else
      var t := TallyAll(results[..|results| - 1]);
      var (name, r) := results[|results| - 1];
      match r.status
      case Modified => t.(modified := t.modified + 1)
      case Unchanged => t.(alreadyClean := t.alreadyClean + 1)
      case Skipped => t.(skipped := t.skipped + 1)
      case Error => t.(errors := t.errors + 1, failed := t.failed + [name + ": " + r.message])
  }

  /** The files with a given status. */
  function WithStatus(results: seq<(string, Outcome)>, s: Status): set<nat> {
    set k | 0 <= k < |results| && results[k].1.status == s
  }

  /** Each count is the number of files with that status, and the failures
      are the erroring files, each as "name: message", in order. */
  lemma {:induction false} TallyCounts(results: seq<(string, Outcome)>)
    ensures var t := TallyAll(results);
      && t.modified == |WithStatus(results, Modified)|
      && t.alreadyClean == |WithStatus(results, Unchanged)|
      && t.skipped == |WithStatus(results, Skipped)|
      && t.errors == |WithStatus(results, Error)|
  {
    TallyCount(results, Modified);
    TallyCount(results, Unchanged);
    TallyCount(results, Skipped);
    TallyCount(results, Error);
  }

  /** The tally's counter for one status. */
  function CountOf(t: Tally, s: Status): nat {
    match s
    case Modified => t.modified
    case Unchanged => t.alreadyClean
    case Skipped => t.skipped
    case Error => t.errors
  }

  lemma {:induction false} TallyCount(results: seq<(string, Outcome)>, s: Status)
    ensures CountOf(TallyAll(results), s) == |WithStatus(results, s)|
    decreases |results|
  {
    if |results| > 0 {
      TallyCount(results[..|results| - 1], s);
      WithStatusSnoc(results, s);
    }
  }

  lemma WithStatusSnoc(results: seq<(string, Outcome)>, s: Status)
    requires |results| > 0
    ensures var n := |results| - 1;
      WithStatus(results, s) == WithStatus(results[..n], s) + (if results[n].1.status == s then {n} else {})
      && n !in WithStatus(results[..n], s)
  {
    var n := |results| - 1;
    assert forall k :: 0 <= k < n ==> results[..n][k] == results[k];
  }

  /** The failure list: an erroring file's entry for each error, in order. */
  function FailedOf(results: seq<(string, Outcome)>): seq<string> {
    if |results| == 0 then []
    else
      FailedOf(results[..|results| - 1])
        + (if results[|results| - 1].1.status == Error then [results[|results| - 1].0 + ": " + results[|results| - 1].1.message] else [])
  }

  lemma {:induction false} TallyFailures(results: seq<(string, Outcome)>)
    ensures TallyAll(results).failed == FailedOf(results)
    decreases |results|
  {
    if |results| > 0 {
      TallyFailures(results[..|results| - 1]);
    }
  }

  /** What `ProjectCleaner.run` reports. */
  datatype CleanReport = NoTargets | Cleaned(tally: Tally)

  /** `ProjectCleaner.run`: the handled text files of the walk (chosen by
      name), each cleaned with the newer worker. */
  function CleanProject(o: Options, pf: Platform, scan: string -> seq<PathSeg>, walk: seq<string>,
                        read: string -> Source, writeError: string -> Option<string>): CleanReport {
    var files := ContainerFiles(walk);
    if |files| == 0 then NoTargets
    else
      Cleaned(TallyAll(seq(|files|, k requires 0 <= k < |files| =>
        (FileName(files[k]), CleanFile(o, pf, scan, Lower(Suffix(files[k])), read(files[k]), writeError(files[k]))))))
  }

  /** Every selected file is cleaned once: the counts add up to the number of
      handled files, and a walk without one reports that nothing was found. */
  lemma CleanProjectEffect(o: Options, pf: Platform, scan: string -> seq<PathSeg>, walk: seq<string>,
                           read: string -> Source, writeError: string -> Option<string>)
    ensures var r := CleanProject(o, pf, scan, walk, read, writeError);
      && (r.NoTargets? <==> forall p :: p in walk ==> !HasContainerName(FileName(p)))
      && (r.Cleaned? ==> r.tally.modified + r.tally.alreadyClean + r.tally.skipped + r.tally.errors == |ContainerFiles(walk)|)
  {
    var files := ContainerFiles(walk);
    if |files| > 0 {
      assert files[0] in files;
    }
  }
}

=== FILE: config.dfy ===
/** The tool's configuration: the container-handler table and the extension
    sets.  The texture and tracked extension lists are user-configurable, so
    the model takes them as a `Settings` parameter; the defaults are given
    for reference.
 */
module Config {
  import opened Wrappers
  import opened Strings

  /** Which handler parses and rewrites a container. */
  datatype HandlerKind = XmlHandler | LuaHandler

  /** Container suffixes handled by the XML handler (also the cleaner's XML set). */
  const XmlExtensions: set<string> := {".mtl", ".xml", ".lay", ".lyr", ".cdf"}

  /** The keys of the handler table, in declaration order. */
  const HandlerExtensions: seq<string> := [".mtl", ".xml", ".lay", ".lyr", ".cdf", ".lua"]

  /** `ASSET_HANDLERS.get(suffix)`. */
  function HandlerFor(suffix: string): Option<HandlerKind> {
    if suffix in XmlExtensions then Some(XmlHandler)
    else if suffix == ".lua" then Some(LuaHandler)
    else None
  }

  /** The handler table maps exactly the six container suffixes: the five XML
      formats to the XML handler and `.lua` to the Lua handler. */
  lemma HandlerTable(suffix: string)
    ensures HandlerFor(suffix).Some? <==> suffix in HandlerExtensions
    ensures HandlerFor(suffix) == Some(XmlHandler) <==> suffix in {".mtl", ".xml", ".lay", ".lyr", ".cdf"}
    ensures HandlerFor(suffix) == Some(LuaHandler) <==> suffix == ".lua"
  {
  }

  /** `filename.lower().endswith(tuple(ASSET_HANDLERS.keys()))`: how the file
      walker picks container files by name. */
  predicate HasContainerName(name: string) {
    exists e :: e in HandlerExtensions && EndsWith(Lower(name), e)
  }

  /** Extensions that count as assets for orphan detection, besides textures. */
  const ModelExtensions: set<string> := {".cgf", ".cga", ".chr", ".skin"}

  /** Source textures whose compiled `.dds` sibling satisfies a reference. */
  const FuzzyTextureExtensions: set<string> := {".tif", ".png", ".tga"}

  const DefaultTextureExtensions: seq<string> :=
    [".dds", ".tif", ".tiff", ".png", ".jpg", ".jpeg", ".tga", ".bmp", ".gif", ".hdr", ".exr", ".gfx"]

  const DefaultTrackedExtensions: seq<string> :=
    [".dds", ".tif", ".png", ".jpg", ".jpeg", ".tga", ".bmp", ".gif", ".hdr", ".mtl", ".xml",
     ".lay", ".lyr", ".cdf", ".lua", ".cgf", ".chr", ".cga", ".skin", ".adb"]

  /** Run-time settings: the texture set (in its iteration order), the tracked
      list, and the platform separator `os.path.sep` ('\\' on Windows, '/' elsewhere). */
  datatype Settings = Settings(textures: seq<string>, tracked: seq<string>, sep: char)

  /** An extension as the configuration writes them: a lower-case `.xyz`
      without quotes, separators or a trailing blank. */
  predicate ValidExtension(e: string, sep: char) {
    && |e| >= 2 && e[0] == '.'
    && IsLower(e)
    && !IsSpace(e[|e| - 1])
    && forall i :: 0 <= i < |e| ==> e[i] != '"' && e[i] != '\'' && e[i] != sep && e[i] != '/'
  }

  predicate ValidSettings(s: Settings) {
    && (s.sep == '/' || s.sep == '\\')
    && (forall i :: 0 <= i < |s.tracked| ==> ValidExtension(s.tracked[i], s.sep))
    && (forall i :: 0 <= i < |s.textures| ==> ValidExtension(s.textures[i], s.sep))
    && (forall i, j :: 0 <= i < j < |s.textures| ==> s.textures[i] != s.textures[j])
  }

  /** The shipped defaults on a Windows host. */
  const DefaultSettings: Settings := Settings(DefaultTextureExtensions, DefaultTrackedExtensions, '\\')
}

=== FILE: finding.dfy ===
/** The two reference audits of `app/tasks/finding.py`: orphaned assets (files
    on disk no container refers to) and broken references (paths a container
    refers to that are not on disk).

    The directory walk is a parameter listing the files found, in walk order;
    the file contents are the watcher's `Files` map; `existing` is the set of
    path strings for which `Path.exists()` holds.  The thread pools are not
    modelled: the containers are taken in walk order.
 */
module Finding {
  import opened Wrappers
  import opened Strings
  import opened Paths
  import opened Order
  import opened Config
  import opened Handlers
  import opened Watcher

  /** `_parse_wrapper`: the handler's references for a container, and nothing
      for a file without a handler or one the handler cannot open. */
  function ParseWrapper(files: Files, sep: char, p: string): set<string> {
    if HandlerOf(p).Some? && p in files && files[p].Doc? then Parse(files[p].doc, sep) else {}
  }

  /** What the wrapper returns is exactly the normalised matches of a readable
      container with a handler, and nothing otherwise. */
  lemma ParseWrapperMembership(files: Files, sep: char, p: string, x: string)
    ensures x in ParseWrapper(files, sep, p) <==>
      && HandlerOf(p).Some? && p in files && files[p].Doc?
      && exists i :: 0 <= i < |files[p].doc| && files[p].doc[i].Match? && NormalizeParsed(files[p].doc[i].path, sep) == x
  {
    if HandlerOf(p).Some? && p in files && files[p].Doc? {
      var d := files[p].doc;
      if Render(d) == "" {
        ParseEmptyFile(d, sep);
        EmptyRenderHasNoMatch(d);
      } else {
        ParseMembership(d, sep, x);
      }
    }
  }

  // ---------------------------------------------------------------- unused assets

  /** An asset's (or a reference's) identity: the lower-cased path without its
      suffix, so `a/b.dds` and `A/B.tif` are the same asset. */
  function Stem(rel: string): string {
    Lower(WithoutSuffix(rel))
  }

  /** Texture extensions and the model formats. */
  function AssetExtensions(s: Settings): set<string> {
    (set x | x in s.textures) + ModelExtensions
  }

  /** The stem and relative path of a walked file that counts as an asset. */
  function AssetAt(root: string, s: Settings, p: string): (r: Option<(string, string)>)
    ensures r.Some? ==> r.value.0 == Stem(r.value.1)
  {
    if Lower(Suffix(p)) in AssetExtensions(s) && ToRel(root, p).Some?
    then var rel := ToRel(root, p).value; Some((Stem(rel), rel))
    else None
  }

  /** The assets of the walk, in walk order. */
  function AssetsOf(root: string, s: Settings, walk: seq<string>): (found: seq<Option<(string, string)>>)
    ensures |found| == |walk| && forall k :: 0 <= k < |walk| ==> found[k] == AssetAt(root, s, walk[k])
  {
    seq(|walk|, k requires 0 <= k < |walk| => AssetAt(root, s, walk[k]))
  }

  /** `asset_map`: stem to relative path, the last asset file with that stem
      winning. */
  function AssetMap(found: seq<Option<(string, string)>>): (m: map<string, string>)
    decreases |found|
  {
    if |found| == 0 then map[]
    else
      var m := AssetMap(found[..|found| - 1]);
      match found[|found| - 1]
      case Some(a) => m[a.0 := a.1]
      case None => m
  }

  /** A stem is an asset exactly when some asset file has it, and it maps to
      the path of the last such file. */
  lemma {:induction false} AssetMapLastWins(found: seq<Option<(string, string)>>, st: string)
    ensures st in AssetMap(found) <==> exists k :: 0 <= k < |found| && found[k].Some? && found[k].value.0 == st
    ensures st in AssetMap(found) ==>
      exists k :: 0 <= k < |found| && found[k] == Some((st, AssetMap(found)[st]))
        && forall j :: k < j < |found| && found[j].Some? ==> found[j].value.0 != st
    decreases |found|
  {
    if |found| > 0 {
      var n := |found| - 1;
      var pre := found[..n];
      AssetMapLastWins(pre, st);
      assert forall k :: 0 <= k < n ==> pre[k] == found[k];
      if found[n].Some? && found[n].value.0 == st {
        assert found[n] == Some((st, AssetMap(found)[st]));
      } else if st in AssetMap(pre) {
        var k :| 0 <= k < n && pre[k] == Some((st, AssetMap(pre)[st]))
          && forall j :: k < j < n && pre[j].Some? ==> pre[j].value.0 != st;
        assert found[k] == Some((st, AssetMap(found)[st]));
      }
    }
  }

  /** Every asset found is filed under its own stem. */
  predicate WellStemmed(found: seq<Option<(string, string)>>) {
    forall k :: 0 <= k < |found| && found[k].Some? ==> found[k].value.0 == Stem(found[k].value.1)
  }

  lemma AssetsOfWellStemmed(root: string, s: Settings, walk: seq<string>)
    ensures WellStemmed(AssetsOf(root, s, walk))
  {
  }

  /** Every path the map keeps has the stem it is filed under. */
  lemma AssetMapStems(found: seq<Option<(string, string)>>)
    requires WellStemmed(found)
    ensures forall st :: st in AssetMap(found) ==> Stem(AssetMap(found)[st]) == st
  {
    forall st | st in AssetMap(found) ensures Stem(AssetMap(found)[st]) == st {
      AssetMapLastWins(found, st);
    }
  }

  /** So the map never keeps one path under two stems. */
  lemma StemInjective(m: map<string, string>)
    requires forall st :: st in m ==> Stem(m[st]) == st
    ensures forall a, b :: a in m && b in m && m[a] == m[b] ==> a == b
  {
  }

  /** The references of each container, in order. */
  function ParsedRefs(files: Files, sep: char, containers: seq<string>): (parsed: seq<set<string>>)
    ensures |parsed| == |containers| && forall k :: 0 <= k < |containers| ==> parsed[k] == ParseWrapper(files, sep, containers[k])
  {
    seq(|containers|, k requires 0 <= k < |containers| => ParseWrapper(files, sep, containers[k]))
  }

  /** Every reference of the given parse results. */
  function AllRefs(parsed: seq<set<string>>): (r: set<string>)
    ensures forall x :: x in r <==> exists k :: 0 <= k < |parsed| && x in parsed[k]
    decreases |parsed|
  {
    if |parsed| == 0 then {}
    else
      var n := |parsed| - 1;
      var pre := parsed[..n];
      assert forall k :: 0 <= k < n ==> pre[k] == parsed[k];
      AllRefs(pre) + parsed[n]
  }

  /** The stems of the references: a reference covers an asset when they name
      the same path up to case and extension. */
  function RefStems(refs: set<string>): set<string> {
    set r | r in refs :: Stem(r)
  }

  /** The containers the unused-asset scan parses: walked files whose suffix
      has a handler. */
  function SuffixContainers(walk: seq<string>): (r: seq<string>)
    ensures forall p :: p in r <==> p in walk && HandlerOf(p).Some?
  {
    if |walk| == 0 then []
    else
      var rest := SuffixContainers(walk[1..]);
      assert forall p :: p in walk <==> p == walk[0] || p in walk[1..];
      if HandlerOf(walk[0]).Some? then [walk[0]] + rest else rest
  }

  /** The paths of the assets whose stem no reference covers. */
  function UnusedSet(m: map<string, string>, refStems: set<string>): set<string> {
    set st | st in m && st !in refStems :: m[st]
  }

  /** `[asset_map[s] for s in assets if s not in refs]`: the set is walked
      in some order and each unreferenced stem contributes its path. */
  method CollectUnused(m: map<string, string>, refStems: set<string>) returns (acc: seq<string>)
    requires forall a, b :: a in m && b in m && m[a] == m[b] ==> a == b
    ensures forall i, j :: 0 <= i < j < |acc| ==> acc[i] != acc[j]
    ensures forall x :: x in acc <==> x in UnusedSet(m, refStems)
  {
    var left := m.Keys;
    acc := [];
    ghost var ks: seq<string> := [];
    while left != {}
      invariant left <= m.Keys
      invariant |ks| == |acc|
      invariant forall i :: 0 <= i < |ks| ==> ks[i] in m && ks[i] !in left && ks[i] !in refStems && acc[i] == m[ks[i]]
      invariant forall i, j :: 0 <= i < j < |ks| ==> ks[i] != ks[j]
      invariant forall st :: st in m && st !in left && st !in refStems ==> st in ks
      decreases |left|
    {
      var st :| st in left;
      if st !in refStems {
        acc := acc + [m[st]];
        ks := ks + [st];
      }
      left := left - {st};
    }
    forall x | x in UnusedSet(m, refStems) ensures x in acc {
      var st :| st in m && st !in refStems && m[st] == x;
      var i :| 0 <= i < |ks| && ks[i] == st;
      assert acc[i] == x;
    }
  }

  /** `UnusedAssetFinder.run`: the unreferenced assets' paths, sorted, each
      listed once, and the number of distinct asset stems. */
  method FindUnused(root: string, s: Settings, files: Files, walk: seq<string>) returns (unused: seq<string>, total: nat)
    ensures SortedBy(unused, StrLe)
    ensures multiset(unused) ==
      multiset(UnusedSet(AssetMap(AssetsOf(root, s, walk)), RefStems(AllRefs(ParsedRefs(files, s.sep, SuffixContainers(walk))))))
    ensures total == |AssetMap(AssetsOf(root, s, walk)).Keys|
  {
    var found := AssetsOf(root, s, walk);
    var m := AssetMap(found);
    var refStems := RefStems(AllRefs(ParsedRefs(files, s.sep, SuffixContainers(walk))));
    AssetsOfWellStemmed(root, s, walk);
    AssetMapStems(found);
    StemInjective(m);
    var acc := CollectUnused(m, refStems);
    DistinctMultiset(acc, UnusedSet(m, refStems));
    unused := SortStrings(acc);
    total := |m.Keys|;
  }

  /** A list without repeats holding exactly the elements of a set has that
      set's multiset. */
  lemma {:induction false} DistinctMultiset(xs: seq<string>, u: set<string>)
    requires forall i, j :: 0 <= i < j < |xs| ==> xs[i] != xs[j]
    requires forall x :: x in xs <==> x in u
    ensures multiset(xs) == multiset(u)
    decreases |xs|
  {
    if |xs| > 0 {
      var n := |xs| - 1;
      var pre := xs[..n];
      var x := xs[n];
      DropLastMembers(xs, pre, u);
      DistinctMultiset(pre, u - {x});
      assert xs == pre + [x];
      assert multiset(xs) == multiset(pre) + multiset{x};
      assert u == (u - {x}) + {x};
      assert multiset(u) == multiset(u - {x}) + multiset{x};
    }
  }

  /** Without its last element, a list without repeats holds exactly the
      rest of its set. */
  lemma DropLastMembers(xs: seq<string>, pre: seq<string>, u: set<string>)
    requires |xs| > 0 && pre == xs[..|xs| - 1]
    requires forall i, j :: 0 <= i < j < |xs| ==> xs[i] != xs[j]
    requires forall x :: x in xs <==> x in u
    ensures forall i, j :: 0 <= i < j < |pre| ==> pre[i] != pre[j]
    ensures forall x :: x in pre <==> x in u - {xs[|xs| - 1]}
  {
    var n := |xs| - 1;
    forall x ensures x in pre <==> x in u - {xs[n]} {
      if x in pre {
        var i :| 0 <= i < n && pre[i] == x;
        assert xs[i] == x;
      }
      assert x in xs && x != xs[n] ==> x in pre;
    }
  }

  /** An asset is reported unused exactly when it is the path the map keeps
      for its stem and no reference has that stem, whatever the extensions. */
  lemma UnusedMeaning(root: string, s: Settings, walk: seq<string>, refs: set<string>, x: string)
    ensures var m := AssetMap(AssetsOf(root, s, walk));
      x in UnusedSet(m, RefStems(refs)) <==>
      Stem(x) in m && m[Stem(x)] == x && forall r :: r in refs ==> Stem(r) != Stem(x)
  {
    AssetsOfWellStemmed(root, s, walk);
    AssetMapStems(AssetsOf(root, s, walk));
    UnusedSetMeaning(AssetMap(AssetsOf(root, s, walk)), refs, x);
  }

  lemma UnusedSetMeaning(m: map<string, string>, refs: set<string>, x: string)
    requires forall st :: st in m ==> Stem(m[st]) == st
    ensures x in UnusedSet(m, RefStems(refs)) <==>
      Stem(x) in m && m[Stem(x)] == x && forall r :: r in refs ==> Stem(r) != Stem(x)
  {
    if x in UnusedSet(m, RefStems(refs)) {
      var st :| st in m && st !in RefStems(refs) && m[st] == x;
      forall r | r in refs ensures Stem(r) != Stem(x) {
        assert Stem(r) in RefStems(refs);
      }
    }
    if Stem(x) in m && m[Stem(x)] == x && forall r :: r in refs ==> Stem(r) != Stem(x) {
      assert Stem(x) !in RefStems(refs);
    }
  }

  // ---------------------------------------------------------------- missing references

  /** A reference is satisfied by its exact path, or, for a `.tif`, `.png` or
      `.tga` source texture, by the compiled `.dds` beside it. */
  predicate Found(root: string, existing: set<string>, ref: string) {
    || Resolve(root, ref) in existing
    || (Lower(Suffix(ref)) in FuzzyTextureExtensions && Resolve(root, WithoutSuffix(ref) + ".dds") in existing)
  }

  /** How a container is named in the report: relative to the root, or by its
      file name when it lies outside. */
  function ContainerRel(root: string, c: string): string {
    match ToRel(root, c)
    case Some(rel) => rel
    case None => FileName(c)
  }

  /** The scan's running state: the existence cache, how many existence
      checks were made, and `missing_map`. */
  datatype Scan = Scan(cache: map<string, bool>, checks: nat, missing: map<string, seq<string>>)

  /** The cache after checking the references not cached yet. */
  function CacheAll(found: string -> bool, cache: map<string, bool>, refs: set<string>): (r: map<string, bool>)
    ensures r.Keys == cache.Keys + refs
    ensures forall x :: x in r ==> r[x] == if x in cache then cache[x] else found(x)
  {
    map x | x in cache.Keys + refs :: if x in cache then cache[x] else found(x)
  }

  /** `missing_map[ref].append(crel)` for each reference in `bad`. */
  function AppendAll(missing: map<string, seq<string>>, bad: set<string>, crel: string): (r: map<string, seq<string>>)
    ensures r.Keys == missing.Keys + bad
    ensures forall x :: x in r ==> r[x] == (if x in missing then missing[x] else []) + (if x in bad then [crel] else [])
  {
    map x | x in missing.Keys + bad :: (if x in missing then missing[x] else []) + (if x in bad then [crel] else [])
  }

  /** One container's references: those not yet cached are checked once and
      cached; the container is appended to the list of each missing one. */
  function ScanContainer(found: string -> bool, sc: Scan, crel: string, refs: set<string>): Scan {
    var cache := CacheAll(found, sc.cache, refs);
    var bad := set x | x in refs && x in cache && !cache[x];
    Scan(cache, sc.checks + |refs - sc.cache.Keys|, AppendAll(sc.missing, bad, crel))
  }

  /** The containers (name and references), in order, each scanned against
      the cache. */
  function ScanAll(found: string -> bool, entries: seq<(string, set<string>)>): Scan
    decreases |entries|
  {
    if |entries| == 0 then Scan(map[], 0, map[])
    else
      var n := |entries| - 1;
      ScanContainer(found, ScanAll(found, entries[..n]), entries[n].0, entries[n].1)
  }

  /** The names, in scan order, of the containers whose references include `ref`. */
  function Holders(entries: seq<(string, set<string>)>, ref: string): seq<string>
    decreases |entries|
  {
    if |entries| == 0 then []
    else
      var n := |entries| - 1;
      Holders(entries[..n], ref) + (if ref in entries[n].1 then [entries[n].0] else [])
  }

  function RefSets(entries: seq<(string, set<string>)>): (parsed: seq<set<string>>)
    ensures |parsed| == |entries| && forall k :: 0 <= k < |entries| ==> parsed[k] == entries[k].1
  {
    seq(|entries|, k requires 0 <= k < |entries| => entries[k].1)
  }

  /** The scan's invariant: the cache holds exactly the references seen, each
      with its true existence, one check was made per cached reference, and
      the missing map holds exactly the unsatisfied references seen, each with
      the containers that refer to it. */
  ghost predicate ScanInvariant(found: string -> bool, entries: seq<(string, set<string>)>, sc: Scan) {
    && sc.cache.Keys == AllRefs(RefSets(entries))
    && (forall x :: x in sc.cache ==> sc.cache[x] == found(x))
    && sc.checks == |sc.cache.Keys|
    && (forall x :: x in sc.missing <==> x in sc.cache && !found(x))
    && (forall x :: x in sc.missing ==> sc.missing[x] == Holders(entries, x))
  }

  lemma AllRefsSnoc(entries: seq<(string, set<string>)>)
    requires |entries| > 0
    ensures AllRefs(RefSets(entries)) == AllRefs(RefSets(entries[..|entries| - 1])) + entries[|entries| - 1].1
  {
    var n := |entries| - 1;
    assert RefSets(entries)[..n] == RefSets(entries[..n]);
  }

  /** One container's step, stated over the scan state alone. */
  lemma ScanContainerFacts(found: string -> bool, sc: Scan, crel: string, refs: set<string>)
    requires forall x :: x in sc.cache ==> sc.cache[x] == found(x)
    requires sc.checks == |sc.cache.Keys|
    requires forall x :: x in sc.missing <==> x in sc.cache && !found(x)
    ensures var r := ScanContainer(found, sc, crel, refs);
      && r.cache.Keys == sc.cache.Keys + refs
      && (forall x :: x in r.cache ==> r.cache[x] == found(x))
      && r.checks == |r.cache.Keys|
      && (forall x :: x in r.missing <==> x in r.cache && !found(x))
      && (forall x :: x in r.missing ==>
            r.missing[x] == (if x in sc.missing then sc.missing[x] else []) + (if x in refs then [crel] else []))
  {
    var unseen := refs - sc.cache.Keys;
    assert sc.cache.Keys + refs == sc.cache.Keys + unseen;
    assert sc.cache.Keys * unseen == {};
  }

  lemma ScanContainerStep(found: string -> bool, entries: seq<(string, set<string>)>, sc: Scan)
    requires |entries| > 0
    requires ScanInvariant(found, entries[..|entries| - 1], sc)
    ensures ScanInvariant(found, entries, ScanContainer(found, sc, entries[|entries| - 1].0, entries[|entries| - 1].1))
  {
    var n := |entries| - 1;
    var crel := entries[n].0;
    var refs := entries[n].1;
    var r := ScanContainer(found, sc, crel, refs);
    ScanContainerFacts(found, sc, crel, refs);
    AllRefsSnoc(entries);
    MissingStep(entries, sc.missing, r.missing);
    assert r.cache.Keys == AllRefs(RefSets(entries));
    InvariantParts(found, entries, r);
  }

  lemma InvariantParts(found: string -> bool, entries: seq<(string, set<string>)>, r: Scan)
    requires r.cache.Keys == AllRefs(RefSets(entries))
    requires forall x :: x in r.cache ==> r.cache[x] == found(x)
    requires r.checks == |r.cache.Keys|
    requires forall x :: x in r.missing <==> x in r.cache && !found(x)
    requires forall x :: x in r.missing ==> r.missing[x] == Holders(entries, x)
    ensures ScanInvariant(found, entries, r)
  {
  }

  /** The missing lists after one more container are its holders. */
  lemma MissingStep(entries: seq<(string, set<string>)>, before: map<string, seq<string>>, after: map<string, seq<string>>)
    requires |entries| > 0
    requires forall x :: x in before ==> before[x] == Holders(entries[..|entries| - 1], x)
    requires forall x :: x in after ==>
      after[x] == (if x in before then before[x] else []) + (if x in entries[|entries| - 1].1 then [entries[|entries| - 1].0] else [])
    requires forall x :: x in after && x !in before ==> x !in AllRefs(RefSets(entries[..|entries| - 1]))
    ensures forall x :: x in after ==> after[x] == Holders(entries, x)
  {
    var pre := entries[..|entries| - 1];
    forall x | x in after ensures after[x] == Holders(entries, x) {
      if x !in before {
        HoldersOutside(pre, x);
      }
    }
  }

  /** A reference no container makes has no holders. */
  lemma {:induction false} HoldersOutside(entries: seq<(string, set<string>)>, x: string)
    requires x !in AllRefs(RefSets(entries))
    ensures Holders(entries, x) == []
    decreases |entries|
  {
    if |entries| > 0 {
      AllRefsSnoc(entries);
      HoldersOutside(entries[..|entries| - 1], x);
    }
  }

  /** The scan after any prefix of the containers satisfies the invariant. */
  lemma {:induction false} ScanAllInvariant(found: string -> bool, entries: seq<(string, set<string>)>)
    ensures ScanInvariant(found, entries, ScanAll(found, entries))
    decreases |entries|
  {
    if |entries| > 0 {
      ScanAllInvariant(found, entries[..|entries| - 1]);
      ScanContainerStep(found, entries, ScanAll(found, entries[..|entries| - 1]));
    }
  }

  /** Each container's report name and references, in order. */
  function ScanEntries(root: string, files: Files, sep: char, containers: seq<string>): (entries: seq<(string, set<string>)>)
    ensures |entries| == |containers|
    ensures forall k :: 0 <= k < |containers| ==> entries[k] == (ContainerRel(root, containers[k]), ParseWrapper(files, sep, containers[k]))
  {
    seq(|containers|, k requires 0 <= k < |containers| => (ContainerRel(root, containers[k]), ParseWrapper(files, sep, containers[k])))
  }

  /** What `MissingAssetFinder.run` reports. */
  datatype MissingReport = MissingReport(missing: map<string, seq<string>>, totalScanned: nat)

  /** `MissingAssetFinder.run` over the containers `find_files_by_extensions`
      selects by name. */
  function FindMissing(root: string, existing: set<string>, files: Files, sep: char, walk: seq<string>): MissingReport {
    var containers := ContainerFiles(walk);
    MissingReport(ScanAll(x => Found(root, existing, x), ScanEntries(root, files, sep, containers)).missing, |containers|)
  }

  /** The report's keys are exactly the references some container makes that
      neither exist nor have a `.dds` sibling standing in; each lists the
      containers making it, once per container and in order; every container
      is counted. */
  lemma FindMissingEffect(root: string, existing: set<string>, files: Files, sep: char, walk: seq<string>)
    ensures var rep := FindMissing(root, existing, files, sep, walk);
      var containers := ContainerFiles(walk);
      && rep.totalScanned == |containers|
      && (forall x :: x in rep.missing <==>
            (exists k :: 0 <= k < |containers| && x in ParseWrapper(files, sep, containers[k])) && !Found(root, existing, x))
      && (forall x :: x in rep.missing ==> rep.missing[x] == Holders(ScanEntries(root, files, sep, containers), x))
  {
    var containers := ContainerFiles(walk);
    var entries := ScanEntries(root, files, sep, containers);
    ScanAllInvariant(x => Found(root, existing, x), entries);
    assert forall k :: 0 <= k < |containers| ==> RefSets(entries)[k] == ParseWrapper(files, sep, containers[k]);
  }

  /** Existence is computed once per distinct reference: the number of checks
      equals the number of distinct references seen. */
  lemma CheckedOncePerReference(found: string -> bool, entries: seq<(string, set<string>)>)
    ensures ScanAll(found, entries).checks == |AllRefs(RefSets(entries))|
    ensures forall x :: x in ScanAll(found, entries).cache ==> ScanAll(found, entries).cache[x] == found(x)
  {
    ScanAllInvariant(found, entries);
  }

  /** `Holders` lists each container making the reference once, in order. */
  lemma {:induction false} HoldersMeaning(entries: seq<(string, set<string>)>, ref: string)
    ensures |Holders(entries, ref)| == |set k | 0 <= k < |entries| && ref in entries[k].1|
    decreases |entries|
  {
    if |entries| > 0 {
      var n := |entries| - 1;
      var pre := entries[..n];
      HoldersMeaning(pre, ref);
      var a := set k | 0 <= k < n && ref in pre[k].1;
      var b := set k | 0 <= k < |entries| && ref in entries[k].1;
      assert forall k :: 0 <= k < n ==> pre[k] == entries[k];
      if ref in entries[n].1 {
        assert b == a + {n};
      } else {
        assert b == a;
      }
    }
  }
}

=== FILE: handlers.dfy ===
/** The XML and Lua asset handlers: reference extraction (`parse`) and
    format-preserving path substitution (`rewrite`).

    The handlers find references with a regular expression.  The model does
    not re-implement the expression; a container's text is given already split
    into the pieces the expression produces: literal text, and matches made of
    a key prefix (`File = ` for XML, empty for Lua), the quote character and
    the quoted path.  `WellFormed` states what the expression guarantees of
    each match.  Both copies of the handlers (the older one used by the
    watcher and the newer one used by the diagnostics) have the same logic and
    share this model.
 */
module Handlers {
  import opened Wrappers
  import opened Strings
  import opened Config

  datatype Segment =
    | Text(text: string)
    | Match(prefix: string, quote: char, path: string)

  /** A container's contents as the handler's pattern splits them. */
  type Document = seq<Segment>

  function RenderSegment(g: Segment): string {
    match g
    case Text(t) => t
    case Match(p, q, path) => p + [q] + path + [q]
  }

  /** The text a document stands for. */
  function Render(d: Document): string {
    if |d| == 0 then "" else RenderSegment(d[0]) + Render(d[1..])
  }

  /** A file on disk: unreadable (locked, vanished or failing to decode on every
      attempt) or readable with the given contents; `writable` says whether an
      atomic write of new contents would succeed (a failed one leaves the file
      as it was). */
  datatype Content = Locked | Doc(doc: Document, writable: bool)

  // ---------------------------------------------------------------- pattern

  const XmlKeys: set<string> := {"file", "texture", "filename", "path", "material"}

  predicate IsQuote(c: char) {
    c == '"' || c == '\''
  }

  predicate AllSpace(s: string) {
    forall i :: 0 <= i < |s| ==> IsSpace(s[i])
  }

  /** Length of the leading run of characters that are neither blank nor '='. */
  function KeyLength(p: string): (k: nat)
    ensures k <= |p|
  {
    if |p| == 0 || IsSpace(p[0]) || p[0] == '=' then 0 else 1 + KeyLength(p[1..])
  }

  /** Length of the leading whitespace run. */
  function SpaceRun(p: string): (k: nat)
    ensures k <= |p|
  {
    if |p| == 0 || !IsSpace(p[0]) then 0 else 1 + SpaceRun(p[1..])
  }

  /** The XML key group `(?:File|Texture|filename|path|Material)\s*=\s*`,
      matched case-insensitively. */
  predicate XmlPrefix(p: string) {
    var k := KeyLength(p);
    var rest := p[k..];
    var w := SpaceRun(rest);
    Lower(p[..k]) in XmlKeys && w < |rest| && rest[w] == '=' && AllSpace(rest[w + 1..])
  }

  /** The path ends, case-insensitively, with a tracked extension and has at least
      one character before it. */
  predicate EndsWithTracked(path: string, tracked: seq<string>) {
    exists e :: e in tracked && |e| < |path| && Lower(path[|path| - |e|..]) == e
  }

  /** A path the pattern's quoted group can match: quote-free and ending with a
      tracked extension. */
  predicate QuotablePath(path: string, tracked: seq<string>) {
    && (forall i :: 0 <= i < |path| ==> !IsQuote(path[i]))
    && EndsWithTracked(path, tracked)
  }

  /** What the handler's pattern guarantees of one match: a quote that also
      closes it, a non-empty quote-free path ending with a tracked extension, and
      the key prefix of the handler's kind. */
  predicate WellFormedMatch(kind: HandlerKind, g: Segment, tracked: seq<string>) {
    g.Match? ==>
      && IsQuote(g.quote)
      && QuotablePath(g.path, tracked)
      && (if kind == XmlHandler then XmlPrefix(g.prefix) else g.prefix == "")
  }

  predicate WellFormed(kind: HandlerKind, d: Document, tracked: seq<string>) {
    forall i :: 0 <= i < |d| ==> WellFormedMatch(kind, d[i], tracked)
  }

  // ---------------------------------------------------------------- parse

  /** How `parse` normalises a matched path: strip, separator to '/', lowercase. */
  function NormalizeParsed(path: string, sep: char): string {
    Lower(ReplaceChar(Strip(path), sep, '/'))
  }

  /** The normalised paths of all matches in `d`. */
  function MatchedPaths(d: Document, sep: char): set<string> {
    set i | 0 <= i < |d| && d[i].Match? :: NormalizeParsed(d[i].path, sep)
  }

  /** `XmlAssetHandler.parse` / `LuaAssetHandler.parse` (both normalise the same
      way): an empty file gives the empty set without being scanned. */
  function Parse(d: Document, sep: char): set<string> {
    if |Render(d)| == 0 then {} else MatchedPaths(d, sep)
  }

  lemma ParseEmptyFile(d: Document, sep: char)
    requires Render(d) == ""
    ensures Parse(d, sep) == {}
  {
  }

  /** Every rendered match is at least two quote characters long, so a
      document whose text is empty has no match. */
  lemma {:induction false} EmptyRenderHasNoMatch(d: Document)
    requires Render(d) == ""
    ensures forall i :: 0 <= i < |d| ==> d[i].Text?
  {
    if |d| > 0 {
      assert RenderSegment(d[0]) + Render(d[1..]) == "";
      EmptyRenderHasNoMatch(d[1..]);
      forall i | 0 <= i < |d| ensures d[i].Text? {
        if i > 0 {
          assert d[i] == d[1..][i - 1];
        }
      }
    }
  }

  /** A path is in the parse result exactly when some match
      normalises to it (the file being non-empty). */
  lemma ParseMembership(d: Document, sep: char, r: string)
    requires Render(d) != ""
    ensures r in Parse(d, sep) <==> exists i :: 0 <= i < |d| && d[i].Match? && NormalizeParsed(d[i].path, sep) == r
  {
  }

  /** Stripping keeps a non-blank tail: when the last `n` characters start and
      end with non-blank characters, the stripped string still ends with them. */
  lemma StripKeepsTail(s: string, n: nat)
    requires 0 < n <= |s|
    requires !IsSpace(s[|s| - n]) && !IsSpace(s[|s| - 1])
    ensures |Strip(s)| >= n
    ensures Strip(s)[|Strip(s)| - n..] == s[|s| - n..]
  {
    LStripStopsAt(s, |s| - n);
    var l := LStrip(s);
    SuffixOfSuffix(s, |s| - |l|, n);
    RStripNoBlankEnd(l);
    assert Strip(s) == l;
  }

  /** The last `n` characters of a suffix of `s` at least `n` long are the
      last `n` characters of `s`. */
  lemma SuffixOfSuffix(s: string, d: nat, n: nat)
    requires d <= |s| - n
    ensures s[d..][|s| - d - n..] == s[|s| - n..]
  {
  }

  /** Lowering leaves blanks and separators alone, so a character whose
      lowered form is neither was neither before. */
  lemma LowerCharFixes(c: char)
    ensures IsSpace(c) ==> LowerChar(c) == c
    ensures c == '/' || c == '\\' || c == '.' ==> LowerChar(c) == c
    ensures LowerChar(c) == '.' ==> c == '.'
  {
  }

  /** The last `n` characters of a path ending with a valid extension (in any
      case) are not blank at either end. */
  lemma ExtensionTailNotBlank(path: string, e: string, sep: char)
    requires ValidExtension(e, sep)
    requires |e| < |path| && Lower(path[|path| - |e|..]) == e
    ensures !IsSpace(path[|path| - |e|]) && !IsSpace(path[|path| - 1])
  {
    var n := |e|;
    var tail := path[|path| - n..];
    assert LowerChar(tail[0]) == e[0] == '.';
    LowerCharFixes(tail[0]);
    assert path[|path| - n] == tail[0];
    LowerCharFixes(tail[n - 1]);
    assert path[|path| - 1] == tail[n - 1];
  }

  /** Replacing a character that does not occur in the tail keeps the tail. */
  lemma ReplaceCharKeepsTail(st: string, tail: string, a: char, b: char)
    requires |tail| <= |st| && st[|st| - |tail|..] == tail
    requires forall k :: 0 <= k < |tail| ==> tail[k] != a
    ensures ReplaceChar(st, a, b)[|st| - |tail|..] == tail
  {
    var rc := ReplaceChar(st, a, b);
    forall j | |st| - |tail| <= j < |st| ensures rc[j] == st[j] {
      assert st[j] == tail[j - (|st| - |tail|)];
    }
  }

  /** A spelling of a valid extension holds no separator character. */
  lemma ExtensionSpellingHasNoSep(tail: string, e: string, sep: char)
    requires sep == '/' || sep == '\\'
    requires ValidExtension(e, sep)
    requires Lower(tail) == e
    ensures forall k :: 0 <= k < |tail| ==> tail[k] != sep
  {
    forall k | 0 <= k < |tail| ensures tail[k] != sep {
      assert LowerChar(tail[k]) == e[k];
      LowerCharFixes(tail[k]);
    }
  }

  lemma LowerTail(s: string, n: nat)
    requires n <= |s|
    ensures Lower(s)[|s| - n..] == Lower(s[|s| - n..])
  {
  }

  /** Normalising keeps a tail that is not blank at either end and holds no
      platform separator: the result ends with the tail lowered. */
  lemma NormalizeKeepsTail(path: string, tail: string, sep: char)
    requires 0 < |tail| <= |path| && path[|path| - |tail|..] == tail
    requires !IsSpace(tail[0]) && !IsSpace(tail[|tail| - 1])
    requires forall k :: 0 <= k < |tail| ==> tail[k] != sep
    ensures EndsWith(NormalizeParsed(path, sep), Lower(tail))
  {
    assert path[|path| - |tail|] == tail[0] && path[|path| - 1] == tail[|tail| - 1];
    StripKeepsTail(path, |tail|);
    var st := Strip(path);
    LowerReplaceKeepsTail(st, tail, sep);
  }

  /** Replacing the separator and lowering keep a separator-free tail, lowered. */
  lemma LowerReplaceKeepsTail(st: string, tail: string, sep: char)
    requires |tail| <= |st| && st[|st| - |tail|..] == tail
    requires forall k :: 0 <= k < |tail| ==> tail[k] != sep
    ensures EndsWith(Lower(ReplaceChar(st, sep, '/')), Lower(tail))
  {
    ReplaceCharKeepsTail(st, tail, sep, '/');
    LowerTail(ReplaceChar(st, sep, '/'), |tail|);
  }

  /** Normalising a path that ends with (an upper- or lower-case spelling of) a
      valid extension gives a path ending with that extension. */
  lemma NormalizeKeepsExtension(path: string, e: string, sep: char)
    requires sep == '/' || sep == '\\'
    requires ValidExtension(e, sep)
    requires |e| < |path| && Lower(path[|path| - |e|..]) == e
    ensures EndsWith(NormalizeParsed(path, sep), e)
  {
    var tail := path[|path| - |e|..];
    ExtensionTailNotBlank(path, e, sep);
    ExtensionSpellingHasNoSep(tail, e, sep);
    NormalizeKeepsTail(path, tail, sep);
  }

  /** A normalised path is lower-case and holds no platform separator
      (unless that separator is '/'). */
  lemma NormalizedIsClean(path: string, sep: char)
    requires sep == '/' || sep == '\\'
    ensures IsLower(NormalizeParsed(path, sep))
    ensures sep != '/' ==> !Contains(NormalizeParsed(path, sep), sep)
  {
    var rc := ReplaceChar(Strip(path), sep, '/');
    LowerIsLower(rc);
    var r := Lower(rc);
    if sep != '/' {
      forall j | 0 <= j < |r| ensures r[j] != sep {
        assert r[j] == LowerChar(rc[j]);
        LowerCharFixes(rc[j]);
      }
    }
  }

  /** The normal form of a path ending with a tracked extension is lower-case,
      free of the platform separator (unless that is '/'), and still ends with
      a tracked extension. */
  lemma NormalizedShape(path: string, s: Settings)
    requires ValidSettings(s)
    requires EndsWithTracked(path, s.tracked)
    ensures IsLower(NormalizeParsed(path, s.sep))
    ensures s.sep != '/' ==> !Contains(NormalizeParsed(path, s.sep), s.sep)
    ensures exists e :: e in s.tracked && EndsWith(NormalizeParsed(path, s.sep), e)
  {
    var e :| e in s.tracked && |e| < |path| && Lower(path[|path| - |e|..]) == e;
    var k :| 0 <= k < |s.tracked| && s.tracked[k] == e;
    assert ValidExtension(e, s.sep);
    NormalizeKeepsExtension(path, e, s.sep);
    NormalizedIsClean(path, s.sep);
  }

  /** The shape of every parsed reference: lower-case, free of the platform
      separator (unless that is '/'), and ending with a tracked extension. */
  lemma ParsedPathShape(kind: HandlerKind, d: Document, s: Settings, r: string)
    requires ValidSettings(s)
    requires WellFormed(kind, d, s.tracked)
    requires r in Parse(d, s.sep)
    ensures IsLower(r)
    ensures s.sep != '/' ==> !Contains(r, s.sep)
    ensures exists e :: e in s.tracked && EndsWith(r, e)
  {
    var i :| 0 <= i < |d| && d[i].Match? && NormalizeParsed(d[i].path, s.sep) == r;
    assert WellFormedMatch(kind, d[i], s.tracked);
    NormalizedShape(d[i].path, s);
  }

  // ---------------------------------------------------------------- rewrite

  /** `{k.lower(): v for k, v in replacements.items()}`: later keys win. */
  function LowerKeyMap(repl: seq<(string, string)>): (m: map<string, string>)
    ensures forall k :: k in m <==> exists i :: 0 <= i < |repl| && Lower(repl[i].0) == k
  {
    if |repl| == 0 then map[]
    else
      var m0 := LowerKeyMap(repl[..|repl| - 1]);
      var last := repl[|repl| - 1];
      assert forall i :: 0 <= i < |repl| - 1 ==> repl[..|repl| - 1][i] == repl[i];
      m0[Lower(last.0) := last.1]
  }

  /** The value `LowerKeyMap` keeps for a key is that of its last occurrence. */
  lemma {:induction false} LowerKeyMapLastWins(repl: seq<(string, string)>, i: nat)
    requires i < |repl|
    requires forall j :: i < j < |repl| ==> Lower(repl[j].0) != Lower(repl[i].0)
    ensures LowerKeyMap(repl)[Lower(repl[i].0)] == repl[i].1
    decreases |repl|
  {
    if i < |repl| - 1 {
      var pre := repl[..|repl| - 1];
      assert pre[i] == repl[i];
      LowerKeyMapLastWins(pre, i);
    }
  }

  /** What the substitution callback decides for one matched path. */
  datatype Decision = Raise | Keep | Replace(value: string)

  /** The path the callback compares: the XML handler strips it first; both map
      the platform separator to '/'. */
  function CallbackPath(kind: HandlerKind, path: string, sep: char): string {
    if kind == XmlHandler then ReplaceChar(Strip(path), sep, '/') else ReplaceChar(path, sep, '/')
  }

  /** The directory-move branch of the callback: only the first table entry
      is used (`next(iter(...))`, which raises on an empty table). */
  function DecideDirMove(norm: string, repl: seq<(string, string)>): Decision {
    if |repl| == 0 then Raise
    else
      var oldDir := repl[0].0;
      var newDir := repl[0].1;
      if StartsWith(Lower(norm), Lower(oldDir) + "/") then
        var v := newDir + norm[|oldDir|..];
        if |v| > 0 then Replace(v) else Keep
      else Keep
  }

  /** The exact-rename branch of the callback: look the lowered path up in the
      lowered table; a missing or empty value keeps the match. */
  function DecideExact(norm: string, repl: seq<(string, string)>): Decision {
    var low := Lower(norm);
    var m := LowerKeyMap(repl);
    if low in m && |m[low]| > 0 then Replace(m[low]) else Keep
  }

  /** The `replace_callback` / `replacer` logic for one matched path. */
  function Decide(kind: HandlerKind, sep: char, repl: seq<(string, string)>, isDirMove: bool, path: string): Decision {
    var norm := CallbackPath(kind, path, sep);
    if isDirMove then DecideDirMove(norm, repl) else DecideExact(norm, repl)
  }

  /** The callback applied to one piece: `None` when it raises. */
  function SubstSegment(kind: HandlerKind, sep: char, repl: seq<(string, string)>, isDirMove: bool, g: Segment): Option<Segment> {
    match g
    case Text(_) => Some(g)
    case Match(p, q, path) =>
      match Decide(kind, sep, repl, isDirMove, path)
      case Raise => None
      case Keep => Some(g)
      case Replace(v) => Some(Match(p, q, v))
  }

  /** `pattern.sub(callback, content)` on the split text: `None` when the callback
      raised (the handler then logs and leaves the file alone). */
  function SubstituteAll(kind: HandlerKind, sep: char, repl: seq<(string, string)>, isDirMove: bool, d: Document): Option<Document>
  {
    if |d| == 0 then Some([])
    else
      var h := SubstSegment(kind, sep, repl, isDirMove, d[0]);
      var rest := SubstituteAll(kind, sep, repl, isDirMove, d[1..]);
      if h.None? || rest.None? then None else Some([h.value] + rest.value)
  }

  /** `rewrite(file_path, replacements, is_dir_move)`: the file's contents after
      the call.  An unreadable file, a raising callback or a failing write leaves
      the file as it was; otherwise the substituted text is written only when it
      differs. */
  function Rewrite(kind: HandlerKind, sep: char, repl: seq<(string, string)>, isDirMove: bool, c: Content): Content {
    match c
    case Locked => Locked
    case Doc(d, w) =>
      match SubstituteAll(kind, sep, repl, isDirMove, d)
      case None => c
      case Some(d') => if Render(d') != Render(d) && w then Doc(d', w) else c
  }

  /** Substitution works piece by piece: it succeeds exactly when the callback
      succeeds on every piece, and then the i-th piece of the result is the
      callback's output for the i-th piece of the input. */
  lemma {:induction false} SubstitutePointwise(kind: HandlerKind, sep: char, repl: seq<(string, string)>, isDirMove: bool, d: Document)
    ensures var r := SubstituteAll(kind, sep, repl, isDirMove, d);
      (r.Some? <==> forall i :: 0 <= i < |d| ==> SubstSegment(kind, sep, repl, isDirMove, d[i]).Some?)
      && (r.Some? ==>
            && |r.value| == |d|
            && forall i :: 0 <= i < |d| ==> r.value[i] == SubstSegment(kind, sep, repl, isDirMove, d[i]).value)
    decreases |d|
  {
    if |d| > 0 {
      SubstitutePointwise(kind, sep, repl, isDirMove, d[1..]);
      assert forall i :: 1 <= i < |d| ==> d[i] == d[1..][i - 1];
    }
  }

  /** The callback edits matches only: literal text comes back as it was, a
      match keeps its key prefix and both its quotes, and its path becomes the
      decided value exactly when the decision is to replace. */
  lemma SubstSegmentFormat(kind: HandlerKind, sep: char, repl: seq<(string, string)>, isDirMove: bool, g: Segment)
    requires SubstSegment(kind, sep, repl, isDirMove, g).Some?
    ensures var g' := SubstSegment(kind, sep, repl, isDirMove, g).value;
      && (g.Text? ==> g' == g)
      && (g.Match? ==>
            && g'.Match? && g'.prefix == g.prefix && g'.quote == g.quote
            && (g'.path != g.path ==> Decide(kind, sep, repl, isDirMove, g.path) == Replace(g'.path))
            && (Decide(kind, sep, repl, isDirMove, g.path).Replace? ==> g'.path == Decide(kind, sep, repl, isDirMove, g.path).value))
  {
  }

  /** The callback raises only in a directory move given an empty table, and then
      only when the text has a match. */
  lemma SubstituteRaisesOnlyOnEmptyDirTable(kind: HandlerKind, sep: char, repl: seq<(string, string)>, isDirMove: bool, d: Document)
    ensures SubstituteAll(kind, sep, repl, isDirMove, d).None? <==>
      isDirMove && |repl| == 0 && exists i :: 0 <= i < |d| && d[i].Match?
  {
    SubstitutePointwise(kind, sep, repl, isDirMove, d);
    if isDirMove && |repl| == 0 && exists i :: 0 <= i < |d| && d[i].Match? {
      var i :| 0 <= i < |d| && d[i].Match?;
      assert SubstSegment(kind, sep, repl, isDirMove, d[i]).None?;
    }
  }

  /** Exact rename: a match is replaced iff its normalised, lowered path is a key
      of the lowered table with a non-empty value, and the new path is that value
      verbatim. */
  lemma ExactRenameDecision(kind: HandlerKind, sep: char, repl: seq<(string, string)>, path: string)
    ensures var low := Lower(CallbackPath(kind, path, sep));
      Decide(kind, sep, repl, false, path) ==
        if (exists i :: 0 <= i < |repl| && Lower(repl[i].0) == low) && |LowerKeyMap(repl)[low]| > 0
        then Replace(LowerKeyMap(repl)[low]) else Keep
  {
  }

  /** Directory move: a match is replaced iff its lowered path starts with the
      lowered old directory and '/'; the new path is the new directory followed
      by the rest of the original path, whose case is kept.  Only the first
      table entry is consulted. */
  lemma DirMoveDecision(norm: string, repl: seq<(string, string)>)
    requires |repl| > 0
    ensures var oldDir := repl[0].0;
      if StartsWith(Lower(norm), Lower(oldDir) + "/") then
        && |oldDir| < |norm| && norm[|oldDir|] == '/'
        && Lower(norm[..|oldDir|]) == Lower(oldDir)
        && DecideDirMove(norm, repl) == Replace(repl[0].1 + norm[|oldDir|..])
      else DecideDirMove(norm, repl) == Keep
  {
    var oldDir := repl[0].0;
    if StartsWith(Lower(norm), Lower(oldDir) + "/") {
      var ln := Lower(norm);
      assert ln[|oldDir|] == (Lower(oldDir) + "/")[|oldDir|] == '/';
      LowerCharFixes(norm[|oldDir|]);
      assert Lower(norm[..|oldDir|]) == ln[..|oldDir|];
    }
  }

  /** Rendering distributes over concatenation. */
  lemma {:induction false} RenderAppend(a: Document, b: Document)
    ensures Render(a + b) == Render(a) + Render(b)
    decreases |a|
  {
    if |a| > 0 {
      assert (a + b)[0] == a[0];
      assert (a + b)[1..] == a[1..] + b;
      RenderAppend(a[1..], b);
      calc {
        Render(a + b);
        RenderSegment(a[0]) + Render(a[1..] + b);
        RenderSegment(a[0]) + (Render(a[1..]) + Render(b));
        (RenderSegment(a[0]) + Render(a[1..])) + Render(b);
      }
    } else {
      assert a + b == b;
    }
  }

  /** When no match has an applicable replacement the substitution returns the
      document unchanged, so the file is not written. */
  lemma {:induction false} NothingApplicableIsNoOp(kind: HandlerKind, sep: char, repl: seq<(string, string)>, isDirMove: bool, d: Document, w: bool)
    requires forall i :: 0 <= i < |d| && d[i].Match? ==> Decide(kind, sep, repl, isDirMove, d[i].path) == Keep
    ensures SubstituteAll(kind, sep, repl, isDirMove, d) == Some(d)
    ensures Rewrite(kind, sep, repl, isDirMove, Doc(d, w)) == Doc(d, w)
    decreases |d|
  {
    if |d| > 0 {
      forall i | 0 <= i < |d[1..]| && d[1..][i].Match?
        ensures Decide(kind, sep, repl, isDirMove, d[1..][i].path) == Keep
      {
        assert d[1..][i] == d[i + 1];
      }
      NothingApplicableIsNoOp(kind, sep, repl, isDirMove, d[1..], w);
      assert [d[0]] + d[1..] == d;
    }
  }

  /** The file is written only when its text changes: whatever `Rewrite` returns
      either is the input or renders differently from it. */
  lemma RewriteWritesOnlyChanges(kind: HandlerKind, sep: char, repl: seq<(string, string)>, isDirMove: bool, c: Content)
    ensures var c' := Rewrite(kind, sep, repl, isDirMove, c);
      c' == c || (c.Doc? && c.writable && c' == Doc(c'.doc, true) && Render(c'.doc) != Render(c.doc))
  {
  }

  /** A failing rewrite is caught, never propagated: an unreadable file, a
      directory move with an empty table over a text with matches, or a file
      whose write fails, is left exactly as it was. */
  lemma RewriteFailureLeavesFile(kind: HandlerKind, sep: char, repl: seq<(string, string)>, isDirMove: bool, c: Content)
    requires c.Locked? || (isDirMove && |repl| == 0) || (c.Doc? && !c.writable)
    ensures Rewrite(kind, sep, repl, isDirMove, c) == c
  {
    if c.Doc? {
      SubstituteRaisesOnlyOnEmptyDirTable(kind, sep, repl, isDirMove, c.doc);
      if !exists i :: 0 <= i < |c.doc| && c.doc[i].Match? {
        NothingApplicableIsNoOp(kind, sep, repl, isDirMove, c.doc, c.writable);
      }
    }
  }

  /** A rewrite keeps the document in the pattern's shape when every value the
      callback substitutes is itself a quotable tracked path: every match of the
      written document is again one the pattern guarantees. */
  lemma RewriteKeepsWellFormed(kind: HandlerKind, sep: char, repl: seq<(string, string)>, isDirMove: bool, c: Content, tracked: seq<string>)
    requires c.Doc? && WellFormed(kind, c.doc, tracked)
    requires forall i :: 0 <= i < |c.doc| && c.doc[i].Match? && Decide(kind, sep, repl, isDirMove, c.doc[i].path).Replace? ==>
      QuotablePath(Decide(kind, sep, repl, isDirMove, c.doc[i].path).value, tracked)
    ensures Rewrite(kind, sep, repl, isDirMove, c).Doc?
    ensures WellFormed(kind, Rewrite(kind, sep, repl, isDirMove, c).doc, tracked)
  {
    var d := c.doc;
    var r := SubstituteAll(kind, sep, repl, isDirMove, d);
    SubstitutePointwise(kind, sep, repl, isDirMove, d);
    if r.Some? {
      forall i | 0 <= i < |r.value| ensures WellFormedMatch(kind, r.value[i], tracked) {
        assert WellFormedMatch(kind, d[i], tracked);
        SubstSegmentFormat(kind, sep, repl, isDirMove, d[i]);
      }
    }
  }

  /** Every value of the lowered table is the value of some table entry. */
  lemma {:induction false} LowerKeyMapValue(repl: seq<(string, string)>, k: string)
    requires k in LowerKeyMap(repl)
    ensures exists i :: 0 <= i < |repl| && LowerKeyMap(repl)[k] == repl[i].1
    decreases |repl|
  {
    var last := repl[|repl| - 1];
    if Lower(last.0) != k {
      var pre := repl[..|repl| - 1];
      LowerKeyMapValue(pre, k);
      var i :| 0 <= i < |pre| && LowerKeyMap(pre)[k] == pre[i].1;
      assert pre[i] == repl[i];
    } else {
      assert LowerKeyMap(repl)[k] == repl[|repl| - 1].1;
    }
  }

  /** An exact rename whose non-empty new paths are all quotable tracked paths
      keeps a well-formed document well-formed. */
  lemma ExactRenameKeepsWellFormed(kind: HandlerKind, sep: char, repl: seq<(string, string)>, c: Content, tracked: seq<string>)
    requires c.Doc? && WellFormed(kind, c.doc, tracked)
    requires forall i :: 0 <= i < |repl| && |repl[i].1| > 0 ==> QuotablePath(repl[i].1, tracked)
    ensures Rewrite(kind, sep, repl, false, c).Doc?
    ensures WellFormed(kind, Rewrite(kind, sep, repl, false, c).doc, tracked)
  {
    forall i | 0 <= i < |c.doc| && c.doc[i].Match? && Decide(kind, sep, repl, false, c.doc[i].path).Replace?
      ensures QuotablePath(Decide(kind, sep, repl, false, c.doc[i].path).value, tracked)
    {
      var low := Lower(CallbackPath(kind, c.doc[i].path, sep));
      LowerKeyMapValue(repl, low);
    }
    RewriteKeepsWellFormed(kind, sep, repl, false, c, tracked);
  }

  /** The model keeps a rewritten document's split instead of matching the
      written text again, so a new path the pattern would not match survives as
      a match: renaming `a.cgf` to `a.cgf.bak` leaves a document that is not
      well-formed, yet parsing it reports the new path. */
  lemma RewriteCanLeavePatternShape()
    ensures var d := [Match("File=", '"', "a.cgf")];
      var c' := Rewrite(XmlHandler, '/', [("a.cgf", "a.cgf.bak")], false, Doc(d, true));
      && WellFormed(XmlHandler, d, [".cgf"])
      && c' == Doc([Match("File=", '"', "a.cgf.bak")], true)
      && !WellFormed(XmlHandler, c'.doc, [".cgf"])
      && Parse(c'.doc, '/') == {"a.cgf.bak"}
  {
    var d := [Match("File=", '"', "a.cgf")];
    var d' := [Match("File=", '"', "a.cgf.bak")];
    CgfMatchWellFormed();
    CgfRenamedToBak();
    SingleMatchRenderLength("File=", '"', "a.cgf");
    SingleMatchRenderLength("File=", '"', "a.cgf.bak");
    BakMatchIllFormed();
    BakMatchParsed();
  }

  lemma CgfMatchWellFormed()
    ensures WellFormed(XmlHandler, [Match("File=", '"', "a.cgf")], [".cgf"])
  {
    FileKeyIsXmlPrefix();
    CgfIsQuotable();
    XmlMatchWellFormed("File=", '"', "a.cgf", [".cgf"]);
  }

  lemma XmlMatchWellFormed(pre: string, q: char, p: string, tracked: seq<string>)
    requires XmlPrefix(pre) && IsQuote(q) && QuotablePath(p, tracked)
    ensures WellFormed(XmlHandler, [Match(pre, q, p)], tracked)
  {
    assert WellFormedMatch(XmlHandler, [Match(pre, q, p)][0], tracked);
  }

  lemma CgfIsQuotable()
    ensures QuotablePath("a.cgf", [".cgf"])
  {
    var p := "a.cgf";
    var e := ".cgf";
    assert p[|p| - |e|..] == e;
    LowerOfLower(e);
    assert e in [e];
  }

  lemma FileKeyIsXmlPrefix()
    ensures XmlPrefix("File=")
  {
    assert KeyLength("File=") == 4;
    assert "File="[..4] == "File" && "File="[4..] == "=";
    assert SpaceRun("=") == 0;
    assert Lower("File") == "file";
  }

  /** A lower-case path without surrounding blanks is its own normal form on a
      '/' platform, and the XML callback compares it as it is. */
  lemma CleanPathIsNormal(p: string)
    requires |p| > 0 && !IsSpace(p[0]) && !IsSpace(p[|p| - 1]) && IsLower(p)
    ensures CallbackPath(XmlHandler, p, '/') == p
    ensures NormalizeParsed(p, '/') == p
  {
    assert Strip(p) == p;
    assert ReplaceChar(p, '/', '/') == p;
    LowerOfLower(p);
  }

  lemma CgfRenamedToBak()
    ensures SubstituteAll(XmlHandler, '/', [("a.cgf", "a.cgf.bak")], false, [Match("File=", '"', "a.cgf")])
      == Some([Match("File=", '"', "a.cgf.bak")])
  {
    CleanPathIsNormal("a.cgf");
    SingleRename(XmlHandler, '/', "File=", '"', "a.cgf", "a.cgf.bak");
  }

  /** A one-entry exact rename of a path that is its own callback form,
      lowered, replaces the one match with the entry's value. */
  lemma SingleRename(kind: HandlerKind, sep: char, pre: string, q: char, p: string, v: string)
    requires CallbackPath(kind, p, sep) == p && Lower(p) == p && |v| > 0
    ensures SubstituteAll(kind, sep, [(p, v)], false, [Match(pre, q, p)]) == Some([Match(pre, q, v)])
  {
    var repl := [(p, v)];
    SingleEntryDecides(p, v);
    assert Decide(kind, sep, repl, false, p) == Replace(v);
    SubstituteOne(kind, sep, repl, false, Match(pre, q, p), Match(pre, q, v));
  }

  lemma SingleEntryDecides(p: string, v: string)
    requires Lower(p) == p && |v| > 0
    ensures DecideExact(p, [(p, v)]) == Replace(v)
  {
    var repl := [(p, v)];
    assert repl[..0] == [];
    assert LowerKeyMap(repl) == map[p := v];
  }

  /** Substituting in a one-piece document is substituting in the piece. */
  lemma SubstituteOne(kind: HandlerKind, sep: char, repl: seq<(string, string)>, isDirMove: bool, g: Segment, h: Segment)
    requires SubstSegment(kind, sep, repl, isDirMove, g) == Some(h)
    ensures SubstituteAll(kind, sep, repl, isDirMove, [g]) == Some([h])
  {
    var d := [g];
    assert d[1..] == [];
    assert SubstituteAll(kind, sep, repl, isDirMove, d[1..]) == Some([]);
    assert [h] + [] == [h];
  }

  lemma BakMatchParsed()
    ensures Parse([Match("File=", '"', "a.cgf.bak")], '/') == {"a.cgf.bak"}
  {
    CleanPathIsNormal("a.cgf.bak");
    SingleMatchParse("File=", '"', "a.cgf.bak", '/');
  }

  lemma BakMatchIllFormed()
    ensures !WellFormed(XmlHandler, [Match("File=", '"', "a.cgf.bak")], [".cgf"])
  {
    BakIsNotTracked();
    UntrackedMatchIsIllFormed(XmlHandler, Match("File=", '"', "a.cgf.bak"), [".cgf"]);
  }

  lemma UntrackedMatchIsIllFormed(kind: HandlerKind, g: Segment, tracked: seq<string>)
    requires g.Match? && !EndsWithTracked(g.path, tracked)
    ensures !WellFormed(kind, [g], tracked)
  {
    assert [g][0] == g;
  }

  lemma SingleMatchRenderLength(pre: string, q: char, p: string)
    ensures |Render([Match(pre, q, p)])| == |pre| + |p| + 2
  {
    assert [Match(pre, q, p)][1..] == [];
  }

  /** A document that is one match parses to that match's normal form. */
  lemma SingleMatchParse(pre: string, q: char, p: string, sep: char)
    ensures Parse([Match(pre, q, p)], sep) == {NormalizeParsed(p, sep)}
  {
    var d := [Match(pre, q, p)];
    assert d[1..] == [];
    assert |Render(d)| > 0;
  }

  lemma BakIsNotTracked()
    ensures !EndsWithTracked("a.cgf.bak", [".cgf"])
  {
    var p := "a.cgf.bak";
    var e := ".cgf";
    assert p[|p| - |e|..] == ".bak";
    LowerOfLower(".bak");
    assert ".bak"[1] != e[1];
    forall e' | e' in [e] ensures !(|e'| < |p| && Lower(p[|p| - |e'|..]) == e') {
      assert e' == e;
    }
  }
}

=== FILE: order.dfy ===
/** Python's orderings and `sorted`.

    Strings compare lexicographically by code point; `pathlib` paths compare
    by their component lists, which on Windows are taken from the lower-cased
    text with either slash separating.  `sorted` is modelled as insertion
    sort, proved to return an ordered permutation of its input.
 */
module Order {
  import opened Strings
  import opened Paths

  /** `a <= b` on Python strings. */
  predicate StrLe(a: string, b: string)
    decreases |a|
  {
    |a| == 0 || (|b| > 0 && (a[0] < b[0] || (a[0] == b[0] && StrLe(a[1..], b[1..]))))
  }

  /** `a < b` on Python strings. */
  predicate StrLt(a: string, b: string) {
    StrLe(a, b) && a != b
  }

  lemma {:induction false} StrLeTotal(a: string, b: string)
    ensures StrLe(a, b) || StrLe(b, a)
    decreases |a|
  {
    if |a| > 0 && |b| > 0 && a[0] == b[0] {
      StrLeTotal(a[1..], b[1..]);
    }
  }

  lemma {:induction false} StrLeTrans(a: string, b: string, c: string)
    requires StrLe(a, b) && StrLe(b, c)
    ensures StrLe(a, c)
    decreases |a|
  {
    if |a| > 0 && a[0] == b[0] && b[0] == c[0] {
      StrLeTrans(a[1..], b[1..], c[1..]);
    }
  }

  lemma {:induction false} StrLeAntisym(a: string, b: string)
    requires StrLe(a, b) && StrLe(b, a)
    ensures a == b
    decreases |a|
  {
    if |a| > 0 {
      StrLeAntisym(a[1..], b[1..]);
      assert a == [a[0]] + a[1..] && b == [b[0]] + b[1..];
    }
  }

  /** `a <= b` on component lists (how `PurePosixPath` objects compare). */
  predicate PartsLe(a: seq<string>, b: seq<string>)
    decreases |a|
  {
    |a| == 0 || (|b| > 0 && (StrLt(a[0], b[0]) || (a[0] == b[0] && PartsLe(a[1..], b[1..]))))
  }

  /** The components a path compares by on the platform whose separator is
      `sep`: as written on POSIX; on Windows ('\\') those of the lower-cased
      text, '/' and '\\' both separating. */
  function PathKey(sep: char, p: string): seq<string> {
    if sep == '\\' then Parts(Lower(ReplaceChar(p, '\\', '/'))) else Parts(p)
  }

  /** `Path(a) <= Path(b)` on the platform whose separator is `sep`. */
  predicate PathLe(sep: char, a: string, b: string) {
    PartsLe(PathKey(sep, a), PathKey(sep, b))
  }

  /** `PathLe` on one platform, as an order to sort by. */
  function PathOrder(sep: char): (string, string) -> bool {
    (a: string, b: string) => PathLe(sep, a, b)
  }

  lemma {:induction false} PartsLeTotal(a: seq<string>, b: seq<string>)
    ensures PartsLe(a, b) || PartsLe(b, a)
    decreases |a|
  {
    if |a| > 0 && |b| > 0 {
      if a[0] == b[0] {
        PartsLeTotal(a[1..], b[1..]);
      } else {
        StrLeTotal(a[0], b[0]);
      }
    }
  }

  lemma {:induction false} PartsLeTrans(a: seq<string>, b: seq<string>, c: seq<string>)
    requires PartsLe(a, b) && PartsLe(b, c)
    ensures PartsLe(a, c)
    decreases |a|
  {
    if |a| > 0 {
      if a[0] == b[0] && b[0] == c[0] {
        PartsLeTrans(a[1..], b[1..], c[1..]);
      } else if a[0] == b[0] {
        assert StrLt(b[0], c[0]);
      } else if b[0] == c[0] {
        assert StrLt(a[0], b[0]);
      } else {
        StrLeTrans(a[0], b[0], c[0]);
        if a[0] == c[0] {
          StrLeAntisym(a[0], b[0]);
        }
      }
    }
  }

  ghost predicate Total<T(!new)>(le: (T, T) -> bool) {
    forall a, b :: le(a, b) || le(b, a)
  }

  ghost predicate Transitive<T(!new)>(le: (T, T) -> bool) {
    forall a, b, c :: le(a, b) && le(b, c) ==> le(a, c)
  }

  /** Every element is `le` every later element. */
  ghost predicate SortedBy<T>(s: seq<T>, le: (T, T) -> bool) {
    forall i, j :: 0 <= i < j < |s| ==> le(s[i], s[j])
  }

  /** Insert `x` before the first element it is `le`; a stable insertion. */
  function Insert<T>(x: T, s: seq<T>, le: (T, T) -> bool): (r: seq<T>)
    ensures multiset(r) == multiset(s) + multiset{x}
    ensures |r| == |s| + 1
  {
    if |s| == 0 then [x]
    else if le(x, s[0]) then [x] + s
    else
      assert s == [s[0]] + s[1..];
      [s[0]] + Insert(x, s[1..], le)
  }

  /** `sorted(s)` under the order `le`. */
  function Sort<T>(s: seq<T>, le: (T, T) -> bool): (r: seq<T>)
    ensures multiset(r) == multiset(s)
    ensures |r| == |s|
  {
    if |s| == 0 then []
    else
      assert s == [s[0]] + s[1..];
      Insert(s[0], Sort(s[1..], le), le)
  }

  lemma {:induction false} InsertSorted<T(!new)>(x: T, s: seq<T>, le: (T, T) -> bool)
    requires Total(le) && Transitive(le)
    requires SortedBy(s, le)
    ensures SortedBy(Insert(x, s, le), le)
    decreases |s|
  {
    if |s| > 0 && !le(x, s[0]) {
      InsertSorted(x, s[1..], le);
      var t := Insert(x, s[1..], le);
      assert le(s[0], x);
      InsertBelow(s[0], x, s[1..], le);
      ConsSorted(s[0], t, le);
    } else if |s| > 0 {
      forall k | 0 <= k < |s| ensures le(x, s[k]) {
        if k > 0 {
          assert le(s[0], s[k]);
        }
      }
      ConsSorted(x, s, le);
    }
  }

  /** An element below `x` and below everything in `s` is below everything
      in the insertion of `x` into `s`. */
  lemma InsertBelow<T>(h: T, x: T, s: seq<T>, le: (T, T) -> bool)
    requires le(h, x) && forall k :: 0 <= k < |s| ==> le(h, s[k])
    ensures forall k :: 0 <= k < |Insert(x, s, le)| ==> le(h, Insert(x, s, le)[k])
  {
    var t := Insert(x, s, le);
    forall k | 0 <= k < |t| ensures le(h, t[k]) {
      assert t[k] in multiset(t);
      assert t[k] == x || t[k] in multiset(s);
      if t[k] != x {
        var m :| 0 <= m < |s| && s[m] == t[k];
      }
    }
  }

  /** Putting an element below everything in front of a sorted list keeps it sorted. */
  lemma ConsSorted<T>(h: T, t: seq<T>, le: (T, T) -> bool)
    requires SortedBy(t, le) && forall k :: 0 <= k < |t| ==> le(h, t[k])
    ensures SortedBy([h] + t, le)
  {
    var r := [h] + t;
    forall i, j | 0 <= i < j < |r| ensures le(r[i], r[j]) {
      if i == 0 {
        assert r[j] == t[j - 1];
      } else {
        assert r[i] == t[i - 1] && r[j] == t[j - 1];
      }
    }
  }

  /** `Sort` returns an ordered permutation of its input. */
  lemma {:induction false} SortSorted<T(!new)>(s: seq<T>, le: (T, T) -> bool)
    requires Total(le) && Transitive(le)
    ensures SortedBy(Sort(s, le), le)
    decreases |s|
  {
    if |s| > 0 {
      SortSorted(s[1..], le);
      InsertSorted(s[0], Sort(s[1..], le), le);
    }
  }

  /** `sorted(xs)` for a list of strings. */
  function SortStrings(xs: seq<string>): (r: seq<string>)
    ensures multiset(r) == multiset(xs)
    ensures SortedBy(r, StrLe)
  {
    assert Total(StrLe) by {
      forall a, b ensures StrLe(a, b) || StrLe(b, a) {
        StrLeTotal(a, b);
      }
    }
    assert Transitive(StrLe) by {
      forall a, b, c | StrLe(a, b) && StrLe(b, c) ensures StrLe(a, c) {
        StrLeTrans(a, b, c);
      }
    }
    SortSorted(xs, StrLe);
    Sort(xs, StrLe)
  }

  /** `sorted(paths)` on the platform whose separator is `sep`. */
  function SortPaths(xs: seq<string>, sep: char): (r: seq<string>)
    ensures multiset(r) == multiset(xs)
    ensures SortedBy(r, PathOrder(sep))
  {
    var le := PathOrder(sep);
    assert Total(le) by {
      forall a, b ensures le(a, b) || le(b, a) {
        PartsLeTotal(PathKey(sep, a), PathKey(sep, b));
      }
    }
    assert Transitive(le) by {
      forall a, b, c | le(a, b) && le(b, c) ensures le(a, c) {
        PartsLeTrans(PathKey(sep, a), PathKey(sep, b), PathKey(sep, c));
      }
    }
    SortSorted(xs, le);
    Sort(xs, le)
  }

  /** On Windows the order does not see ASCII case: a path compares exactly
      as its lower-cased spelling does. */
  lemma WindowsOrderIgnoresCase(a: string, b: string)
    ensures PathKey('\\', Lower(a)) == PathKey('\\', a)
    ensures PathLe('\\', a, b) <==> PathLe('\\', Lower(a), Lower(b))
  {
    forall x: string ensures Lower(ReplaceChar(Lower(x), '\\', '/')) == Lower(ReplaceChar(x, '\\', '/')) {
      var l := Lower(ReplaceChar(Lower(x), '\\', '/'));
      var r := Lower(ReplaceChar(x, '\\', '/'));
      assert |l| == |r|;
      forall i | 0 <= i < |l| ensures l[i] == r[i] {
        assert LowerChar(x[i]) == '\\' <==> x[i] == '\\';
      }
    }
  }

  /** A name without separators is one component; on Windows, lowered. */
  lemma NameKey(n: string)
    requires !Contains(n, '/') && !Contains(n, '\\')
    ensures PathKey('/', n) == [n]
    ensures PathKey('\\', n) == [Lower(n)]
  {
    SplitOnAbsent(n, '/');
    var l := Lower(ReplaceChar(n, '\\', '/'));
    assert l == Lower(n);
    assert !Contains(Lower(n), '/') by {
      forall i | 0 <= i < |n| ensures Lower(n)[i] != '/' {
        assert n[i] != '/';
      }
    }
    SplitOnAbsent(Lower(n), '/');
  }

  /** Upper-case letters sort before lower-case ones on POSIX, but case is
      ignored on Windows: `B.xml` comes first on POSIX, `a.xml` on Windows. */
  lemma CaseOrderDiffers()
    ensures PathLe('/', "B.xml", "a.xml") && !PathLe('/', "a.xml", "B.xml")
    ensures PathLe('\\', "a.xml", "B.xml") && !PathLe('\\', "B.xml", "a.xml")
  {
    NameKey("a.xml");
    NameKey("B.xml");
    LowerOfLower("a.xml");
    LowerUpperB();
    FirstCharDecides("B.xml", "a.xml");
    FirstCharDecides("a.xml", "b.xml");
    OnePartDecides("B.xml", "a.xml");
    OnePartDecides("a.xml", "b.xml");
  }

  lemma LowerUpperB()
    ensures Lower("B.xml") == "b.xml"
  {
    assert Lower("B.xml")[0] == 'b';
    assert Lower("B.xml")[1..] == Lower(".xml") == ".xml";
  }

  /** Strings whose first characters differ compare by those characters. */
  lemma FirstCharDecides(a: string, b: string)
    requires |a| > 0 && |b| > 0 && a[0] < b[0]
    ensures StrLt(a, b) && !StrLe(b, a)
  {
  }

  /** One-component paths compare as their components do. */
  lemma OnePartDecides(a: string, b: string)
    requires StrLt(a, b) && !StrLe(b, a)
    ensures PartsLe([a], [b]) && !PartsLe([b], [a])
  {
    assert [a][1..] == [] && [b][1..] == [];
  }
}

=== FILE: packer.dfy ===
/** The asset packer and unpacker of `app/tasks/packer.py` and of the legacy
    `app/tasks.py`.

    Packing concatenates the selected text files into one archive, each
    behind a centred `===== FILE: <path> =====` banner.  Unpacking finds the
    banners again with the pattern
    `={5,}\s*FILE:\s*(.*?)\s*={5,}\n\n(.*?)(?=\n\n={5,}\s*FILE:|\Z)`, matched
    here by a scanner that makes the same choices the regular expression
    engine makes for that pattern: greedy runs of '=' and blanks, the
    shortest name and the shortest body.
 */
module Packer {
  import opened Wrappers
  import opened Strings
  import opened Paths
  import opened Order

  /** The two copies of the tasks differ only in their messages. */
  datatype Edition = Current | Legacy

  function Repeat(c: char, n: nat): (r: string)
    ensures |r| == n && forall i :: 0 <= i < n ==> r[i] == c
  {
    seq(n, _ => c)
  }

  // ---------------------------------------------------------------- banner

  /** The fill `str.center` puts left and right of a string of length `len`. */
  function CenterPad(len: nat, width: nat): (p: (nat, nat))
    ensures p.0 + len + p.1 == if len >= width then len else width
    ensures p.0 <= p.1 + 1 && p.1 <= p.0 + 1
    ensures width % 2 == 0 ==> p.0 <= p.1
  {
    if len >= width then (0, 0)
    else
      var marg := width - len;
      var left := marg / 2 + (if marg % 2 == 1 && width % 2 == 1 then 1 else 0);
      (left, marg - left)
  }

  /** `s.center(width, fill)`. */
  function Center(s: string, width: nat, fill: char): string {
    var (l, r) := CenterPad(|s|, width);
    Repeat(fill, l) + s + Repeat(fill, r)
  }

  /** The banner line of a file, centred in 80 '=' characters. */
  function Header(rel: string): string {
    Center("===== FILE: " + rel + " =====", 80, '=')
  }

  /** The banner is 80 characters wide unless the path makes it longer, and it
      is one run of '=', " FILE: ", the path, a blank and another run of at
      least five '='. */
  lemma HeaderPieces(rel: string)
    ensures var (l, r) := CenterPad(|rel| + 18, 80);
      && Header(rel) == Repeat('=', l + 5) + " FILE: " + rel + " " + Repeat('=', 5 + r)
      && |Header(rel)| == if |rel| + 18 >= 80 then |rel| + 18 else 80
  {
    var (l, r) := CenterPad(|rel| + 18, 80);
    var mid := " FILE: " + rel + " ";
    var core := "===== FILE: " + rel + " =====";
    assert |core| == |rel| + 18;
    assert Header(rel) == Repeat('=', l) + core + Repeat('=', r);
    assert core == "=====" + mid + "=====";
    BannerRuns(l, r, mid);
  }

  /** The fixed runs of the banner merge with the centring fill. */
  lemma BannerRuns(l: nat, r: nat, mid: string)
    ensures Repeat('=', l) + ("=====" + mid + "=====") + Repeat('=', r) == Repeat('=', l + 5) + mid + Repeat('=', 5 + r)
  {
    assert Repeat('=', l) + "=====" == Repeat('=', l + 5);
    assert "=====" + Repeat('=', r) == Repeat('=', 5 + r);
    assert Repeat('=', l) + ("=====" + mid + "=====") + Repeat('=', r)
        == (Repeat('=', l) + "=====") + mid + ("=====" + Repeat('=', r));
  }

  /** One file's part of the archive. */
  function Section(rel: string, text: string): string {
    "\n\n" + Header(rel) + "\n\n" + text
  }

  /** The archive of (path, text) entries, in order. */
  function ArchiveOf(entries: seq<(string, string)>): string
    decreases |entries|
  {
    if |entries| == 0 then "" else Section(entries[0].0, entries[0].1) + ArchiveOf(entries[1..])
  }

  // ---------------------------------------------------------------- packing

  /** The walked files whose lowered suffix is one of the extensions. */
  function Selected(walk: seq<string>, exts: seq<string>): (r: seq<string>)
    ensures forall p :: p in r <==> p in walk && Lower(Suffix(p)) in exts
    ensures |r| <= |walk|
  {
    if |walk| == 0 then []
    else
      var rest := Selected(walk[1..], exts);
      assert forall p :: p in walk <==> p == walk[0] || p in walk[1..];
      if Lower(Suffix(walk[0])) in exts then [walk[0]] + rest else rest
  }

  /** The archive entries of files given by their relative paths: the path
      with '/' for the separator, and the text read. */
  function Entries(files: seq<string>, sep: char, read: string -> string): (r: seq<(string, string)>)
    ensures |r| == |files|
    ensures forall k :: 0 <= k < |files| ==> r[k] == (ReplaceChar(files[k], sep, '/'), read(files[k]))
  {
    seq(|files|, k requires 0 <= k < |files| => (ReplaceChar(files[k], sep, '/'), read(files[k])))
  }

  datatype PackResult = PackFailed(summary: string) | Packed(archive: string, summary: string)

  /** `AssetPacker.run`.  `walk` lists the files under the root by their
      relative paths; `read` gives their text and `failure` the message of
      an exception opening or writing the archive, if one is raised. */
  function Pack(ed: Edition, walk: seq<string>, exts: seq<string>, sep: char, read: string -> string,
                failure: Option<string>, outName: string): PackResult
  {
    var files := SortPaths(Selected(walk, exts), sep);
    if |files| == 0 then
      PackFailed(if ed == Current then "Packing failed: No files found." else "Packing failed: No matching files found.")
    else if failure.Some? then PackFailed("Packing failed: " + failure.value)
    else Packed(ArchiveOf(Entries(files, sep, read)), "Packed " + Decimal(|files|) + " files into " + outName + ".")
  }

  /** Sorting keeps the selection's size, which is zero exactly when no
      walked file has a listed extension. */
  lemma NoneSelected(walk: seq<string>, exts: seq<string>, sep: char)
    ensures |SortPaths(Selected(walk, exts), sep)| == 0 <==> forall p :: p in walk ==> Lower(Suffix(p)) !in exts
  {
    var sel := Selected(walk, exts);
    assert |SortPaths(sel, sep)| == |sel| by {
      assert |multiset(SortPaths(sel, sep))| == |multiset(sel)|;
    }
    if |sel| > 0 {
      assert sel[0] in sel;
    }
  }

  /** Packing fails exactly when no file has a listed extension or the
      archive cannot be written, and the message says which. */
  lemma PackFails(ed: Edition, walk: seq<string>, exts: seq<string>, sep: char, read: string -> string,
                  failure: Option<string>, outName: string)
    ensures var r := Pack(ed, walk, exts, sep, read, failure, outName);
      && (r.PackFailed? <==> failure.Some? || forall p :: p in walk ==> Lower(Suffix(p)) !in exts)
      && ((forall p :: p in walk ==> Lower(Suffix(p)) !in exts) ==>
            r.summary == if ed == Current then "Packing failed: No files found." else "Packing failed: No matching files found.")
      && ((exists p :: p in walk && Lower(Suffix(p)) in exts) && failure.Some? ==> r.summary == "Packing failed: " + failure.value)
  {
    NoneSelected(walk, exts, sep);
  }

  /** A successful pack holds every selected file once, in the platform's path
      order, and its summary counts them. */
  lemma PackContents(ed: Edition, walk: seq<string>, exts: seq<string>, sep: char, read: string -> string,
                     failure: Option<string>, outName: string)
    ensures var r := Pack(ed, walk, exts, sep, read, failure, outName);
      r.Packed? ==>
        exists files ::
          && multiset(files) == multiset(Selected(walk, exts))
          && SortedBy(files, PathOrder(sep))
          && r.archive == ArchiveOf(Entries(files, sep, read))
          && r.summary == "Packed " + Decimal(|files|) + " files into " + outName + "."
  {
    var files := SortPaths(Selected(walk, exts), sep);
    assert multiset(files) == multiset(Selected(walk, exts)) && SortedBy(files, PathOrder(sep));
  }

  // ---------------------------------------------------------------- the pattern

  /* The scanner works on the text from the current position on: nothing in
     the pattern looks behind its start, and `\Z` is the end of that text. */

  /** The number of '=' the text starts with. */
  function EqRun(t: string): (n: nat)
    ensures n <= |t|
  {
    if |t| > 0 && t[0] == '=' then 1 + EqRun(t[1..]) else 0
  }

  /** The run is read whole: it is all '=' and what follows it is not '='. */
  lemma {:induction false} EqRunSpec(t: string)
    ensures forall k :: 0 <= k < EqRun(t) ==> t[k] == '='
    ensures EqRun(t) < |t| ==> t[EqRun(t)] != '='
  {
    if |t| > 0 && t[0] == '=' {
      EqRunSpec(t[1..]);
      forall k | 0 < k < EqRun(t) ensures t[k] == '=' {
        assert t[k] == t[1..][k - 1];
      }
    }
  }

  /** `\s*={5,}\n\n`, which closes the banner, matches at the start of `t`
      (`\s` is the whitespace `str.lstrip` removes). */
  predicate CloseAt(t: string) {
    var w := LStrip(t);
    EqRun(w) >= 5 && StartsWith(w[EqRun(w)..], "\n\n")
  }

  /** What follows the banner close at the start of `t`. */
  function AfterClose(t: string): (r: string)
    requires CloseAt(t)
    ensures |r| < |t|
  {
    var w := LStrip(t);
    w[EqRun(w) + 2..]
  }

  /** The shortest name: how far into `t` the banner first closes. */
  function FirstClose(t: string): (c: Option<nat>)
    ensures c.Some? ==> c.value <= |t| && CloseAt(t[c.value..])
  {
    if CloseAt(t) then Some(0)
    else if |t| == 0 then None
    else
      var c := FirstClose(t[1..]);
      if c.None? then None
      else
        assert t[1..][c.value..] == t[c.value + 1..];
        Some(c.value + 1)
  }

  /** The close found is the first one, and when none is found there is none. */
  lemma {:induction false} FirstCloseSpec(t: string)
    ensures forall k :: 0 <= k <= |t| && (FirstClose(t).None? || k < FirstClose(t).value) ==> !CloseAt(t[k..])
  {
    if !CloseAt(t) && |t| > 0 {
      FirstCloseSpec(t[1..]);
      FirstCloseStep(t);
      forall k | 0 <= k <= |t| && (FirstClose(t).None? || k < FirstClose(t).value) ensures !CloseAt(t[k..]) {
        if k == 0 {
          assert t[0..] == t;
        } else {
          assert t[k..] == t[1..][k - 1..];
        }
      }
    } else {
      assert t[0..] == t;
    }
  }

  /** Where the banner does not close at once, the search goes on one
      character later. */
  lemma FirstCloseStep(t: string)
    requires !CloseAt(t) && |t| > 0
    ensures FirstClose(t).None? <==> FirstClose(t[1..]).None?
    ensures FirstClose(t).Some? ==> FirstClose(t).value == FirstClose(t[1..]).value + 1
  {
  }

  /** The look-ahead `(?=\n\n={5,}\s*FILE:|\Z)` holds at the start of `t`. */
  predicate BodyEndAt(t: string) {
    || |t| == 0
    || (StartsWith(t, "\n\n") && EqRun(t[2..]) >= 5 && StartsWith(LStrip(t[2 + EqRun(t[2..])..]), "FILE:"))
  }

  /** The shortest body: how far into `t` the look-ahead first holds. */
  function BodyEnd(t: string): (k: nat)
    ensures k <= |t| && BodyEndAt(t[k..])
  {
    if |t| == 0 || BodyEndAt(t) then assert t[0..] == t; 0
    else
      var k := BodyEnd(t[1..]);
      DropShift(t, k);
      k + 1
  }

  /** Dropping one character and then `k` is dropping `k + 1`. */
  lemma DropShift(t: string, k: nat)
    requires 0 < |t| && k <= |t| - 1
    ensures t[1..][k..] == t[k + 1..]
  {
  }

  /** The body ends at the first place the look-ahead holds. */
  lemma {:induction false} BodyEndSpec(t: string)
    ensures forall k :: 0 <= k < BodyEnd(t) ==> !BodyEndAt(t[k..])
  {
    if !BodyEndAt(t) {
      BodyEndSpec(t[1..]);
      forall k | 1 <= k < BodyEnd(t) ensures t[k..] == t[1..][k - 1..] {
      }
    }
  }

  /** One match: the name group, the body group, and the text after the match. */
  datatype Hit = Hit(rel: string, body: string, rest: string)

  /** The pattern tried at the start of `t`. */
  function MatchAt(t: string): (h: Option<Hit>)
    ensures h.Some? ==> |h.value.rest| < |t|
  {
    var n := EqRun(t);
    if n < 5 then None
    else
      var u := LStrip(t[n..]);
      if !StartsWith(u, "FILE:") then None
      else
        var v := LStrip(u[5..]);
        var c := FirstClose(v);
        if c.None? then None
        else
          var w := AfterClose(v[c.value..]);
          var k := BodyEnd(w);
          Some(Hit(v[..c.value], w[..k], w[k..]))
  }

  /** The leftmost match in `t`. */
  function Search(t: string): (h: Option<Hit>)
    ensures h.Some? ==> |h.value.rest| < |t|
  {
    if MatchAt(t).Some? then MatchAt(t) else if |t| == 0 then None else Search(t[1..])
  }

  /** `pattern.findall(t)`: the (name, body) groups of successive matches. */
  function FindAll(t: string): seq<(string, string)>
    decreases |t|
  {
    var h := Search(t);
    if h.None? then [] else [(h.value.rel, h.value.body)] + FindAll(h.value.rest)
  }

  // ---------------------------------------------------------------- unpacking

  /** Where a name found in the archive is written: `output_dir / Path(name.strip())`. */
  function Target(outDir: string, rel: string): string {
    Resolve(outDir, Strip(rel))
  }

  /** The files the found (name, body) pairs are written to, with their text. */
  function Writes(hits: seq<(string, string)>, outDir: string): (w: seq<(string, string)>)
    ensures |w| == |hits|
    ensures forall k :: 0 <= k < |hits| ==> w[k].0 == Target(outDir, hits[k].0)
    ensures forall k :: 0 <= k < |hits| ==>
      var t := w[k].1;
      && |t| > 0 && t[|t| - 1] == '\n' && t[..|t| - 1] == RStrip(hits[k].1)
      && (|t| == 1 || !IsSpace(t[|t| - 2]))
  {
    seq(|hits|, k requires 0 <= k < |hits| => (Target(outDir, hits[k].0), RStrip(hits[k].1) + "\n"))
  }

  /** Writing files in order, stopping at the first failure: the files
      written and the failure, if any. */
  function WriteAll(writes: seq<(string, string)>, writeError: string -> Option<string>): (r: (nat, Option<string>))
    ensures r.0 <= |writes|
    ensures forall k :: 0 <= k < r.0 ==> writeError(writes[k].0).None?
    ensures r.1.None? <==> r.0 == |writes|
    ensures r.1.Some? ==> r.1 == writeError(writes[r.0].0)
    decreases |writes|
  {
    if |writes| == 0 then (0, None)
    else
      var e := writeError(writes[0].0);
      if e.Some? then (0, e)
      else
        var tail := WriteAll(writes[1..], writeError);
        assert forall k :: 1 <= k <= tail.0 ==> writes[k] == writes[1..][k - 1];
        (tail.0 + 1, tail.1)
  }

  datatype UnpackResult = UnpackFailed(summary: string, written: seq<(string, string)>)
                        | Unpacked(summary: string, written: seq<(string, string)>)

  /** `AssetUnpacker.run`: `isFile` says whether the archive exists, `content`
      is its text and `writeError` the failure, if any, of writing a path. */
  function Unpack(ed: Edition, isFile: bool, content: string, inName: string, outDir: string,
                  writeError: string -> Option<string>): UnpackResult
  {
    if !isFile then
      UnpackFailed(if ed == Current then "File not found." else "Unpacking failed: Source file not found.", [])
    else UnpackFound(ed, FindAll(content), inName, outDir, writeError)
  }

  /** The rest of `AssetUnpacker.run`, once the pattern has found `hits`. */
  function UnpackFound(ed: Edition, hits: seq<(string, string)>, inName: string, outDir: string,
                       writeError: string -> Option<string>): UnpackResult
  {
    if |hits| == 0 then
      UnpackFailed(if ed == Current then "No headers found." else "Unpacking failed: No valid file headers found.", [])
    else
      var writes := Writes(hits, outDir);
      var (n, err) := WriteAll(writes, writeError);
      if err.Some? then UnpackFailed("Unpacking failed: " + err.value, writes[..n])
      else if ed == Current then Unpacked("Unpacked " + Decimal(|hits|) + " files.", writes)
      else Unpacked("Unpacked " + Decimal(|hits|) + " files from " + inName + ".", writes)
  }

  /** No hits is a failure that writes nothing; success writes one file per
      hit, none of which failed; a write failure stops after the files before it. */
  lemma UnpackFoundFailures(ed: Edition, hits: seq<(string, string)>, inName: string, outDir: string,
                            writeError: string -> Option<string>)
    ensures var r := UnpackFound(ed, hits, inName, outDir, writeError);
      && (|hits| == 0 ==> r.UnpackFailed? && r.written == [])
      && (r.Unpacked? ==> |r.written| == |hits| && forall k :: 0 <= k < |r.written| ==> writeError(r.written[k].0).None?)
      && (r.UnpackFailed? && r.written != [] ==> |r.written| < |hits|)
  {
    if |hits| > 0 {
      var writes := Writes(hits, outDir);
      var (n, err) := WriteAll(writes, writeError);
      assert |writes[..n]| == n;
    }
  }

  /** A missing archive, or one in which the pattern finds nothing, unpacks
      to a failure that writes nothing; a write failure stops the unpacking
      after the files before it. */
  lemma UnpackFailures(ed: Edition, isFile: bool, content: string, inName: string, outDir: string,
                       writeError: string -> Option<string>)
    ensures var r := Unpack(ed, isFile, content, inName, outDir, writeError);
      && (!isFile || |FindAll(content)| == 0 ==> r.UnpackFailed? && r.written == [])
      && (r.Unpacked? ==> |r.written| == |FindAll(content)| && forall k :: 0 <= k < |r.written| ==> writeError(r.written[k].0).None?)
      && (r.UnpackFailed? && r.written != [] ==> |r.written| < |FindAll(content)|)
  {
    if isFile {
      UnpackFoundFailures(ed, FindAll(content), inName, outDir, writeError);
    }
  }

  // ---------------------------------------------------------------- round trip

  /** `t in s`. */
  predicate Occurs(s: string, t: string)
    decreases |s|
  {
    StartsWith(s, t) || (|s| > 0 && Occurs(s[1..], t))
  }

  /** An entry the archive format carries unchanged: a non-empty path without
      '=' and without blanks at either end, and a text in which no blank line
      is followed by '='. */
  predicate Packable(rel: string, text: string) {
    && |rel| > 0 && !IsSpace(rel[0]) && !IsSpace(rel[|rel| - 1]) && !Contains(rel, '=')
    && !Occurs(text, "\n\n=")
  }

  /** A section spelled out piece by piece, nested to the right. */
  lemma SectionPieces(rel: string, text: string, rest: string)
    ensures var (l, r) := CenterPad(|rel| + 18, 80);
      Section(rel, text) + rest
      == "\n\n" + (Repeat('=', l + 5) + (" FILE: " + (rel + (" " + (Repeat('=', 5 + r) + ("\n\n" + (text + rest)))))))
  {
    HeaderPieces(rel);
  }

  /** The lengths of the two runs of '=' in a section's banner. */
  lemma SectionRuns(rel: string, text: string, rest: string) returns (n: nat, m: nat)
    ensures n >= 5 && m >= 5
    ensures Section(rel, text) + rest
      == "\n\n" + (Repeat('=', n) + (" FILE: " + (rel + (" " + (Repeat('=', m) + ("\n\n" + (text + rest)))))))
  {
    var (l, r) := CenterPad(|rel| + 18, 80);
    SectionPieces(rel, text, rest);
    n, m := l + 5, 5 + r;
  }

  lemma {:induction false} EqRunRepeat(n: nat, x: string)
    requires |x| == 0 || x[0] != '='
    ensures EqRun(Repeat('=', n) + x) == n
    decreases n
  {
    if n > 0 {
      assert (Repeat('=', n) + x)[1..] == Repeat('=', n - 1) + x;
      EqRunRepeat(n - 1, x);
    }
  }

  /** Stripping leading blanks off a text that has a non-blank character
      before `y` leaves `y` alone. */
  lemma {:induction false} LStripConcat(x: string, y: string)
    requires exists i :: 0 <= i < |x| && !IsSpace(x[i])
    ensures LStrip(x + y) == LStrip(x) + y
    ensures |LStrip(x)| > 0
    decreases |x|
  {
    if IsSpace(x[0]) {
      var i :| 0 <= i < |x| && !IsSpace(x[i]);
      assert !IsSpace(x[1..][i - 1]);
      assert (x + y)[1..] == x[1..] + y;
      LStripConcat(x[1..], y);
    }
  }

  lemma TailConcat(x: string, y: string)
    requires |x| > 0
    ensures (x + y)[1..] == x[1..] + y
  {
  }

  /** A banner close cannot start inside a path without '=' that ends in a
      non-blank. */
  lemma NoCloseInPath(rel: string, d: string)
    requires |rel| > 0 && !IsSpace(rel[|rel| - 1]) && !Contains(rel, '=')
    ensures !CloseAt(rel + d)
  {
    LStripConcat(rel, d);
    var w := LStrip(rel);
    assert w[0] == rel[|rel| - |w|];
    assert (w + d)[0] == w[0];
  }

  lemma NoEqInTail(rel: string)
    requires |rel| > 0 && !Contains(rel, '=')
    ensures !Contains(rel[1..], '=')
  {
    forall i | 0 <= i < |rel[1..]| ensures rel[1..][i] != '=' {
      assert rel[1..][i] == rel[i + 1];
    }
  }

  /** Inside a path without '=' and not ending in a blank no banner close
      starts, so the first close is right after the path. */
  lemma {:induction false} FirstCloseAfter(rel: string, d: string)
    requires |rel| > 0 && !IsSpace(rel[|rel| - 1]) && !Contains(rel, '=')
    requires CloseAt(d)
    ensures FirstClose(rel + d) == Some(|rel|)
    decreases |rel|
  {
    NoCloseInPath(rel, d);
    TailConcat(rel, d);
    FirstCloseStep(rel + d);
    if |rel| == 1 {
      assert rel[1..] + d == d;
      assert FirstClose(d) == Some(0);
    } else {
      NoEqInTail(rel);
      FirstCloseAfter(rel[1..], d);
    }
  }

  /** Where the body look-ahead holds on a non-empty text, it starts with a
      blank line and '='. */
  lemma BodyEndAtShape(t: string)
    requires BodyEndAt(t) && |t| > 0
    ensures |t| >= 3 && t[0] == '\n' && t[1] == '\n' && t[2] == '='
  {
    assert StartsWith(t, "\n\n") && EqRun(t[2..]) >= 5;
    var u := t[2..];
    assert |u| > 0 && u[0] == '=';
    assert t[..2] == "\n\n";
    assert t[0] == t[..2][0] && t[1] == t[..2][1];
    assert u[0] == t[2];
  }

  /** A text without a blank line followed by '=', followed by the end or
      by a blank line, does not start with a blank line and '='. */
  lemma NoBlankEqInText(text: string, rest: string)
    requires |text| > 0 && !Occurs(text, "\n\n=")
    requires |rest| == 0 || StartsWith(rest, "\n\n")
    ensures var t := text + rest; !(|t| >= 3 && t[0] == '\n' && t[1] == '\n' && t[2] == '=')
  {
  }

  /** The look-ahead does not hold inside a text without a blank line
      followed by '=' when what follows the text is the end or a section. */
  lemma NoBodyEndInText(text: string, rest: string)
    requires |text| > 0 && !Occurs(text, "\n\n=")
    requires |rest| == 0 || StartsWith(rest, "\n\n")
    ensures !BodyEndAt(text + rest)
  {
    NoBlankEqInText(text, rest);
    if BodyEndAt(text + rest) {
      BodyEndAtShape(text + rest);
    }
  }

  /** A text without a blank line followed by '=' is one body when what
      follows it is the end or a section. */
  lemma {:induction false} BodyEndAfter(text: string, rest: string)
    requires !Occurs(text, "\n\n=")
    requires BodyEndAt(rest) && (|rest| == 0 || StartsWith(rest, "\n\n"))
    ensures BodyEnd(text + rest) == |text|
    decreases |text|
  {
    if |text| == 0 {
      assert text + rest == rest;
    } else {
      NoBodyEndInText(text, rest);
      TailConcat(text, rest);
      BodyEndAfter(text[1..], rest);
    }
  }

  /** Stripping the one blank before a non-blank. */
  lemma LStripBlank(y: string)
    requires |y| > 0 && !IsSpace(y[0])
    ensures LStrip(" " + y) == y
  {
    assert (" " + y)[1..] == y;
  }

  /** A run of '=' is read whole and the scan continues after it. */
  lemma EqRunPrefix(n: nat, x: string)
    requires |x| == 0 || x[0] != '='
    ensures EqRun(Repeat('=', n) + x) == n
    ensures (Repeat('=', n) + x)[n..] == x
  {
    EqRunRepeat(n, x);
  }

  lemma LStripFile(z: string)
    ensures LStrip(" FILE: " + z) == "FILE: " + z
    ensures StartsWith("FILE: " + z, "FILE:")
  {
    LStripBlank("FILE: " + z);
  }

  lemma LStripName(z: string)
    requires |z| > 0 && !IsSpace(z[0])
    ensures LStrip(("FILE: " + z)[5..]) == z
  {
    assert ("FILE: " + z)[5..] == " " + z;
    LStripBlank(z);
  }

  /** The opening of a banner: the run of '=', then `\s*FILE:\s*` up to the
      path. */
  lemma BannerOpen(n: nat, z: string)
    requires |z| > 0 && !IsSpace(z[0])
    ensures var a := Repeat('=', n) + (" FILE: " + z);
      && EqRun(a) == n
      && LStrip(a[n..]) == "FILE: " + z
      && StartsWith(LStrip(a[n..]), "FILE:")
      && LStrip(LStrip(a[n..])[5..]) == z
  {
    var a := Repeat('=', n) + (" FILE: " + z);
    assert EqRun(a) == n && a[n..] == " FILE: " + z by {
      EqRunPrefix(n, " FILE: " + z);
    }
    assert LStrip(a[n..]) == "FILE: " + z && StartsWith("FILE: " + z, "FILE:") by {
      LStripFile(z);
    }
    LStripName(z);
  }

  /** The close of a banner: a blank, a run of at least five '=', and a blank
      line, after which the body starts. */
  lemma BannerClose(m: nat, g: string)
    requires m >= 5
    ensures CloseAt(" " + (Repeat('=', m) + ("\n\n" + g)))
    ensures AfterClose(" " + (Repeat('=', m) + ("\n\n" + g))) == g
  {
    var e := Repeat('=', m) + ("\n\n" + g);
    LStripBlank(e);
    EqRunPrefix(m, "\n\n" + g);
    assert ("\n\n" + g)[2..] == g;
  }

  /** A blank line followed by a banner is where the body look-ahead holds. */
  lemma BannerEndsBody(n: nat, z: string)
    requires n >= 5 && |z| > 0 && !IsSpace(z[0])
    ensures BodyEndAt("\n\n" + (Repeat('=', n) + (" FILE: " + z)))
  {
    var a := Repeat('=', n) + (" FILE: " + z);
    var t := "\n\n" + a;
    assert t[..2] == "\n\n";
    assert t[2..] == a;
    BannerOpen(n, z);
    BodyEndAtFrom(t, n);
  }

  /** The look-ahead, one conjunct at a time. */
  lemma BodyEndAtFrom(t: string, n: nat)
    requires StartsWith(t, "\n\n") && EqRun(t[2..]) == n && n >= 5
    requires StartsWith(LStrip(t[2..][n..]), "FILE:")
    ensures BodyEndAt(t)
  {
    assert t[2..][n..] == t[2 + n..];
  }

  /** Every section starts with what the body look-ahead waits for. */
  lemma SectionEndsBody(rel: string, text: string, rest: string)
    requires |rel| > 0 && !IsSpace(rel[0])
    ensures BodyEndAt(Section(rel, text) + rest)
    ensures StartsWith(Section(rel, text) + rest, "\n\n")
  {
    var (l, r) := CenterPad(|rel| + 18, 80);
    var z := rel + (" " + (Repeat('=', 5 + r) + ("\n\n" + (text + rest))));
    var t := "\n\n" + (Repeat('=', l + 5) + (" FILE: " + z));
    assert Section(rel, text) + rest == t by {
      SectionPieces(rel, text, rest);
    }
    assert z[0] == rel[0];
    assert BodyEndAt(t) by {
      BannerEndsBody(l + 5, z);
    }
    assert t[..2] == "\n\n";
  }

  /** The pattern at the start of `t`, step by step: the opening run, the
      name up to the first close, and the body after it. */
  lemma MatchAtSteps(t: string, v: string, c: nat, w: string)
    requires EqRun(t) >= 5
    requires StartsWith(LStrip(t[EqRun(t)..]), "FILE:")
    requires LStrip(LStrip(t[EqRun(t)..])[5..]) == v
    requires FirstClose(v) == Some(c)
    requires AfterClose(v[c..]) == w
    ensures MatchAt(t) == Some(Hit(v[..c], w[..BodyEnd(w)], w[BodyEnd(w)..]))
  {
  }

  /** The pattern tried at the start of a banner matches the path and the
      text that follow it. */
  lemma BannerMatch(n: nat, m: nat, rel: string, text: string, rest: string)
    requires n >= 5 && m >= 5
    requires Packable(rel, text)
    requires BodyEndAt(rest) && (|rest| == 0 || StartsWith(rest, "\n\n"))
    ensures MatchAt(Repeat('=', n) + (" FILE: " + (rel + (" " + (Repeat('=', m) + ("\n\n" + (text + rest)))))))
      == Some(Hit(rel, text, rest))
  {
    var g := text + rest;
    var d := " " + (Repeat('=', m) + ("\n\n" + g));
    var z := rel + d;
    var t := Repeat('=', n) + (" FILE: " + z);
    assert z[0] == rel[0];
    assert EqRun(t) == n && StartsWith(LStrip(t[n..]), "FILE:") && LStrip(LStrip(t[n..])[5..]) == z by {
      BannerOpen(n, z);
    }
    assert FirstClose(z) == Some(|rel|) by {
      BannerClose(m, g);
      FirstCloseAfter(rel, d);
    }
    assert z[|rel|..] == d && z[..|rel|] == rel;
    assert AfterClose(d) == g by {
      BannerClose(m, g);
    }
    assert BodyEnd(g) == |text| by {
      BodyEndAfter(text, rest);
    }
    MatchAtSteps(t, z, |rel|, g);
    assert g[..|text|] == text && g[|text|..] == rest;
  }

  /** Search stops at the first place the pattern matches. */
  lemma SearchHere(t: string)
    requires MatchAt(t).Some?
    ensures Search(t) == MatchAt(t)
  {
  }

  /** Search passes over the blank line before a banner. */
  lemma SearchBlankLine(a: string)
    requires |a| > 0 && a[0] == '='
    ensures Search("\n\n" + a) == Search(a)
  {
    var t := "\n\n" + a;
    assert EqRun(t) == 0;
    assert t[1..] == "\n" + a;
    assert EqRun(t[1..]) == 0;
    assert t[1..][1..] == a;
  }

  /** Searching a blank line and a banner finds the path and the text that
      follow the banner. */
  lemma BannerSearch(n: nat, m: nat, rel: string, text: string, rest: string)
    requires n >= 5 && m >= 5
    requires Packable(rel, text)
    requires BodyEndAt(rest) && (|rest| == 0 || StartsWith(rest, "\n\n"))
    ensures Search("\n\n" + (Repeat('=', n) + (" FILE: " + (rel + (" " + (Repeat('=', m) + ("\n\n" + (text + rest))))))))
      == Some(Hit(rel, text, rest))
  {
    var a := Repeat('=', n) + (" FILE: " + (rel + (" " + (Repeat('=', m) + ("\n\n" + (text + rest))))));
    assert MatchAt(a) == Some(Hit(rel, text, rest)) by {
      BannerMatch(n, m, rel, text, rest);
    }
    assert Search("\n\n" + a) == Search(a) by {
      SearchBlankLine(a);
    }
    SearchHere(a);
  }

  /** Searching a section followed by the end or by another section finds the
      section's path and text, and leaves what follows it. */
  lemma SectionMatch(rel: string, text: string, rest: string)
    requires Packable(rel, text)
    requires BodyEndAt(rest) && (|rest| == 0 || StartsWith(rest, "\n\n"))
    ensures Search(Section(rel, text) + rest) == Some(Hit(rel, text, rest))
  {
    var n, m := SectionRuns(rel, text, rest);
    BannerSearch(n, m, rel, text, rest);
  }

  /** Every entry can be carried by the archive. */
  predicate AllPackable(entries: seq<(string, string)>) {
    forall k :: 0 <= k < |entries| ==> Packable(entries[k].0, entries[k].1)
  }

  /** An archive is empty or starts with a section, where a body ends. */
  lemma ArchiveStart(entries: seq<(string, string)>)
    requires AllPackable(entries)
    ensures var a := ArchiveOf(entries); BodyEndAt(a) && (|a| == 0 || StartsWith(a, "\n\n"))
  {
    if |entries| > 0 {
      SectionEndsBody(entries[0].0, entries[0].1, ArchiveOf(entries[1..]));
    }
  }

  /** `findall` goes on after the text of a match. */
  lemma FindAllStep(t: string)
    requires Search(t).Some?
    ensures FindAll(t) == [(Search(t).value.rel, Search(t).value.body)] + FindAll(Search(t).value.rest)
  {
  }

  /** Scanning an archive of packable entries finds exactly those entries, in
      order. */
  lemma {:induction false} FindAllArchive(entries: seq<(string, string)>)
    requires AllPackable(entries)
    ensures FindAll(ArchiveOf(entries)) == entries
    decreases |entries|
  {
    if |entries| == 0 {
      assert Search("") == None;
    } else {
      var rest := entries[1..];
      assert AllPackable(rest) by {
        forall k | 0 <= k < |rest| ensures Packable(rest[k].0, rest[k].1) {
          assert rest[k] == entries[k + 1];
        }
      }
      var t := ArchiveOf(rest);
      assert ArchiveOf(entries) == Section(entries[0].0, entries[0].1) + t;
      assert Search(ArchiveOf(entries)) == Some(Hit(entries[0].0, entries[0].1, t)) by {
        ArchiveStart(rest);
        SectionMatch(entries[0].0, entries[0].1, t);
      }
      FindAllStep(ArchiveOf(entries));
      FindAllArchive(rest);
      assert [entries[0]] + rest == entries;
    }
  }


  /** A path with no blank at either end is its own `strip()`. */
  lemma StripTrimmed(rel: string)
    requires |rel| > 0 && !IsSpace(rel[0]) && !IsSpace(rel[|rel| - 1])
    ensures Strip(rel) == rel
  {
    assert LStrip(rel) == rel;
  }

  /** When no write fails, every file is written. */
  lemma WriteAllSucceeds(writes: seq<(string, string)>, writeError: string -> Option<string>)
    requires forall k :: 0 <= k < |writes| ==> writeError(writes[k].0).None?
    ensures WriteAll(writes, writeError) == (|writes|, None)
  {
  }

  /** Unpacking a packed archive writes every packed file back under the
      output directory, at its path with '/' separators and with its text
      right-stripped and ended by one newline, in packing order, provided
      each entry is packable and no write fails. */
  lemma UnpackPack(ed: Edition, files: seq<string>, sep: char, read: string -> string, inName: string,
                   outDir: string, writeError: string -> Option<string>)
    requires |files| > 0
    requires forall k :: 0 <= k < |files| ==> Packable(ReplaceChar(files[k], sep, '/'), read(files[k]))
    requires forall k :: 0 <= k < |files| ==> writeError(Resolve(outDir, ReplaceChar(files[k], sep, '/'))).None?
    ensures var r := Unpack(ed, true, ArchiveOf(Entries(files, sep, read)), inName, outDir, writeError);
      && r.Unpacked?
      && |r.written| == |files|
      && forall k :: 0 <= k < |files| ==> r.written[k] == Restored(outDir, sep, read, files[k])
  {
    var entries := Entries(files, sep, read);
    assert FindAll(ArchiveOf(entries)) == entries by {
      FindAllArchive(entries);
    }
    var writes := Writes(entries, outDir);
    forall k | 0 <= k < |files| ensures writes[k] == Restored(outDir, sep, read, files[k]) {
      WriteOfEntry(files, sep, read, outDir, k);
    }
    WriteAllSucceeds(writes, writeError);
  }

  /** A packable entry is written back where it came from, with its text
      right-stripped and ended by one newline. */
  lemma WriteOfEntry(files: seq<string>, sep: char, read: string -> string, outDir: string, k: nat)
    requires k < |files| && Packable(ReplaceChar(files[k], sep, '/'), read(files[k]))
    ensures Writes(Entries(files, sep, read), outDir)[k] == Restored(outDir, sep, read, files[k])
  {
    var entries := Entries(files, sep, read);
    StripTrimmed(entries[k].0);
  }

  lemma IndexOf<T>(s: seq<T>, x: T) returns (k: nat)
    requires x in s
    ensures k < |s| && s[k] == x
  {
    k :| 0 <= k < |s| && s[k] == x;
  }

  /** Where a packed file comes back on unpacking, and with what text. */
  function Restored(outDir: string, sep: char, read: string -> string, p: string): (string, string) {
    (Resolve(outDir, ReplaceChar(p, sep, '/')), RStrip(read(p)) + "\n")
  }

  /** Packing a tree and unpacking the archive writes exactly the selected
      files, each under the output directory at its '/'-separated path with
      its text right-stripped and ended by one newline, provided each is
      packable and no write fails. */
  lemma PackUnpack(ed: Edition, walk: seq<string>, exts: seq<string>, sep: char, read: string -> string,
                   outName: string, inName: string, outDir: string, writeError: string -> Option<string>)
    requires forall p :: p in walk && Lower(Suffix(p)) in exts ==> Packable(ReplaceChar(p, sep, '/'), read(p))
    requires forall p :: p in walk && Lower(Suffix(p)) in exts ==> writeError(Resolve(outDir, ReplaceChar(p, sep, '/'))).None?
    ensures var r := Pack(ed, walk, exts, sep, read, None, outName);
      r.Packed? ==>
        var u := Unpack(ed, true, r.archive, inName, outDir, writeError);
        && u.Unpacked?
        && (forall p :: p in walk && Lower(Suffix(p)) in exts ==> Restored(outDir, sep, read, p) in u.written)
        && (forall w :: w in u.written ==> exists p :: p in walk && Lower(Suffix(p)) in exts && w == Restored(outDir, sep, read, p))
  {
    var sel := Selected(walk, exts);
    var files := SortPaths(sel, sep);
    if |files| > 0 {
      var archive := ArchiveOf(Entries(files, sep, read));
      assert Pack(ed, walk, exts, sep, read, None, outName).archive == archive;
      var u := Unpack(ed, true, archive, inName, outDir, writeError);
      assert u.Unpacked? && |u.written| == |files| && forall k :: 0 <= k < |files| ==> u.written[k] == Restored(outDir, sep, read, files[k])
      by {
        forall k | 0 <= k < |files| ensures files[k] in sel {
          assert files[k] in multiset(files);
        }
        UnpackPack(ed, files, sep, read, inName, outDir, writeError);
      }
      assert forall p :: p in walk && Lower(Suffix(p)) in exts ==> Restored(outDir, sep, read, p) in u.written by {
        forall p | p in walk && Lower(Suffix(p)) in exts ensures Restored(outDir, sep, read, p) in u.written {
          assert p in multiset(files);
          var k := IndexOf(files, p);
          assert u.written[k] == Restored(outDir, sep, read, p);
        }
      }
      assert forall w :: w in u.written ==> exists p :: p in walk && Lower(Suffix(p)) in exts && w == Restored(outDir, sep, read, p) by {
        forall w | w in u.written ensures exists p :: p in walk && Lower(Suffix(p)) in exts && w == Restored(outDir, sep, read, p) {
          var k := IndexOf(u.written, w);
          var p := files[k];
          assert p in multiset(files);
          assert p in sel;
          assert w == Restored(outDir, sep, read, p);
        }
      }
    }
  }
}

=== FILE: paths.dfy ===
/** POSIX path helpers with `pathlib` / `os.path` semantics.

    Paths are strings whose components are separated by '/'.  The project
    root is an absolute path without a trailing '/'.
 */
module Paths {
  import opened Strings
  import opened Wrappers

  /** Index just past the last '/' in `p` (0 when there is none). */
  function NameStart(p: string): (i: nat)
    ensures i <= |p|
    ensures i > 0 ==> p[i - 1] == '/'
    ensures forall j :: i <= j < |p| ==> p[j] != '/'
  {
    if |p| == 0 then 0
    else if p[|p| - 1] == '/' then |p|
    else NameStart(p[..|p| - 1])
  }

  /** `Path(p).name`: the final component. */
  function FileName(p: string): string {
    p[NameStart(p)..]
  }

  /** Index of the last '.' in `s`, if any. */
  function LastDot(s: string): (r: int)
    ensures -1 <= r < |s|
    ensures r >= 0 ==> s[r] == '.'
    ensures forall j :: r < j < |s| ==> s[j] != '.'
  {
    if |s| == 0 then -1
    else if s[|s| - 1] == '.' then |s| - 1
    else LastDot(s[..|s| - 1])
  }

  /** `Path(p).suffix`: from the last '.' of the final component, unless that dot
      opens the name or ends it. */
  function Suffix(p: string): (r: string)
    ensures EndsWith(p, r)
    ensures |r| > 0 ==> r[0] == '.' && |r| >= 2
    ensures forall j :: 0 <= j < |r| ==> r[j] != '/'
  {
    var name := FileName(p);
    var i := LastDot(name);
    if 0 < i < |name| - 1 then name[i..] else ""
  }

  /** The suffix is taken from the last '.' of the final component, and it is
      non-empty exactly when that component has a dot that neither opens nor
      ends it and is followed by no other dot. */
  lemma SuffixSpec(p: string)
    ensures var r := Suffix(p);
      |r| > 0 ==> forall j :: 0 < j < |r| ==> r[j] != '.'
    ensures var name := FileName(p);
      Suffix(p) != "" <==>
        exists i :: 0 < i < |name| - 1 && name[i] == '.' && forall j :: i < j < |name| ==> name[j] != '.'
  {
    var name := FileName(p);
    var d := LastDot(name);
    var r := Suffix(p);
    if r != "" {
      assert r == name[d..];
      forall j | 0 < j < |r| ensures r[j] != '.' {
        assert r[j] == name[d + j];
      }
      assert name[d] == '.' && forall j :: d < j < |name| ==> name[j] != '.';
    } else {
      forall i | 0 < i < |name| - 1 && name[i] == '.'
        ensures !(forall j :: i < j < |name| ==> name[j] != '.')
      {
        assert d > i && name[d] == '.';
      }
    }
  }

  /** `Path(p).with_suffix("").as_posix()`: the path without its suffix. */
  function WithoutSuffix(p: string): (r: string)
    ensures r + Suffix(p) == p
  {
    p[..|p| - |Suffix(p)|]
  }

  /** The extension `os.path.splitext(name)[1]` gives for a file name: from the
      last '.', provided some character before it is not a dot. */
  function SplitExt(name: string): (r: string)
    ensures EndsWith(name, r)
    ensures |r| > 0 ==> r[0] == '.'
  {
    var i := LastDot(name);
    if i > 0 && exists j :: 0 <= j < i && name[j] != '.' then name[i..] else ""
  }

  /** `abs_path.relative_to(root).as_posix()`, or None when `abs` is outside `root`. */
  function ToRel(root: string, abs: string): (r: Option<string>)
    ensures r.Some? ==> |r.value| > 0
    ensures r.Some? <==> abs == root || StartsWith(abs, root + "/")
  {
    if abs == root then Some(".")
    else if StartsWith(abs, root + "/") && |abs| > |root| + 1 then Some(abs[|root| + 1..])
    else if StartsWith(abs, root + "/") then Some(".")
    else None
  }

  /** `root / rel` for a relative path. */
  function JoinPath(root: string, rel: string): string {
    root + "/" + rel
  }

  /** `root / ref`: an absolute path replaces the root. */
  function Resolve(root: string, ref: string): string {
    if |ref| > 0 && ref[0] == '/' then ref else JoinPath(root, ref)
  }

  /** Joining a relative path onto the root and taking it relative again gives it back. */
  lemma ToRelJoin(root: string, rel: string)
    requires |rel| > 0
    ensures ToRel(root, JoinPath(root, rel)) == Some(rel)
  {
    var abs := JoinPath(root, rel);
    assert abs[..|root + "/"|] == root + "/";
    assert abs[|root| + 1..] == rel;
  }

  /** Distinct files inside the root have distinct relative paths. */
  lemma ToRelInjective(root: string, a: string, b: string)
    requires StartsWith(a, root + "/") && |a| > |root| + 1
    requires StartsWith(b, root + "/") && |b| > |root| + 1
    requires ToRel(root, a) == ToRel(root, b)
    ensures a == b
  {
    assert a == a[..|root| + 1] + a[|root| + 1..];
    assert b == b[..|root| + 1] + b[|root| + 1..];
  }

  /** The path components, as `Path.parts` gives them for a relative path. */
  function Parts(p: string): seq<string> {
    SplitOn(p, '/')
  }
}

=== FILE: refindex.dfy ===
/** The watcher's in-memory bidirectional reference index
    (`AssetReferenceIndex` in `app/watcher.py`): which references each
    container holds, and which containers hold each reference.

    The index is a pair of maps.  It is *consistent* when the two directions
    describe the same relation and no reference maps to an empty set; a
    consistent index is determined by its forward map (`ConsistentIsCanonical`),
    so every update below is proved to land exactly on the index rebuilt from
    its new forward map.
 */
module RefIndex {

  datatype Index = Index(fwd: map<string, set<string>>, rev: map<string, set<string>>)

  const Empty: Index := Index(map[], map[])

  /** The two directions agree and every reverse entry is non-empty. */
  ghost predicate Consistent(ix: Index) {
    && (forall c, r :: c in ix.fwd && r in ix.fwd[c] ==> r in ix.rev && c in ix.rev[r])
    && (forall r, c :: r in ix.rev && c in ix.rev[r] ==> c in ix.fwd && r in ix.fwd[c])
    && (forall r :: r in ix.rev ==> ix.rev[r] != {})
  }

  /** Every reference some container holds. */
  function Referenced(fwd: map<string, set<string>>): set<string> {
    set c, r | c in fwd && r in fwd[c] :: r
  }

  /** The reverse map a forward map determines. */
  function ReverseOf(fwd: map<string, set<string>>): map<string, set<string>> {
    map r | r in Referenced(fwd) :: set c | c in fwd && r in fwd[c]
  }

  /** A consistent index is exactly its forward map plus the reverse map that
      forward map determines. */
  lemma ConsistentIsCanonical(ix: Index)
    ensures Consistent(ix) <==> ix.rev == ReverseOf(ix.fwd)
  {
    var rv := ReverseOf(ix.fwd);
    if Consistent(ix) {
      forall r ensures r in ix.rev <==> r in rv {
        if r in ix.rev {
          var c :| c in ix.rev[r];
          assert c in ix.fwd && r in ix.fwd[c];
        }
        if r in rv {
          var c :| c in ix.fwd && r in ix.fwd[c];
          assert r in ix.rev;
        }
      }
      forall r | r in ix.rev ensures ix.rev[r] == rv[r] {
        assert r in rv;
      }
    }
    if ix.rev == rv {
      forall r | r in rv ensures rv[r] != {} {
        var c, r' :| c in ix.fwd && r' in ix.fwd[c] && r' == r;
        assert c in rv[r];
      }
      forall c, r | c in ix.fwd && r in ix.fwd[c] ensures r in rv && c in rv[r] {
        assert r in Referenced(ix.fwd);
      }
    }
  }

  /** The index rebuilt from a forward map. */
  function FromForward(fwd: map<string, set<string>>): (ix: Index)
    ensures Consistent(ix)
  {
    ConsistentIsCanonical(Index(fwd, ReverseOf(fwd)));
    Index(fwd, ReverseOf(fwd))
  }

  // ---------------------------------------------------------------- single container

  /** The reverse-map loop that forgets a container: for each of its old
      references whose entry is non-empty, discard the container and drop the
      entry if it became empty. */
  function Detach(rev: map<string, set<string>>, c: string, refs: set<string>): map<string, set<string>> {
    map r | r in rev && !(r in refs && rev[r] == {c}) :: if r in refs then rev[r] - {c} else rev[r]
  }

  /** `reference_to_containers[ref].add(c)` for every ref. */
  function Attach(rev: map<string, set<string>>, c: string, refs: set<string>): map<string, set<string>> {
    map r | r in rev.Keys + refs :: (if r in rev then rev[r] else {}) + (if r in refs then {c} else {})
  }

  /** Detaching a container's own references from a consistent index leaves
      the reverse map of the forward map without it. */
  lemma DetachCanonical(ix: Index, c: string)
    requires Consistent(ix) && c in ix.fwd
    ensures Detach(ix.rev, c, ix.fwd[c]) == ReverseOf(ix.fwd - {c})
  {
    ConsistentIsCanonical(ix);
    var f' := ix.fwd - {c};
    var d := Detach(ix.rev, c, ix.fwd[c]);
    var rv := ReverseOf(f');
    forall r ensures r in d <==> r in rv {
      if r in d {
        if r in ix.fwd[c] {
          assert ix.rev[r] == (ix.rev[r] - {c}) + {c};
          assert ix.rev[r] - {c} != {};
        }
        var c' :| c' in ix.rev[r] && c' != c;
        assert c' in f' && r in f'[c'];
      }
      if r in rv {
        var c', r' :| c' in f' && r' in f'[c'] && r' == r;
        assert c' in ix.rev[r];
      }
    }
    forall r | r in d ensures d[r] == rv[r] {
    }
  }

  /** Attaching a container the forward map does not hold yet gives the reverse
      map of the extended forward map. */
  lemma AttachCanonical(fwd: map<string, set<string>>, c: string, refs: set<string>)
    requires c !in fwd
    ensures Attach(ReverseOf(fwd), c, refs) == ReverseOf(fwd[c := refs])
  {
    var f' := fwd[c := refs];
    var a := Attach(ReverseOf(fwd), c, refs);
    var rv := ReverseOf(f');
    forall r ensures r in a <==> r in rv {
      if r in a && r !in refs {
        var c', r' :| c' in fwd && r' in fwd[c'] && r' == r;
        assert c' in f' && r in f'[c'];
      }
      if r in refs {
        assert c in f' && r in f'[c];
      }
      if r in rv && r !in refs {
        var c', r' :| c' in f' && r' in f'[c'] && r' == r;
        assert c' != c;
        assert r in Referenced(fwd);
      }
    }
    forall r | r in a ensures a[r] == rv[r] {
    }
  }

  /** The index half of `process_container_file`: forget the container's old
      references (when it was indexed), then record its new ones. */
  function Upsert(ix: Index, c: string, refs: set<string>): Index {
    var rev1 := if c in ix.fwd then Detach(ix.rev, c, ix.fwd[c]) else ix.rev;
    Index(ix.fwd[c := refs], Attach(rev1, c, refs))
  }

  /** The index half of `remove_container_from_index`. */
  function Remove(ix: Index, c: string): Index {
    if c in ix.fwd then Index(ix.fwd - {c}, Detach(ix.rev, c, ix.fwd[c])) else ix
  }

  /** Re-indexing one container of a consistent index is the same as rebuilding
      the whole index with that container's entry replaced. */
  lemma UpsertCanonical(ix: Index, c: string, refs: set<string>)
    requires Consistent(ix)
    ensures Upsert(ix, c, refs) == FromForward(ix.fwd[c := refs])
  {
    ConsistentIsCanonical(ix);
    if c in ix.fwd {
      DetachCanonical(ix, c);
      AttachCanonical(ix.fwd - {c}, c, refs);
      assert (ix.fwd - {c})[c := refs] == ix.fwd[c := refs];
    } else {
      AttachCanonical(ix.fwd, c, refs);
    }
  }

  /** Removing a container from a consistent index is the same as rebuilding
      the index without it; an unknown container changes nothing. */
  lemma RemoveCanonical(ix: Index, c: string)
    requires Consistent(ix)
    ensures Remove(ix, c) == FromForward(ix.fwd - {c})
  {
    ConsistentIsCanonical(ix);
    if c in ix.fwd {
      DetachCanonical(ix, c);
    } else {
      assert ix.fwd - {c} == ix.fwd;
    }
  }

  // ---------------------------------------------------------------- full build

  /** The containers an entry list names, in order. */
  function Containers(entries: seq<(string, set<string>)>): seq<string> {
    seq(|entries|, i requires 0 <= i < |entries| => entries[i].0)
  }

  predicate Distinct(xs: seq<string>) {
    forall i, j :: 0 <= i < j < |xs| ==> xs[i] != xs[j]
  }

  /** The forward map an entry list describes. */
  function EntryMap(entries: seq<(string, set<string>)>): (m: map<string, set<string>>)
    ensures forall c :: c in m <==> exists i :: 0 <= i < |entries| && entries[i].0 == c
  {
    if |entries| == 0 then map[]
    else
      var pre := entries[..|entries| - 1];
      assert forall i :: 0 <= i < |pre| ==> pre[i] == entries[i];
      EntryMap(pre)[entries[|entries| - 1].0 := entries[|entries| - 1].1]
  }

  /** The loop of `build_index` after clearing both maps: for each parsed
      container, store its references and add it under each of them. */
  function Build(entries: seq<(string, set<string>)>): Index {
    if |entries| == 0 then Empty
    else
      var ix := Build(entries[..|entries| - 1]);
      var (c, refs) := entries[|entries| - 1];
      Index(ix.fwd[c := refs], Attach(ix.rev, c, refs))
  }

  /** With distinct containers, the build loop produces exactly the index its
      entries determine, whatever their order. */
  lemma {:induction false} BuildCanonical(entries: seq<(string, set<string>)>)
    requires Distinct(Containers(entries))
    ensures Build(entries) == FromForward(EntryMap(entries))
    decreases |entries|
  {
    if |entries| > 0 {
      var pre := entries[..|entries| - 1];
      var (c, refs) := entries[|entries| - 1];
      assert Containers(pre) == Containers(entries)[..|pre|];
      BuildCanonical(pre);
      forall i | 0 <= i < |pre| ensures pre[i].0 != c {
        assert Containers(entries)[i] != Containers(entries)[|entries| - 1];
      }
      AttachCanonical(EntryMap(pre), c, refs);
    }
  }

  // ---------------------------------------------------------------- rename

  /** The elements of a sequence. */
  function Elems(xs: seq<string>): set<string> {
    set x | x in xs
  }

  /** The containers a set of variants leads to through the reverse map. */
  function Pooled(rev: map<string, set<string>>, olds: set<string>): set<string> {
    set v, c | v in olds && v in rev && c in rev[v] :: c
  }

  /** One pass of the rename loop: when `v` is indexed, pop its containers and
      add them under every new variant. */
  function MoveStep(rev: map<string, set<string>>, v: string, news: set<string>): map<string, set<string>> {
    if v !in rev then rev
    else
      var moved := rev[v];
      var rest := rev - {v};
      map r | r in rest.Keys + news :: (if r in rest then rest[r] else {}) + (if r in news then moved else {})
  }

  /** The rename loop over the old variants, in the order the set yields them. */
  function MoveAll(rev: map<string, set<string>>, olds: seq<string>, news: set<string>): map<string, set<string>>
    decreases |olds|
  {
    if |olds| == 0 then rev else MoveAll(MoveStep(rev, olds[0], news), olds[1..], news)
  }

  /** Whether any of `olds` is indexed in `rev`. */
  ghost predicate Activated(rev: map<string, set<string>>, olds: set<string>) {
    exists v :: v in olds && v in rev
  }

  /** The reverse map after the old variants `olds` have been processed:
      their own entries are gone, and once any of them was indexed every new
      variant carries all their containers on top of what it had. */
  ghost function MovedForm(rev: map<string, set<string>>, olds: set<string>, news: set<string>): map<string, set<string>> {
    map r | r in rev.Keys + news && ((r in rev && r !in olds) || (Activated(rev, olds) && r in news))
      :: (if r in rev && r !in olds then rev[r] else {}) + (if r in news then Pooled(rev, olds) else {})
  }

  /** The shape of one rename pass on an indexed variant. */
  lemma MoveStepShape(m: map<string, set<string>>, v: string, news: set<string>)
    requires v in m
    ensures var m' := MoveStep(m, v, news);
      && (forall r :: r in m' <==> (r in m && r != v) || r in news)
      && (forall r :: r in m' ==> m'[r] == (if r in m && r != v then m[r] else {}) + (if r in news then m[v] else {}))
  {
  }

  /** The shape of the closed form. */
  lemma MovedFormShape(rev: map<string, set<string>>, olds: set<string>, news: set<string>)
    ensures var m := MovedForm(rev, olds, news);
      && (forall r :: r in m <==> (r in rev && r !in olds) || (Activated(rev, olds) && r in news))
      && (forall r :: r in m ==> m[r] == (if r in rev && r !in olds then rev[r] else {}) + (if r in news then Pooled(rev, olds) else {}))
  {
  }

  /** Processing one more old variant grows the pool by that variant's containers. */
  lemma PooledAdd(rev: map<string, set<string>>, olds: set<string>, v: string)
    ensures Pooled(rev, olds + {v}) == Pooled(rev, olds) + (if v in rev then rev[v] else {})
    ensures Activated(rev, olds + {v}) <==> Activated(rev, olds) || v in rev
  {
    if v in rev {
      forall c | c in rev[v] ensures c in Pooled(rev, olds + {v}) {
        assert v in olds + {v};
      }
    }
  }

  lemma MoveStepForm(rev: map<string, set<string>>, olds: set<string>, v: string, news: set<string>)
    ensures MoveStep(MovedForm(rev, olds, news), v, news) == MovedForm(rev, olds + {v}, news)
  {
    var cur := MovedForm(rev, olds, news);
    var nxt := MovedForm(rev, olds + {v}, news);
    MovedFormShape(rev, olds, news);
    MovedFormShape(rev, olds + {v}, news);
    PooledAdd(rev, olds, v);
    if v in cur {
      MoveStepShape(cur, v, news);
      var got := MoveStep(cur, v, news);
      assert cur[v] == (if v in rev && v !in olds then rev[v] else {}) + (if v in news then Pooled(rev, olds) else {});
      forall r ensures r in got <==> r in nxt {
      }
      forall r | r in got ensures got[r] == nxt[r] {
      }
    } else {
      assert v !in rev || v in olds;
      assert Pooled(rev, olds + {v}) == Pooled(rev, olds);
      forall r ensures r in cur <==> r in nxt {
      }
    }
  }

  /** The rename loop's result does not depend on the order of the old
      variants: it is the closed form for all of them. */
  lemma {:induction false} MoveAllForm(rev: map<string, set<string>>, done: set<string>, olds: seq<string>, news: set<string>)
    ensures MoveAll(MovedForm(rev, done, news), olds, news) == MovedForm(rev, done + Elems(olds), news)
    decreases |olds|
  {
    if |olds| == 0 {
      assert done + Elems(olds) == done;
    } else {
      MoveStepForm(rev, done, olds[0], news);
      MoveAllForm(rev, done + {olds[0]}, olds[1..], news);
      assert done + {olds[0]} + Elems(olds[1..]) == done + Elems(olds);
    }
  }

  lemma MovedFormNothingDone(rev: map<string, set<string>>, news: set<string>)
    ensures MovedForm(rev, {}, news) == rev
  {
    assert !Activated(rev, {});
    assert Pooled(rev, {}) == {};
    MovedFormShape(rev, {}, news);
    var m := MovedForm(rev, {}, news);
    forall r ensures r in m <==> r in rev {
    }
    forall r | r in m ensures m[r] == rev[r] {
    }
  }

  /** The rename loop from `rev` itself ends at the closed form. */
  lemma MoveAllClosedForm(rev: map<string, set<string>>, olds: seq<string>, news: set<string>)
    ensures MoveAll(rev, olds, news) == MovedForm(rev, Elems(olds), news)
  {
    MovedFormNothingDone(rev, news);
    MoveAllForm(rev, {}, olds, news);
    assert {} + Elems(olds) == Elems(olds);
  }

  /** The containers a rename affects: those holding any old variant. */
  function Affected(ix: Index, olds: seq<string>): set<string> {
    Pooled(ix.rev, Elems(olds))
  }

  /** The index half of `update_asset_path`: nothing happens when no container
      holds an old variant; otherwise the reverse entries move and every
      affected container trades its old variants for all the new ones. */
  function Rename(ix: Index, olds: seq<string>, news: set<string>): Index {
    var affected := Affected(ix, olds);
    if affected == {} then ix
    else
      var oldSet := Elems(olds);
      Index(
        map c | c in ix.fwd :: if c in affected then (ix.fwd[c] - oldSet) + news else ix.fwd[c],
        MoveAll(ix.rev, olds, news))
  }

  /** In a consistent index the pooled containers are those holding an old variant. */
  lemma PooledHolders(ix: Index, oldSet: set<string>)
    requires Consistent(ix)
    ensures forall c :: c in Pooled(ix.rev, oldSet) <==> c in ix.fwd && ix.fwd[c] * oldSet != {}
  {
    forall c | c in ix.fwd && ix.fwd[c] * oldSet != {} ensures c in Pooled(ix.rev, oldSet) {
      var v :| v in ix.fwd[c] * oldSet;
      assert v in ix.rev && c in ix.rev[v];
    }
    forall c | c in Pooled(ix.rev, oldSet) ensures c in ix.fwd && ix.fwd[c] * oldSet != {} {
      var v :| v in oldSet && v in ix.rev && c in ix.rev[v];
      assert v in ix.fwd[c] * oldSet;
    }
  }

  /** The reverse map after a rename that affects some container: old
      variants lose their entries, and every new variant holds the affected
      containers on top of what it held before. */
  lemma RenameReverse(ix: Index, olds: seq<string>, news: set<string>)
    requires Consistent(ix) && Affected(ix, olds) != {}
    ensures var rev' := Rename(ix, olds, news).rev;
      && (forall r :: r in rev' <==> (r in ix.rev && r !in Elems(olds)) || r in news)
      && (forall r :: r in rev' ==>
            rev'[r] == (if r in ix.rev && r !in Elems(olds) then ix.rev[r] else {}) + (if r in news then Affected(ix, olds) else {}))
  {
    MoveAllClosedForm(ix.rev, olds, news);
    var c0 :| c0 in Affected(ix, olds);
    var v0 :| v0 in Elems(olds) && v0 in ix.rev && c0 in ix.rev[v0];
    assert Activated(ix.rev, Elems(olds));
  }

  /** The forward map after a rename that affects some container. */
  lemma RenameForward(ix: Index, olds: seq<string>, news: set<string>)
    requires Affected(ix, olds) != {}
    ensures var fwd' := Rename(ix, olds, news).fwd;
      && fwd'.Keys == ix.fwd.Keys
      && (forall c :: c in fwd' ==>
            fwd'[c] == if c in Affected(ix, olds) then (ix.fwd[c] - Elems(olds)) + news else ix.fwd[c])
  {
  }

  /** How a move reshapes the index: the containers of `affected` (those
      holding some old variant) swap the old variants for the new ones, and
      the reverse map follows. */
  ghost predicate MovedShape(ix: Index, ix': Index, affected: set<string>, oldSet: set<string>, news: set<string>) {
    && (forall c :: c in affected <==> c in ix.fwd && ix.fwd[c] * oldSet != {})
    && ix'.fwd.Keys == ix.fwd.Keys
    && (forall c :: c in ix'.fwd ==> ix'.fwd[c] == if c in affected then (ix.fwd[c] - oldSet) + news else ix.fwd[c])
    && (forall r :: r in ix'.rev <==> (r in ix.rev && r !in oldSet) || r in news)
    && (forall r :: r in ix'.rev ==>
          ix'.rev[r] == (if r in ix.rev && r !in oldSet then ix.rev[r] else {}) + (if r in news then affected else {}))
  }

  /** The consistency argument for a rename, over the shapes of the two new
      maps. */
  lemma MovedShapeConsistent(ix: Index, ix': Index, affected: set<string>, oldSet: set<string>, news: set<string>)
    requires Consistent(ix) && affected != {}
    requires MovedShape(ix, ix', affected, oldSet, news)
    ensures Consistent(ix')
  {
    MovedForwardCovered(ix, ix', affected, oldSet, news);
    MovedReverseCovered(ix, ix', affected, oldSet, news);
    MovedReverseNonEmpty(ix, ix', affected, oldSet, news);
  }

  /** After the move, every forward pair is also a reverse pair. */
  lemma MovedForwardCovered(ix: Index, ix': Index, affected: set<string>, oldSet: set<string>, news: set<string>)
    requires Consistent(ix) && MovedShape(ix, ix', affected, oldSet, news)
    ensures forall c, r :: c in ix'.fwd && r in ix'.fwd[c] ==> r in ix'.rev && c in ix'.rev[r]
  {
    forall c, r | c in ix'.fwd && r in ix'.fwd[c] ensures r in ix'.rev && c in ix'.rev[r] {
      if c !in affected {
        assert ix'.fwd[c] == ix.fwd[c];
        assert ix.fwd[c] * oldSet == {};
        assert r !in ix.fwd[c] * oldSet;
      } else if r !in news {
        assert r in ix.fwd[c] - oldSet;
      }
    }
  }

  /** After the move, every reverse pair is also a forward pair. */
  lemma MovedReverseCovered(ix: Index, ix': Index, affected: set<string>, oldSet: set<string>, news: set<string>)
    requires Consistent(ix) && MovedShape(ix, ix', affected, oldSet, news)
    ensures forall r, c :: r in ix'.rev && c in ix'.rev[r] ==> c in ix'.fwd && r in ix'.fwd[c]
  {
    forall r, c | r in ix'.rev && c in ix'.rev[r] ensures c in ix'.fwd && r in ix'.fwd[c] {
      if !(r in news && c in affected) {
        assert r in ix.rev && r !in oldSet && c in ix.rev[r];
      }
    }
  }

  /** After a move that affects some container, no reference is held by nobody. */
  lemma MovedReverseNonEmpty(ix: Index, ix': Index, affected: set<string>, oldSet: set<string>, news: set<string>)
    requires Consistent(ix) && affected != {} && MovedShape(ix, ix', affected, oldSet, news)
    ensures forall r :: r in ix'.rev ==> ix'.rev[r] != {}
  {
    forall r | r in ix'.rev ensures ix'.rev[r] != {} {
      if r !in news {
        assert ix'.rev[r] == ix.rev[r];
      }
    }
  }

  /** A rename keeps a consistent index consistent. */
  lemma RenameConsistent(ix: Index, olds: seq<string>, news: set<string>)
    requires Consistent(ix)
    ensures Consistent(Rename(ix, olds, news))
  {
    if Affected(ix, olds) != {} {
      PooledHolders(ix, Elems(olds));
      RenameReverse(ix, olds, news);
      RenameForward(ix, olds, news);
      MovedShapeConsistent(ix, Rename(ix, olds, news), Affected(ix, olds), Elems(olds), news);
    }
  }

  /** What a rename does to the containers: those holding an old variant now
      hold every new variant and no old variant that is not also new; all
      other containers keep their entries. */
  lemma RenameEffect(ix: Index, olds: seq<string>, news: set<string>)
    requires Consistent(ix)
    ensures var ix' := Rename(ix, olds, news);
      && ix'.fwd.Keys == ix.fwd.Keys
      && (forall c :: c in Affected(ix, olds) <==> c in ix.fwd && exists v :: v in olds && v in ix.fwd[c])
      && (forall c :: c in ix.fwd && c !in Affected(ix, olds) ==> ix'.fwd[c] == ix.fwd[c])
      && (forall c :: c in Affected(ix, olds) ==> news <= ix'.fwd[c])
      && (forall c, v :: c in Affected(ix, olds) && v in olds && v !in news ==> v !in ix'.fwd[c])
  {
    PooledHolders(ix, Elems(olds));
    if Affected(ix, olds) != {} {
      RenameForward(ix, olds, news);
    }
    forall c | c in ix.fwd && (exists v :: v in olds && v in ix.fwd[c]) ensures c in Affected(ix, olds) {
      var v :| v in olds && v in ix.fwd[c];
      assert v in ix.fwd[c] * Elems(olds);
    }
  }
}

=== FILE: strings.dfy ===
/** Character and string helpers with the Python semantics the tool relies on.

    Lowercasing is ASCII-only, so it never changes a string's length; the
    directory-move slicing of the handlers depends on that.  Whitespace and
    line breaks follow Python's `str.isspace` and `str.splitlines`.
 */
module Strings {

  /** ASCII lowercasing of one character. */
  function LowerChar(c: char): char {
    if 'A' <= c <= 'Z' then (c as int + 32) as char else c
  }

  /** ASCII lowercasing of a string, character by character. */
  function Lower(s: string): (r: string)
    ensures |r| == |s|
    ensures forall i :: 0 <= i < |s| ==> r[i] == LowerChar(s[i])
  {
    seq(|s|, i requires 0 <= i < |s| => LowerChar(s[i]))
  }

  /** No ASCII upper-case letter occurs in `s`. */
  predicate IsLower(s: string) {
    forall i :: 0 <= i < |s| ==> !('A' <= s[i] <= 'Z')
  }

  lemma LowerIsLower(s: string)
    ensures IsLower(Lower(s))
    ensures Lower(Lower(s)) == Lower(s)
  {
  }

  lemma LowerOfLower(s: string)
    requires IsLower(s)
    ensures Lower(s) == s
  {
  }

  lemma LowerConcat(a: string, b: string)
    ensures Lower(a + b) == Lower(a) + Lower(b)
  {
  }

  /** Python's `str.isspace` for one character (also what `\s` matches in a str pattern). */
  predicate IsSpace(c: char) {
    var n := c as int;
    (9 <= n <= 13) || (28 <= n <= 32) || n == 0x85 || n == 0xA0 || n == 0x1680
    || (0x2000 <= n <= 0x200A) || n == 0x2028 || n == 0x2029 || n == 0x202F
    || n == 0x205F || n == 0x3000
  }

  /** The line boundaries of Python's `str.splitlines`. */
  predicate IsLineBreak(c: char) {
    var n := c as int;
    (10 <= n <= 13) || (28 <= n <= 30) || n == 0x85 || n == 0x2028 || n == 0x2029
  }

  predicate StartsWith(s: string, p: string) {
    |p| <= |s| && s[..|p|] == p
  }

  predicate EndsWith(s: string, p: string) {
    |p| <= |s| && s[|s| - |p|..] == p
  }

  /** `c in s`, as a predicate. */
  predicate Contains(s: string, c: char) {
    exists i :: 0 <= i < |s| && s[i] == c
  }

  /** Lowercasing commutes with prefix tests when both sides are lowered. */
  lemma StartsWithLower(s: string, p: string)
    requires StartsWith(s, p)
    ensures StartsWith(Lower(s), Lower(p))
  {
  }

  /** `s.rstrip()`: drop trailing whitespace. */
  function RStrip(s: string): (r: string)
    ensures |r| <= |s| && r == s[..|r|]
    ensures |r| == 0 || !IsSpace(r[|r| - 1])
    ensures forall i :: |r| <= i < |s| ==> IsSpace(s[i])
  {
    if |s| == 0 || !IsSpace(s[|s| - 1]) then s else RStrip(s[..|s| - 1])
  }

  /** `s.lstrip()`: drop leading whitespace. */
  function LStrip(s: string): (r: string)
    ensures |r| <= |s| && r == s[|s| - |r|..]
    ensures |r| == 0 || !IsSpace(r[0])
    ensures forall i :: 0 <= i < |s| - |r| ==> IsSpace(s[i])
  {
    if |s| == 0 || !IsSpace(s[0]) then s else LStrip(s[1..])
  }

  /** `s.strip()`. */
  function Strip(s: string): string {
    RStrip(LStrip(s))
  }

  /** `lstrip` stops at or before the first non-blank character. */
  lemma LStripStopsAt(s: string, j: nat)
    requires j < |s| && !IsSpace(s[j])
    ensures |s| - |LStrip(s)| <= j
  {
  }

  /** `rstrip` leaves a string that ends in a non-blank alone. */
  lemma RStripNoBlankEnd(s: string)
    requires |s| > 0 && !IsSpace(s[|s| - 1])
    ensures RStrip(s) == s
  {
  }

  /** `s.replace(a, b)` for single characters. */
  function ReplaceChar(s: string, a: char, b: char): (r: string)
    ensures |r| == |s|
    ensures forall i :: 0 <= i < |s| ==> r[i] == (if s[i] == a then b else s[i])
  {
    seq(|s|, i requires 0 <= i < |s| => if s[i] == a then b else s[i])
  }

  /** Replacing one character by another removes it, touches nothing else,
      and doing it again changes nothing. */
  lemma ReplaceCharRemoves(s: string, a: char, b: char)
    ensures a != b ==> !Contains(ReplaceChar(s, a, b), a)
    ensures forall i :: 0 <= i < |s| && s[i] != a ==> ReplaceChar(s, a, b)[i] == s[i]
    ensures ReplaceChar(ReplaceChar(s, a, b), a, b) == ReplaceChar(s, a, b)
  {
  }

  /** `s.replace(pat, repl)`: leftmost, non-overlapping, scanning left to right. */
  function ReplaceAll(s: string, pat: string, repl: string): string
    requires |pat| > 0
    decreases |s|
  {
    if |s| == 0 then ""
    else if StartsWith(s, pat) then repl + ReplaceAll(s[|pat|..], pat, repl)
    else [s[0]] + ReplaceAll(s[1..], pat, repl)
  }

  /** Replacing every occurrence of a one-character string removes that character,
      provided the replacement does not itself contain it. */
  lemma {:induction false} ReplaceAllRemoves(s: string, c: char, repl: string)
    requires !Contains(repl, c)
    ensures !Contains(ReplaceAll(s, [c], repl), c)
    decreases |s|
  {
    if |s| == 0 {
    } else if StartsWith(s, [c]) {
      ReplaceAllRemoves(s[1..], c, repl);
      var t := ReplaceAll(s[1..], [c], repl);
      assert ReplaceAll(s, [c], repl) == repl + t;
      forall i | 0 <= i < |repl + t| ensures (repl + t)[i] != c {
        if i < |repl| {
          assert (repl + t)[i] == repl[i];
        } else {
          assert (repl + t)[i] == t[i - |repl|];
        }
      }
    } else {
      ReplaceAllRemoves(s[1..], c, repl);
      var t := ReplaceAll(s[1..], [c], repl);
      assert ReplaceAll(s, [c], repl) == [s[0]] + t;
      assert s[0] != c;
      forall i | 0 <= i < |[s[0]] + t| ensures ([s[0]] + t)[i] != c {
        if i > 0 {
          assert ([s[0]] + t)[i] == t[i - 1];
        }
      }
    }
  }

  /** Replacing a character that does not occur is the identity. */
  lemma {:induction false} ReplaceAllAbsent(s: string, c: char, repl: string)
    requires !Contains(s, c)
    ensures ReplaceAll(s, [c], repl) == s
    decreases |s|
  {
    if |s| > 0 {
      assert s[0] != c;
      assert !Contains(s[1..], c) by {
        forall i | 0 <= i < |s[1..]| ensures s[1..][i] != c {
          assert s[1..][i] == s[i + 1];
        }
      }
      ReplaceAllAbsent(s[1..], c, repl);
      assert s == [s[0]] + s[1..];
    }
  }

  /** `sep.join(parts)`. */
  function Join(parts: seq<string>, sep: string): string {
    if |parts| == 0 then ""
    else if |parts| == 1 then parts[0]
    else parts[0] + sep + Join(parts[1..], sep)
  }

  /** Index of the first line break in `s`, or `|s|` when there is none. */
  function FirstLineBreak(s: string): (i: nat)
    ensures i <= |s|
    ensures i < |s| ==> IsLineBreak(s[i])
    ensures forall j :: 0 <= j < i ==> !IsLineBreak(s[j])
  {
    if |s| == 0 || IsLineBreak(s[0]) then 0 else 1 + FirstLineBreak(s[1..])
  }

  /** `s.splitlines()`: a final line break does not open an empty last line,
      and `\r\n` counts as one break. */
  function SplitLines(s: string): (lines: seq<string>)
    ensures forall k :: 0 <= k < |lines| ==> forall j :: 0 <= j < |lines[k]| ==> !IsLineBreak(lines[k][j])
    decreases |s|
  {
    var i := FirstLineBreak(s);
    if i == |s| then (if |s| == 0 then [] else [s])
    else [s[..i]] + SplitLines(s[i + BreakWidth(s, i)..])
  }

  /** The length of the line break at `i`: two for "\r\n", otherwise one. */
  function BreakWidth(s: string, i: nat): (w: nat)
    requires i < |s|
    ensures 1 <= w <= |s| - i
  {
    if s[i] == '\r' && i + 1 < |s| && s[i + 1] == '\n' then 2 else 1
  }

  /** The break that ends each line of `SplitLines(s)`, in order; the last
      line's is "" when the text does not end with a break. */
  function LineBreaks(s: string): seq<string>
    decreases |s|
  {
    var i := FirstLineBreak(s);
    if i == |s| then (if |s| == 0 then [] else [""])
    else [s[i..i + BreakWidth(s, i)]] + LineBreaks(s[i + BreakWidth(s, i)..])
  }

  /** Each line followed by its break. */
  function Unlines(lines: seq<string>, breaks: seq<string>): string
    requires |lines| == |breaks|
  {
    if |lines| == 0 then "" else lines[0] + breaks[0] + Unlines(lines[1..], breaks[1..])
  }

  /** What a break may be: "\r\n", or one line-break character. */
  predicate IsBreakText(b: string) {
    b == "\r\n" || (|b| == 1 && IsLineBreak(b[0]))
  }

  /** `splitlines` loses nothing but the breaks: putting each line's break
      back after it gives the text again, and every break but possibly the
      last is a genuine line break. */
  lemma {:induction false} SplitLinesRejoin(s: string)
    ensures RejoinHolds(s)
    decreases |s|
  {
    var i := FirstLineBreak(s);
    if i < |s| {
      var w := BreakWidth(s, i);
      SplitLinesRejoin(s[i + w..]);
      BreakIsBreakText(s, i);
      LinesAtBreak(s);
      SliceThree(s, i, i + w);
      RejoinAtBreak(s, s[..i], s[i..i + w], s[i + w..]);
    } else {
      RejoinNoBreak(s);
    }
  }

  /** The lines and breaks of `s` interleave back to `s`, and the breaks are
      genuine except possibly an empty last one. */
  ghost predicate RejoinHolds(s: string) {
    && |LineBreaks(s)| == |SplitLines(s)|
    && Unlines(SplitLines(s), LineBreaks(s)) == s
    && forall k :: 0 <= k < |LineBreaks(s)| ==>
         IsBreakText(LineBreaks(s)[k]) || (k == |LineBreaks(s)| - 1 && LineBreaks(s)[k] == "")
  }

  /** The rejoin carries over a first line and its break. */
  lemma RejoinAtBreak(s: string, line: string, b: string, rest: string)
    requires s == line + b + rest && IsBreakText(b)
    requires SplitLines(s) == [line] + SplitLines(rest) && LineBreaks(s) == [b] + LineBreaks(rest)
    requires RejoinHolds(rest)
    ensures RejoinHolds(s)
  {
    RejoinStep(line, b, rest, SplitLines(rest), LineBreaks(rest));
  }

  /** A text without a line break is one line with no break after it. */
  lemma RejoinNoBreak(s: string)
    requires FirstLineBreak(s) == |s|
    ensures RejoinHolds(s)
  {
    if |s| > 0 {
      assert Unlines([s], [""]) == s + "" + Unlines([], []);
    }
  }

  lemma SliceThree(s: string, i: nat, j: nat)
    requires i <= j <= |s|
    ensures s == s[..i] + s[i..j] + s[j..]
  {
  }

  /** Both splits take the first line and its break off the front. */
  lemma LinesAtBreak(s: string)
    requires FirstLineBreak(s) < |s|
    ensures var i := FirstLineBreak(s);
      var rest := s[i + BreakWidth(s, i)..];
      && SplitLines(s) == [s[..i]] + SplitLines(rest)
      && LineBreaks(s) == [s[i..i + BreakWidth(s, i)]] + LineBreaks(rest)
  {
  }

  /** The text at a line break is a break. */
  lemma BreakIsBreakText(s: string, i: nat)
    requires i < |s| && IsLineBreak(s[i])
    ensures IsBreakText(s[i..i + BreakWidth(s, i)])
  {
    if BreakWidth(s, i) == 1 {
      assert s[i..i + 1] == [s[i]];
    } else {
      assert s[i..i + 2] == [s[i], s[i + 1]];
    }
  }

  /** One more line in front keeps the rejoin and the shape of the breaks. */
  lemma RejoinStep(line: string, b: string, rest: string, lines: seq<string>, breaks: seq<string>)
    requires |lines| == |breaks| && Unlines(lines, breaks) == rest && IsBreakText(b)
    requires forall k :: 0 <= k < |breaks| ==> IsBreakText(breaks[k]) || (k == |breaks| - 1 && breaks[k] == "")
    ensures Unlines([line] + lines, [b] + breaks) == line + b + rest
    ensures forall k :: 0 <= k < |[b] + breaks| ==>
      IsBreakText(([b] + breaks)[k]) || (k == |[b] + breaks| - 1 && ([b] + breaks)[k] == "")
  {
    assert ([line] + lines)[1..] == lines && ([b] + breaks)[1..] == breaks;
    forall k | 0 < k < |[b] + breaks| ensures ([b] + breaks)[k] == breaks[k - 1] {
    }
  }

  /** `s.split(c)` for a one-character separator: always at least one piece. */
  function SplitOn(s: string, c: char): (pieces: seq<string>)
    ensures |pieces| >= 1
    decreases |s|
  {
    if |s| == 0 then [""]
    else
      var rest := SplitOn(s[1..], c);
      if s[0] == c then [""] + rest else [[s[0]] + rest[0]] + rest[1..]
  }

  /** Splitting a separator-free string gives it back whole. */
  lemma {:induction false} SplitOnAbsent(s: string, c: char)
    requires !Contains(s, c)
    ensures SplitOn(s, c) == [s]
    decreases |s|
  {
    if |s| > 0 {
      assert !Contains(s[1..], c) by {
        forall i | 0 <= i < |s[1..]| ensures s[1..][i] != c {
          assert s[1..][i] == s[i + 1];
        }
      }
      SplitOnAbsent(s[1..], c);
      assert s == [s[0]] + s[1..];
    }
  }

  /** `SplitOn(a + [c] + b) == SplitOn(a) ++ SplitOn(b)` with the pieces of `a` not merged. */
  lemma {:induction false} SplitOnAppend(a: string, b: string, c: char)
    requires !Contains(a, c)
    ensures SplitOn(a + [c] + b, c) == [a] + SplitOn(b, c)
    decreases |a|
  {
    if |a| == 0 {
      assert a + [c] + b == [c] + b;
      assert ([c] + b)[1..] == b;
    } else {
      assert !Contains(a[1..], c) by {
        forall i | 0 <= i < |a[1..]| ensures a[1..][i] != c {
          assert a[1..][i] == a[i + 1];
        }
      }
      SplitOnAppend(a[1..], b, c);
      assert (a + [c] + b)[1..] == a[1..] + [c] + b;
      assert (a + [c] + b)[0] == a[0] != c;
      assert [a[0]] + a[1..] == a;
    }
  }

  /** Splitting a `c`-join of `c`-free pieces gives the pieces back. */
  lemma {:induction false} SplitJoin(parts: seq<string>, c: char)
    requires |parts| >= 1
    requires forall k :: 0 <= k < |parts| ==> !Contains(parts[k], c)
    ensures SplitOn(Join(parts, [c]), c) == parts
    decreases |parts|
  {
    if |parts| == 1 {
      SplitOnAbsent(parts[0], c);
    } else {
      SplitJoin(parts[1..], c);
      SplitOnAppend(parts[0], Join(parts[1..], [c]), c);
      assert [parts[0]] + parts[1..] == parts;
    }
  }

  /** The character of a decimal digit. */
  function DigitChar(d: nat): (c: char)
    requires d < 10
    ensures '0' <= c <= '9' && c as int - '0' as int == d
  {
    ('0' as int + d) as char
  }

  /** `str(n)` for a natural number. */
  function Decimal(n: nat): (r: string)
    ensures |r| > 0 && forall i :: 0 <= i < |r| ==> '0' <= r[i] <= '9'
    decreases n
  {
    if n < 10 then [DigitChar(n)] else Decimal(n / 10) + [DigitChar(n % 10)]
  }

  /** `int(s)` for a string of decimal digits. */
  function DecimalValue(s: string): nat
    requires forall i :: 0 <= i < |s| ==> '0' <= s[i] <= '9'
    decreases |s|
  {
    if |s| == 0 then 0 else 10 * DecimalValue(s[..|s| - 1]) + (s[|s| - 1] as int - '0' as int)
  }

  /** Reading a number's decimal form gives the number back; only zero is
      written with a leading '0'. */
  lemma {:induction false} DecimalRoundTrip(n: nat)
    ensures DecimalValue(Decimal(n)) == n
    ensures Decimal(n)[0] == '0' <==> n == 0
    decreases n
  {
    if n >= 10 {
      DecimalRoundTrip(n / 10);
      var r := Decimal(n);
      assert r[..|r| - 1] == Decimal(n / 10);
      assert r[0] == Decimal(n / 10)[0];
    }
  }
}

=== FILE: watcher.dfy ===
/** The watcher engine (`AssetReferenceIndex` in `app/watcher.py`) together
    with the file system it patches, and the event handler (`ChangeHandler`)
    that turns file-system events into index updates and rewrites.

    The file system is a map from absolute paths to contents; the clock is a
    `now` parameter of every event; the directory walk of a full rebuild is a
    parameter listing the files found.  Worker processes, the lock and the
    retry sleeps are not modelled: a file that stays unreadable through all
    retries is `Locked`.
 */
module Watcher {
  import opened Wrappers
  import opened Strings
  import opened Paths
  import opened Config
  import opened Handlers
  import opened RefIndex

  /** `watcher_options`.  `allow_ext_change` is stored but never consulted. */
  datatype Options = Options(allowExtChange: bool, allowDirChange: bool, matchAnyTexture: bool)

  /** What does not change while the watcher runs. */
  datatype Engine = Engine(root: string, opts: Options, settings: Settings)

  type Files = map<string, Content>

  /** The index, the self-write cooldowns (absolute path to expiry time) and
      the files on disk. */
  datatype State = State(ix: Index, cooldowns: map<string, real>, files: Files)

  /** `is_on_cooldown`: a path without an entry has expiry 0. */
  predicate OnCooldown(st: State, abs: string, now: real) {
    now < (if abs in st.cooldowns then st.cooldowns[abs] else 0.0)
  }

  /** `ASSET_HANDLERS.get(Path(p).suffix.lower())`. */
  function HandlerOf(p: string): Option<HandlerKind> {
    HandlerFor(Lower(Suffix(p)))
  }

  // ---------------------------------------------------------------- parse worker

  /** What `_index_parse_worker` returns: `(None, None)`, `(rel, None)` for a
      file that stayed missing, empty or unreadable, or `(rel, refs)`. */
  datatype ParseResult = NotIndexable | Busy(rel: string) | Parsed(rel: string, refs: set<string>)

  function ParseWorker(e: Engine, files: Files, abs: string): ParseResult {
    match ToRel(e.root, abs)
    case None => NotIndexable
    case Some(rel) =>
      if HandlerOf(abs).None? then NotIndexable
      else if Readable(files, abs) then Parsed(rel, Parse(files[abs].doc, e.settings.sep))
      else Busy(rel)
  }

  /** The file exists, can be read and is not empty. */
  predicate Readable(files: Files, abs: string) {
    abs in files && files[abs].Doc? && Render(files[abs].doc) != ""
  }

  /** The worker skips paths outside the project and files without a handler,
      reports an unreadable or empty file as busy, and otherwise returns the
      references the handler finds, each the normal form of some match. */
  lemma ParseWorkerSpec(e: Engine, files: Files, abs: string)
    ensures var r := ParseWorker(e, files, abs);
      && (r.NotIndexable? <==> ToRel(e.root, abs).None? || HandlerOf(abs).None?)
      && (!r.NotIndexable? ==> Some(r.rel) == ToRel(e.root, abs))
      && (r.Parsed? <==> !r.NotIndexable? && Readable(files, abs))
      && (r.Parsed? ==> forall x :: x in r.refs <==>
            exists i :: 0 <= i < |files[abs].doc| && files[abs].doc[i].Match? && NormalizeParsed(files[abs].doc[i].path, e.settings.sep) == x)
  {
    if ParseWorker(e, files, abs).Parsed? {
      ParseMembershipAll(files[abs].doc, e.settings.sep);
    }
  }

  lemma ParseMembershipAll(d: Document, sep: char)
    requires Render(d) != ""
    ensures forall x :: x in Parse(d, sep) <==>
      exists i :: 0 <= i < |d| && d[i].Match? && NormalizeParsed(d[i].path, sep) == x
  {
    forall x ensures x in Parse(d, sep) <==> exists i :: 0 <= i < |d| && d[i].Match? && NormalizeParsed(d[i].path, sep) == x {
      ParseMembership(d, sep, x);
    }
  }

  // ---------------------------------------------------------------- single container

  /** `process_container_file`. */
  function ProcessContainer(e: Engine, st: State, abs: string, now: real): State {
    if OnCooldown(st, abs, now) then st
    else
      match ParseWorker(e, st.files, abs)
      case Parsed(rel, refs) => st.(ix := Upsert(st.ix, rel, refs))
      case _ => st
  }

  /** `remove_container_from_index`. */
  function RemoveContainer(e: Engine, st: State, abs: string, now: real): State {
    if OnCooldown(st, abs, now) then st
    else
      match ToRel(e.root, abs)
      case None => st
      case Some(rel) => st.(ix := Remove(st.ix, rel))
  }

  /** Processing a container leaves everything but the index alone; a parsed
      file's entry is replaced as a rebuild would; a file on cooldown, outside
      the project, without a handler, or unreadable keeps the old entry. */
  lemma ProcessContainerEffect(e: Engine, st: State, abs: string, now: real)
    requires Consistent(st.ix)
    ensures var st' := ProcessContainer(e, st, abs, now);
      && st'.cooldowns == st.cooldowns && st'.files == st.files
      && Consistent(st'.ix)
      && (if !OnCooldown(st, abs, now) && ParseWorker(e, st.files, abs).Parsed?
          then st'.ix == FromForward(st.ix.fwd[ParseWorker(e, st.files, abs).rel := ParseWorker(e, st.files, abs).refs])
          else st'.ix == st.ix)
  {
    var r := ParseWorker(e, st.files, abs);
    if !OnCooldown(st, abs, now) && r.Parsed? {
      assert ProcessContainer(e, st, abs, now) == st.(ix := Upsert(st.ix, r.rel, r.refs));
      UpsertCanonical(st.ix, r.rel, r.refs);
    } else {
      assert ProcessContainer(e, st, abs, now) == st;
    }
  }

  /** Removing a container drops exactly its entry, unless the path is on
      cooldown or outside the project. */
  lemma RemoveContainerEffect(e: Engine, st: State, abs: string, now: real)
    requires Consistent(st.ix)
    ensures var st' := RemoveContainer(e, st, abs, now);
      && st'.cooldowns == st.cooldowns && st'.files == st.files
      && Consistent(st'.ix)
      && (if !OnCooldown(st, abs, now) && ToRel(e.root, abs).Some?
          then st'.ix == FromForward(st.ix.fwd - {ToRel(e.root, abs).value})
          else st'.ix == st.ix)
  {
    if !OnCooldown(st, abs, now) && ToRel(e.root, abs).Some? {
      RemoveCanonical(st.ix, ToRel(e.root, abs).value);
    }
  }

  // ---------------------------------------------------------------- patching files

  /** Rewrite every file of `targets` (relative container paths) that has a
      handler, with the given table; other files are untouched. */
  function PatchFiles(e: Engine, files: Files, targets: set<string>, repl: seq<(string, string)>, isDirMove: bool): Files {
    map p | p in files ::
      match ToRel(e.root, p)
      case Some(rel) =>
        if rel in targets && HandlerOf(rel).Some?
        then Rewrite(HandlerOf(rel).value, e.settings.sep, repl, isDirMove, files[p])
        else files[p]
      case None => files[p]
  }

  /** `_write_cooldowns[root / rel] = time.time() + 2.0` for every patched target. */
  function SetCooldowns(e: Engine, cds: map<string, real>, targets: set<string>, now: real): map<string, real> {
    cds + map c | c in targets && HandlerOf(c).Some? :: JoinPath(e.root, c) := now + 2.0
  }

  /** Patching rewrites exactly the target containers' files. */
  lemma PatchFilesEffect(e: Engine, files: Files, targets: set<string>, repl: seq<(string, string)>, isDirMove: bool)
    ensures var files' := PatchFiles(e, files, targets, repl, isDirMove);
      && files'.Keys == files.Keys
      && (forall c :: c in targets && HandlerOf(c).Some? && |c| > 0 && JoinPath(e.root, c) in files ==>
            files'[JoinPath(e.root, c)] == Rewrite(HandlerOf(c).value, e.settings.sep, repl, isDirMove, files[JoinPath(e.root, c)]))
      && (forall p :: p in files && (ToRel(e.root, p).None? || ToRel(e.root, p).value !in targets) ==> files'[p] == files[p])
  {
    var files' := PatchFiles(e, files, targets, repl, isDirMove);
    forall c | c in targets && HandlerOf(c).Some? && |c| > 0 && JoinPath(e.root, c) in files
      ensures files'[JoinPath(e.root, c)] == Rewrite(HandlerOf(c).value, e.settings.sep, repl, isDirMove, files[JoinPath(e.root, c)])
    {
      ToRelJoin(e.root, c);
    }
  }

  /** Patching puts exactly the target containers on a two-second cooldown. */
  lemma SetCooldownsEffect(e: Engine, cds: map<string, real>, targets: set<string>, now: real)
    ensures var cds' := SetCooldowns(e, cds, targets, now);
      && (forall c :: c in targets && HandlerOf(c).Some? ==> JoinPath(e.root, c) in cds' && cds'[JoinPath(e.root, c)] == now + 2.0)
      && (forall p :: p in cds' <==> p in cds || exists c :: c in targets && HandlerOf(c).Some? && p == JoinPath(e.root, c))
      && (forall p :: p in cds && (forall c :: c in targets && HandlerOf(c).Some? ==> p != JoinPath(e.root, c)) ==> cds'[p] == cds[p])
  {
  }

  // ---------------------------------------------------------------- renames

  /** The old variants (lowered, in the order the loop meets them), the new
      variants, and the replacement table handed to the handlers. */
  datatype RenamePlan = RenamePlan(olds: seq<string>, news: set<string>, repl: seq<(string, string)>)

  /** The replacement table `update_asset_path` builds.  With texture matching
      on and a texture being renamed, every texture extension of the old stem
      is renamed to the same extension on the new stem; otherwise the path
      itself.  A material is also renamed without its extension. */
  function RenameTable(e: Engine, oldAbs: string, oldRel: string, newRel: string): seq<(string, string)> {
    var suffix := Lower(Suffix(oldAbs));
    var tex := e.settings.textures;
    var base :=
      if e.opts.matchAnyTexture && suffix in tex
      then seq(|tex|, i requires 0 <= i < |tex| => (WithoutSuffix(oldRel) + tex[i], WithoutSuffix(newRel) + tex[i]))
      else [(oldRel, newRel)];
    if suffix == ".mtl" then base + [(WithoutSuffix(oldRel), WithoutSuffix(newRel))] else base
  }

  /** The lowered keys of a table, in order. */
  function LowerKeys(repl: seq<(string, string)>): (r: seq<string>)
    ensures |r| == |repl| && forall i :: 0 <= i < |repl| ==> r[i] == Lower(repl[i].0)
  {
    seq(|repl|, i requires 0 <= i < |repl| => Lower(repl[i].0))
  }

  /** The lowered values of a table. */
  function LowerValues(repl: seq<(string, string)>): (r: set<string>)
    ensures forall n :: n in r <==> exists i :: 0 <= i < |repl| && Lower(repl[i].1) == n
  {
    set i | 0 <= i < |repl| :: Lower(repl[i].1)
  }

  /** The old variants are the table's lowered keys and the new variants its
      lowered values: each pair the loop adds to the table adds one of each. */
  function MakePlan(e: Engine, oldAbs: string, oldRel: string, newRel: string): RenamePlan {
    var t := RenameTable(e, oldAbs, oldRel, newRel);
    RenamePlan(LowerKeys(t), LowerValues(t), t)
  }

  /** `Path(x).name` of `root / rel` is the name of `rel`. */
  lemma {:induction false} NameStartJoin(a: string, b: string)
    ensures NameStart(a + "/" + b) == |a| + 1 + NameStart(b)
    decreases |b|
  {
    if |b| > 0 && b[|b| - 1] != '/' {
      assert (a + "/" + b)[..|a + "/" + b| - 1] == a + "/" + b[..|b| - 1];
      NameStartJoin(a, b[..|b| - 1]);
    }
  }

  lemma SuffixJoin(root: string, rel: string)
    ensures Suffix(JoinPath(root, rel)) == Suffix(rel)
  {
    NameStartJoin(root, rel);
    assert FileName(JoinPath(root, rel)) == FileName(rel);
  }

  /** Lowering does not see the case of a suffix that lowers to `ext`. */
  lemma LowerSameSuffix(stem: string, sfx: string, ext: string)
    requires Lower(sfx) == ext
    ensures Lower(stem + ext) == Lower(stem + sfx)
  {
    LowerIsLower(sfx);
    LowerConcat(stem, sfx);
    LowerConcat(stem, ext);
  }

  /** Some entry of the table renames the old path (up to case) to `target`. */
  predicate Covers(t: seq<(string, string)>, oldRel: string, target: string) {
    exists i :: 0 <= i < |t| && Lower(t[i].0) == Lower(oldRel) && t[i].1 == target
  }

  /** The path the table renames `oldRel` to: the new path, or with texture
      matching the new stem carrying the old (lowered) extension. */
  function RenameTarget(e: Engine, oldRel: string, newRel: string): string {
    var sfx := Lower(Suffix(oldRel));
    if e.opts.matchAnyTexture && sfx in e.settings.textures then WithoutSuffix(newRel) + sfx else newRel
  }

  lemma TableCovers(e: Engine, oldAbs: string, oldRel: string, newRel: string)
    requires Suffix(oldAbs) == Suffix(oldRel)
    ensures Covers(RenameTable(e, oldAbs, oldRel, newRel), oldRel, RenameTarget(e, oldRel, newRel))
  {
    var t := RenameTable(e, oldAbs, oldRel, newRel);
    var sfx := Lower(Suffix(oldRel));
    var tex := e.settings.textures;
    if e.opts.matchAnyTexture && sfx in tex {
      var k :| 0 <= k < |tex| && tex[k] == sfx;
      LowerSameSuffix(WithoutSuffix(oldRel), Suffix(oldRel), sfx);
      assert t[k] == (WithoutSuffix(oldRel) + sfx, WithoutSuffix(newRel) + sfx);
    } else {
      assert t[0] == (oldRel, newRel);
    }
  }

  /** The plan renames the path itself: some table entry's key is the old path
      up to case and its value the rename target, so the old path's lowered
      form is an old variant and the target's lowered form a new variant. */
  lemma PlanCoversPath(e: Engine, oldRel: string, newRel: string)
    ensures var p := MakePlan(e, JoinPath(e.root, oldRel), oldRel, newRel);
      && Covers(p.repl, oldRel, RenameTarget(e, oldRel, newRel))
      && Lower(oldRel) in p.olds && Lower(RenameTarget(e, oldRel, newRel)) in p.news
  {
    var oldAbs := JoinPath(e.root, oldRel);
    SuffixJoin(e.root, oldRel);
    TableCovers(e, oldAbs, oldRel, newRel);
    var t := RenameTable(e, oldAbs, oldRel, newRel);
    var i :| 0 <= i < |t| && Lower(t[i].0) == Lower(oldRel) && t[i].1 == RenameTarget(e, oldRel, newRel);
    assert LowerKeys(t)[i] == Lower(oldRel);
  }

  /** `update_asset_path`: nothing happens for a path outside the project or
      when no container holds an old variant; otherwise every affected
      container is rewritten and put on cooldown, and the index is updated
      without re-reading them. */
  function UpdateAssetPath(e: Engine, st: State, oldAbs: string, newAbs: string, now: real): State {
    match (ToRel(e.root, oldAbs), ToRel(e.root, newAbs))
    case (Some(oldRel), Some(newRel)) =>
      var plan := MakePlan(e, oldAbs, oldRel, newRel);
      var affected := Affected(st.ix, plan.olds);
      if affected == {} then st
      else
        State(
          Rename(st.ix, plan.olds, plan.news),
          SetCooldowns(e, st.cooldowns, affected, now),
          PatchFiles(e, st.files, affected, plan.repl, false))
    case _ => st
  }

  /** A rename keeps the index consistent; when it touches anything, the
      affected containers are those holding an old variant, each is rewritten
      with the plan's table and put on cooldown, and in the index each now
      holds every new variant and no old one that is not also new. */
  lemma UpdateAssetPathEffect(e: Engine, st: State, oldAbs: string, newAbs: string, now: real)
    requires Consistent(st.ix)
    ensures var st' := UpdateAssetPath(e, st, oldAbs, newAbs, now);
      && Consistent(st'.ix)
      && st'.ix.fwd.Keys == st.ix.fwd.Keys
      && (ToRel(e.root, oldAbs).None? || ToRel(e.root, newAbs).None? ==> st' == st)
      && (ToRel(e.root, oldAbs).Some? && ToRel(e.root, newAbs).Some? ==>
            var plan := MakePlan(e, oldAbs, ToRel(e.root, oldAbs).value, ToRel(e.root, newAbs).value);
            var affected := Affected(st.ix, plan.olds);
            && (forall c :: c in affected <==> c in st.ix.fwd && exists v :: v in plan.olds && v in st.ix.fwd[c])
            && (affected == {} ==> st' == st)
            && (affected != {} ==>
                  && st'.files == PatchFiles(e, st.files, affected, plan.repl, false)
                  && st'.cooldowns == SetCooldowns(e, st.cooldowns, affected, now)
                  && (forall c :: c in st.ix.fwd && c !in affected ==> st'.ix.fwd[c] == st.ix.fwd[c])
                  && (forall c :: c in affected ==> plan.news <= st'.ix.fwd[c])
                  && (forall c, v :: c in affected && v in plan.olds && v !in plan.news ==> v !in st'.ix.fwd[c])))
  {
    if ToRel(e.root, oldAbs).Some? && ToRel(e.root, newAbs).Some? {
      var plan := MakePlan(e, oldAbs, ToRel(e.root, oldAbs).value, ToRel(e.root, newAbs).value);
      RenameConsistent(st.ix, plan.olds, plan.news);
      RenameEffect(st.ix, plan.olds, plan.news);
    }
  }

  /** A holder whose write fails keeps its file as it was, yet the index
      records it as holding the new paths: the index is updated from the plan,
      not from what reached the disk. */
  lemma FailedWriteStillRenamesIndex(e: Engine, st: State, oldAbs: string, newAbs: string, now: real, c: string)
    requires Consistent(st.ix)
    requires ToRel(e.root, oldAbs).Some? && ToRel(e.root, newAbs).Some?
    requires c in Affected(st.ix, MakePlan(e, oldAbs, ToRel(e.root, oldAbs).value, ToRel(e.root, newAbs).value).olds)
    requires HandlerOf(c).Some? && |c| > 0
    requires JoinPath(e.root, c) in st.files && st.files[JoinPath(e.root, c)].Doc? && !st.files[JoinPath(e.root, c)].writable
    ensures var st' := UpdateAssetPath(e, st, oldAbs, newAbs, now);
      && st'.files[JoinPath(e.root, c)] == st.files[JoinPath(e.root, c)]
      && c in st'.ix.fwd
      && MakePlan(e, oldAbs, ToRel(e.root, oldAbs).value, ToRel(e.root, newAbs).value).news <= st'.ix.fwd[c]
  {
    var plan := MakePlan(e, oldAbs, ToRel(e.root, oldAbs).value, ToRel(e.root, newAbs).value);
    var affected := Affected(st.ix, plan.olds);
    assert UpdateAssetPath(e, st, oldAbs, newAbs, now)
      == State(Rename(st.ix, plan.olds, plan.news), SetCooldowns(e, st.cooldowns, affected, now), PatchFiles(e, st.files, affected, plan.repl, false));
    RenameEffect(st.ix, plan.olds, plan.news);
    PatchFilesEffect(e, st.files, affected, plan.repl, false);
    RewriteFailureLeavesFile(HandlerOf(c).value, e.settings.sep, plan.repl, false, st.files[JoinPath(e.root, c)]);
  }

  // ---------------------------------------------------------------- full build

  /** The files of a walk whose lowered name ends with a container suffix. */
  function ContainerFiles(walk: seq<string>): (r: seq<string>)
    ensures forall p :: p in r <==> p in walk && HasContainerName(FileName(p))
  {
    if |walk| == 0 then []
    else
      var rest := ContainerFiles(walk[1..]);
      assert forall p :: p in walk <==> p == walk[0] || p in walk[1..];
      if HasContainerName(FileName(walk[0])) then [walk[0]] + rest else rest
  }

  /** The workers' results for the given files, in order. */
  function Outcomes(e: Engine, files: Files, paths: seq<string>): (rs: seq<ParseResult>)
    ensures |rs| == |paths|
    ensures forall k :: 0 <= k < |paths| ==> rs[k] == ParseWorker(e, files, paths[k])
  {
    seq(|paths|, i requires 0 <= i < |paths| => ParseWorker(e, files, paths[i]))
  }

  /** `[r for r in results if r and r[0] and r[1] is not None]`: the parsed
      results, in order. */
  function Collect(rs: seq<ParseResult>): (r: seq<(string, set<string>)>)
    ensures forall k :: 0 <= k < |r| ==> Parsed(r[k].0, r[k].1) in rs
    ensures forall j :: 0 <= j < |rs| && rs[j].Parsed? ==> (rs[j].rel, rs[j].refs) in r
  {
    if |rs| == 0 then []
    else
      var rest := Collect(rs[1..]);
      if rs[0].Parsed? then [(rs[0].rel, rs[0].refs)] + rest else rest
  }

  /** No two results that name a file name the same one. */
  predicate DistinctRels(rs: seq<ParseResult>) {
    forall i, j :: 0 <= i < j < |rs| && !rs[i].NotIndexable? && !rs[j].NotIndexable? ==> rs[i].rel != rs[j].rel
  }

  lemma {:induction false} CollectDistinct(rs: seq<ParseResult>)
    requires DistinctRels(rs)
    ensures Distinct(Containers(Collect(rs)))
    decreases |rs|
  {
    if |rs| > 0 {
      var tail := rs[1..];
      DistinctRelsTail(rs);
      CollectDistinct(tail);
      if rs[0].Parsed? {
        CollectAvoidsHead(rs);
        ConsDistinct((rs[0].rel, rs[0].refs), Collect(tail));
      }
    }
  }

  lemma DistinctRelsTail(rs: seq<ParseResult>)
    requires |rs| > 0 && DistinctRels(rs)
    ensures DistinctRels(rs[1..])
  {
    var tail := rs[1..];
    forall i, j | 0 <= i < j < |tail| && !tail[i].NotIndexable? && !tail[j].NotIndexable? ensures tail[i].rel != tail[j].rel {
      assert tail[i] == rs[i + 1] && tail[j] == rs[j + 1];
    }
  }

  lemma CollectAvoidsHead(rs: seq<ParseResult>)
    requires |rs| > 0 && rs[0].Parsed? && DistinctRels(rs)
    ensures forall k :: 0 <= k < |Collect(rs[1..])| ==> Collect(rs[1..])[k].0 != rs[0].rel
  {
    var tail := rs[1..];
    var rest := Collect(tail);
    forall k | 0 <= k < |rest| ensures rest[k].0 != rs[0].rel {
      var j :| 0 <= j < |tail| && tail[j] == Parsed(rest[k].0, rest[k].1);
      assert tail[j] == rs[j + 1];
    }
  }

  /** An entry whose container no later entry names keeps the list distinct. */
  lemma ConsDistinct(x: (string, set<string>), rest: seq<(string, set<string>)>)
    requires Distinct(Containers(rest))
    requires forall k :: 0 <= k < |rest| ==> rest[k].0 != x.0
    ensures Distinct(Containers([x] + rest))
  {
    var r := [x] + rest;
    var cs := Containers(r);
    forall i, j | 0 <= i < j < |cs| ensures cs[i] != cs[j] {
      assert r[j] == rest[j - 1];
      if i > 0 {
        assert r[i] == rest[i - 1];
        assert Containers(rest)[i - 1] != Containers(rest)[j - 1];
      }
    }
  }

  /** What the directory walk yields: distinct files strictly inside the root. */
  predicate WalkUnder(root: string, walk: seq<string>) {
    && Distinct(walk)
    && forall k :: 0 <= k < |walk| ==> StartsWith(walk[k], root + "/") && |walk[k]| > |root| + 1
  }

  /** `build_index`: with no container file in the walk the index is left as
      it was (not cleared); otherwise it is replaced by the parsed results. */
  function BuildIndex(e: Engine, st: State, walk: seq<string>): State {
    var containers := ContainerFiles(walk);
    if |containers| == 0 then st
    else st.(ix := Build(Collect(Outcomes(e, st.files, containers))))
  }

  lemma OutcomesDistinct(e: Engine, files: Files, paths: seq<string>)
    requires WalkUnder(e.root, paths)
    ensures DistinctRels(Outcomes(e, files, paths))
  {
    var rs := Outcomes(e, files, paths);
    forall i, j | 0 <= i < j < |rs| && !rs[i].NotIndexable? && !rs[j].NotIndexable? ensures rs[i].rel != rs[j].rel {
      ParseWorkerSpec(e, files, paths[i]);
      ParseWorkerSpec(e, files, paths[j]);
      if rs[i].rel == rs[j].rel {
        ToRelInjective(e.root, paths[i], paths[j]);
      }
    }
  }

  lemma {:induction false} ContainerFilesUnder(root: string, walk: seq<string>)
    requires WalkUnder(root, walk)
    ensures WalkUnder(root, ContainerFiles(walk))
    decreases |walk|
  {
    if |walk| > 0 {
      var tail := walk[1..];
      assert WalkUnder(root, tail) by {
        forall i, j | 0 <= i < j < |tail| ensures tail[i] != tail[j] {
          assert tail[i] == walk[i + 1] && tail[j] == walk[j + 1];
        }
        forall k | 0 <= k < |tail| ensures StartsWith(tail[k], root + "/") && |tail[k]| > |root| + 1 {
          assert tail[k] == walk[k + 1];
        }
      }
      ContainerFilesUnder(root, tail);
      var r := ContainerFiles(walk);
      var rest := ContainerFiles(tail);
      if HasContainerName(FileName(walk[0])) {
        assert walk[0] !in tail;
        forall i, j | 0 <= i < j < |r| ensures r[i] != r[j] {
          assert r[j] == rest[j - 1];
          if i > 0 {
            assert r[i] == rest[i - 1];
          }
        }
        forall k | 0 <= k < |r| ensures StartsWith(r[k], root + "/") && |r[k]| > |root| + 1 {
          if k > 0 {
            assert r[k] == rest[k - 1];
          }
        }
      }
    }
  }

  /** With distinct containers, an entry's container maps to that entry's references. */
  lemma {:induction false} EntryMapAt(entries: seq<(string, set<string>)>, k: nat)
    requires Distinct(Containers(entries))
    requires k < |entries|
    ensures EntryMap(entries)[entries[k].0] == entries[k].1
    decreases |entries|
  {
    if k < |entries| - 1 {
      var pre := entries[..|entries| - 1];
      assert Containers(pre) == Containers(entries)[..|pre|];
      assert pre[k] == entries[k];
      assert Containers(entries)[k] != Containers(entries)[|entries| - 1];
      EntryMapAt(pre, k);
    }
  }

  /** Building from results that name distinct files gives a consistent index
      mapping each parsed file to its references, and nothing else. */
  lemma BuildFromOutcomes(rs: seq<ParseResult>)
    requires DistinctRels(rs)
    ensures var ix := Build(Collect(rs));
      && Consistent(ix)
      && (forall j :: 0 <= j < |rs| && rs[j].Parsed? ==> rs[j].rel in ix.fwd && ix.fwd[rs[j].rel] == rs[j].refs)
      && (forall c :: c in ix.fwd ==> Parsed(c, ix.fwd[c]) in rs)
  {
    var entries := Collect(rs);
    CollectDistinct(rs);
    BuildCanonical(entries);
    forall j | 0 <= j < |rs| && rs[j].Parsed?
      ensures rs[j].rel in Build(entries).fwd && Build(entries).fwd[rs[j].rel] == rs[j].refs
    {
      var k :| 0 <= k < |entries| && entries[k] == (rs[j].rel, rs[j].refs);
      EntryMapAt(entries, k);
    }
    forall c | c in Build(entries).fwd ensures Parsed(c, Build(entries).fwd[c]) in rs {
      var k :| 0 <= k < |entries| && entries[k].0 == c;
      EntryMapAt(entries, k);
    }
  }

  /** A full rebuild that finds container files yields exactly the index of
      the files the workers could parse: each maps to its parse result, every
      indexed container is such a file, and a file that stayed unreadable is
      left out. */
  lemma BuildIndexEffect(e: Engine, st: State, walk: seq<string>)
    requires WalkUnder(e.root, walk)
    requires Consistent(st.ix)
    ensures var st' := BuildIndex(e, st, walk);
      && st'.files == st.files && st'.cooldowns == st.cooldowns
      && Consistent(st'.ix)
      && (|ContainerFiles(walk)| == 0 ==> st' == st)
      && (|ContainerFiles(walk)| > 0 ==>
            && (forall p :: p in walk && HasContainerName(FileName(p)) && ParseWorker(e, st.files, p).Parsed? ==>
                  var w := ParseWorker(e, st.files, p);
                  w.rel in st'.ix.fwd && st'.ix.fwd[w.rel] == w.refs)
            && (forall c :: c in st'.ix.fwd ==>
                  exists p :: p in walk && HasContainerName(FileName(p)) && ParseWorker(e, st.files, p) == Parsed(c, st'.ix.fwd[c])))
  {
    var containers := ContainerFiles(walk);
    if |containers| > 0 {
      ContainerFilesUnder(e.root, walk);
      OutcomesDistinct(e, st.files, containers);
      BuildFromOutcomes(Outcomes(e, st.files, containers));
      IndexFindsEach(e, st.files, walk);
      IndexFindsOnly(e, st.files, walk);
    }
  }

  /** Every container in the walk that parses is indexed with its references. */
  lemma IndexFindsEach(e: Engine, files: Files, walk: seq<string>)
    requires DistinctRels(Outcomes(e, files, ContainerFiles(walk)))
    ensures var ix := Build(Collect(Outcomes(e, files, ContainerFiles(walk))));
      forall p :: p in walk && HasContainerName(FileName(p)) && ParseWorker(e, files, p).Parsed? ==>
        ParseWorker(e, files, p).rel in ix.fwd && ix.fwd[ParseWorker(e, files, p).rel] == ParseWorker(e, files, p).refs
  {
    var containers := ContainerFiles(walk);
    var rs := Outcomes(e, files, containers);
    BuildFromOutcomes(rs);
    forall p | p in walk && HasContainerName(FileName(p)) && ParseWorker(e, files, p).Parsed?
      ensures var ix := Build(Collect(rs));
        ParseWorker(e, files, p).rel in ix.fwd && ix.fwd[ParseWorker(e, files, p).rel] == ParseWorker(e, files, p).refs
    {
      var j :| 0 <= j < |containers| && containers[j] == p;
      assert rs[j] == ParseWorker(e, files, p);
    }
  }

  /** Every indexed container is one of the walk's containers, with the
      references its parse gave. */
  lemma IndexFindsOnly(e: Engine, files: Files, walk: seq<string>)
    requires DistinctRels(Outcomes(e, files, ContainerFiles(walk)))
    ensures var ix := Build(Collect(Outcomes(e, files, ContainerFiles(walk))));
      forall c :: c in ix.fwd ==>
        exists p :: p in walk && HasContainerName(FileName(p)) && ParseWorker(e, files, p) == Parsed(c, ix.fwd[c])
  {
    var containers := ContainerFiles(walk);
    var rs := Outcomes(e, files, containers);
    var ix := Build(Collect(rs));
    BuildFromOutcomes(rs);
    forall c | c in ix.fwd
      ensures exists p :: p in walk && HasContainerName(FileName(p)) && ParseWorker(e, files, p) == Parsed(c, ix.fwd[c])
    {
      var j :| 0 <= j < |rs| && rs[j] == Parsed(c, ix.fwd[c]);
      var p := containers[j];
      assert p in walk && HasContainerName(FileName(p));
      assert ParseWorker(e, files, p) == rs[j];
    }
  }

  // ---------------------------------------------------------------- directory moves

  /** The containers holding a reference under a directory (compared lowered). */
  function UnderDirectory(ix: Index, oldDir: string): set<string> {
    set c | c in ix.fwd && exists r :: r in ix.fwd[c] && StartsWith(Lower(r), Lower(oldDir) + "/")
  }

  /** `handle_directory_move`: when enabled and some container references the
      old directory, rewrite those containers with the one-entry table, put
      them on cooldown and rebuild the whole index from a fresh walk. */
  function HandleDirectoryMove(e: Engine, st: State, oldAbs: string, newAbs: string, now: real, walk: seq<string>): State {
    if !e.opts.allowDirChange then st
    else
      match (ToRel(e.root, oldAbs), ToRel(e.root, newAbs))
      case (Some(oldDir), Some(newDir)) =>
        var affected := UnderDirectory(st.ix, oldDir);
        if affected == {} then st
        else
          var patched := State(
            st.ix,
            SetCooldowns(e, st.cooldowns, affected, now),
            PatchFiles(e, st.files, affected, [(oldDir, newDir)], true));
          BuildIndex(e, patched, walk)
      case _ => st
  }

  /** A directory move keeps the index consistent; it changes nothing (and
      triggers no rebuild) unless some container references a path under the
      old directory. */
  lemma DirectoryMoveEffect(e: Engine, st: State, oldAbs: string, newAbs: string, now: real, walk: seq<string>)
    requires WalkUnder(e.root, walk)
    requires Consistent(st.ix)
    ensures var st' := HandleDirectoryMove(e, st, oldAbs, newAbs, now, walk);
      && Consistent(st'.ix)
      && ((|| !e.opts.allowDirChange
           || ToRel(e.root, oldAbs).None?
           || ToRel(e.root, newAbs).None?
           || UnderDirectory(st.ix, ToRel(e.root, oldAbs).value) == {})
          ==> st' == st)
    ensures e.opts.allowDirChange && ToRel(e.root, oldAbs).Some? && ToRel(e.root, newAbs).Some? ==>
      var oldDir := ToRel(e.root, oldAbs).value;
      var affected := UnderDirectory(st.ix, oldDir);
      var st' := HandleDirectoryMove(e, st, oldAbs, newAbs, now, walk);
      && (forall c :: c in affected <==>
            c in st.ix.fwd && exists r :: r in st.ix.fwd[c] && StartsWith(Lower(r), Lower(oldDir) + "/"))
      && (affected != {} ==>
            && st'.cooldowns == SetCooldowns(e, st.cooldowns, affected, now)
            && st'.files == PatchFiles(e, st.files, affected, [(oldDir, ToRel(e.root, newAbs).value)], true))
  {
    if e.opts.allowDirChange && ToRel(e.root, oldAbs).Some? && ToRel(e.root, newAbs).Some? {
      var oldDir := ToRel(e.root, oldAbs).value;
      var newDir := ToRel(e.root, newAbs).value;
      var affected := UnderDirectory(st.ix, oldDir);
      if affected != {} {
        var patched := State(
          st.ix,
          SetCooldowns(e, st.cooldowns, affected, now),
          PatchFiles(e, st.files, affected, [(oldDir, newDir)], true));
        BuildIndexEffect(e, patched, walk);
      }
    }
  }

  // ---------------------------------------------------------------- events

  /** The events the handler receives.  Created/modified/deleted events on
      directories are ignored and collapse into `DirChanged`. */
  datatype Event =
    | FileCreated(path: string)
    | FileModified(path: string)
    | FileDeleted(path: string)
    | FileMoved(src: string, dest: string)
    | DirMoved(src: string, dest: string)
    | DirChanged

  /** The engine state plus `_last_deleted` (file name to path and time). */
  datatype Watch = Watch(st: State, lastDeleted: map<string, (string, real)>)

  predicate IsTracked(e: Engine, p: string) {
    Lower(Suffix(p)) in e.settings.tracked
  }

  predicate IsContainer(p: string) {
    Lower(Suffix(p)) in HandlerExtensions
  }

  /** `on_created`: a re-creation of a recently deleted name (under one second)
      is a move; the name's record is dropped then, whatever the suffix. */
  function OnCreated(e: Engine, w: Watch, path: string, now: real): Watch {
    var name := FileName(path);
    var w1 :=
      if name in w.lastDeleted && now - w.lastDeleted[name].1 < 1.0 then
        var st1 := if IsTracked(e, path) then UpdateAssetPath(e, w.st, w.lastDeleted[name].0, path, now) else w.st;
        Watch(st1, w.lastDeleted - {name})
      else w;
    if IsContainer(path) && !OnCooldown(w1.st, path, now) then w1.(st := ProcessContainer(e, w1.st, path, now)) else w1
  }

  /** `on_modified`. */
  function OnModified(e: Engine, w: Watch, path: string, now: real): Watch {
    if IsContainer(path) && !OnCooldown(w.st, path, now) then w.(st := ProcessContainer(e, w.st, path, now)) else w
  }

  /** `on_deleted`: remember tracked and container files by name for move
      detection, and drop a container from the index. */
  function OnDeleted(e: Engine, w: Watch, path: string, now: real): Watch {
    var ld := if IsTracked(e, path) || IsContainer(path) then w.lastDeleted[FileName(path) := (path, now)] else w.lastDeleted;
    var st := if IsContainer(path) && !OnCooldown(w.st, path, now) then RemoveContainer(e, w.st, path, now) else w.st;
    Watch(st, ld)
  }

  /** `on_moved` for a file: rename references to a tracked asset; re-index a
      moved container unless its destination is on cooldown. */
  function OnFileMoved(e: Engine, w: Watch, src: string, dest: string, now: real): Watch {
    var st1 := if IsTracked(e, src) then UpdateAssetPath(e, w.st, src, dest, now) else w.st;
    var st2 :=
      if IsContainer(src) && !OnCooldown(st1, dest, now)
      then ProcessContainer(e, RemoveContainer(e, st1, src, now), dest, now)
      else st1;
    w.(st := st2)
  }

  /** One event; `walk` is what a rebuild's directory walk would find. */
  function Step(e: Engine, w: Watch, ev: Event, now: real, walk: seq<string>): Watch {
    match ev
    case FileCreated(p) => OnCreated(e, w, p, now)
    case FileModified(p) => OnModified(e, w, p, now)
    case FileDeleted(p) => OnDeleted(e, w, p, now)
    case FileMoved(s, d) => OnFileMoved(e, w, s, d, now)
    case DirMoved(s, d) => w.(st := HandleDirectoryMove(e, w.st, s, d, now, walk))
    case DirChanged => w
  }

  /** Every event keeps the index consistent. */
  lemma StepConsistent(e: Engine, w: Watch, ev: Event, now: real, walk: seq<string>)
    requires WalkUnder(e.root, walk)
    requires Consistent(w.st.ix)
    ensures Consistent(Step(e, w, ev, now, walk).st.ix)
  {
    match ev
    case FileCreated(p) =>
      CreatedConsistent(e, w, p, now);
    case FileModified(p) =>
      ProcessContainerEffect(e, w.st, p, now);
    case FileDeleted(p) =>
      RemoveContainerEffect(e, w.st, p, now);
    case FileMoved(s, d) =>
      FileMovedConsistent(e, w, s, d, now);
    case DirMoved(s, d) =>
      DirectoryMoveEffect(e, w.st, s, d, now, walk);
    case DirChanged =>
  }

  lemma CreatedConsistent(e: Engine, w: Watch, p: string, now: real)
    requires Consistent(w.st.ix)
    ensures Consistent(OnCreated(e, w, p, now).st.ix)
  {
    var name := FileName(p);
    if name in w.lastDeleted && now - w.lastDeleted[name].1 < 1.0 && IsTracked(e, p) {
      UpdateAssetPathEffect(e, w.st, w.lastDeleted[name].0, p, now);
      ProcessContainerEffect(e, UpdateAssetPath(e, w.st, w.lastDeleted[name].0, p, now), p, now);
    } else {
      ProcessContainerEffect(e, w.st, p, now);
    }
  }

  /** A file move, in the order the handler runs it: a tracked asset has its
      references renamed first; a container is then dropped from the index
      under its old path and indexed under its new one, unless the new path is
      on cooldown.  A move is never remembered as a deletion. */
  lemma OnFileMovedEffect(e: Engine, w: Watch, src: string, dest: string, now: real)
    requires Consistent(w.st.ix)
    ensures var w' := OnFileMoved(e, w, src, dest, now);
      var st1 := if IsTracked(e, src) then UpdateAssetPath(e, w.st, src, dest, now) else w.st;
      && w'.lastDeleted == w.lastDeleted
      && Consistent(w'.st.ix)
      && w'.st.cooldowns == st1.cooldowns && w'.st.files == st1.files
      && (!IsContainer(src) || OnCooldown(st1, dest, now) ==> w'.st == st1)
    ensures var w' := OnFileMoved(e, w, src, dest, now);
      var st1 := if IsTracked(e, src) then UpdateAssetPath(e, w.st, src, dest, now) else w.st;
      var fwd1 := if !OnCooldown(st1, src, now) && ToRel(e.root, src).Some?
                  then st1.ix.fwd - {ToRel(e.root, src).value} else st1.ix.fwd;
      var pw := ParseWorker(e, st1.files, dest);
      IsContainer(src) && !OnCooldown(st1, dest, now) ==>
        w'.st.ix == FromForward(if pw.Parsed? then fwd1[pw.rel := pw.refs] else fwd1)
  {
    var st1 := if IsTracked(e, src) then UpdateAssetPath(e, w.st, src, dest, now) else w.st;
    UpdateAssetPathEffect(e, w.st, src, dest, now);
    assert Consistent(st1.ix);
    var st2 := RemoveContainer(e, st1, src, now);
    RemoveContainerEffect(e, st1, src, now);
    ProcessContainerEffect(e, st2, dest, now);
    ConsistentIsCanonical(st1.ix);
    ConsistentIsCanonical(st2.ix);
    ConsistentIsCanonical(ProcessContainer(e, st2, dest, now).ix);
  }

  lemma FileMovedConsistent(e: Engine, w: Watch, s: string, d: string, now: real)
    requires Consistent(w.st.ix)
    ensures Consistent(OnFileMoved(e, w, s, d, now).st.ix)
  {
    var st1 := if IsTracked(e, s) then UpdateAssetPath(e, w.st, s, d, now) else w.st;
    UpdateAssetPathEffect(e, w.st, s, d, now);
    RemoveContainerEffect(e, st1, s, now);
    ProcessContainerEffect(e, RemoveContainer(e, st1, s, now), d, now);
  }

  /** Move detection: a deletion of a tracked or container file records its
      name; a creation under the same name within one second consumes the
      record, renaming references when the new path is tracked, while a later
      creation leaves the stale record in place.  Either way a created
      container is then re-indexed unless it is on cooldown after the rename. */
  lemma MoveDetection(e: Engine, w: Watch, path: string, now: real)
    ensures var name := FileName(path);
      var w' := OnCreated(e, w, path, now);
      var inWindow := name in w.lastDeleted && now - w.lastDeleted[name].1 < 1.0;
      var st1 := if inWindow && IsTracked(e, path) then UpdateAssetPath(e, w.st, w.lastDeleted[name].0, path, now) else w.st;
      && (inWindow ==> w'.lastDeleted == w.lastDeleted - {name})
      && (!inWindow ==> w'.lastDeleted == w.lastDeleted)
      && (IsContainer(path) && !OnCooldown(st1, path, now) ==> w'.st == ProcessContainer(e, st1, path, now))
      && (!IsContainer(path) || OnCooldown(st1, path, now) ==> w'.st == st1)
    ensures var w' := OnDeleted(e, w, path, now);
      && (IsTracked(e, path) || IsContainer(path) ==> w'.lastDeleted == w.lastDeleted[FileName(path) := (path, now)])
      && (!IsTracked(e, path) && !IsContainer(path) ==> w' == w)
  {
    CreatedDetection(e, w, path, now);
    DeletedDetection(e, w, path, now);
  }

  lemma CreatedDetection(e: Engine, w: Watch, path: string, now: real)
    ensures var name := FileName(path);
      var w' := OnCreated(e, w, path, now);
      var inWindow := name in w.lastDeleted && now - w.lastDeleted[name].1 < 1.0;
      var st1 := if inWindow && IsTracked(e, path) then UpdateAssetPath(e, w.st, w.lastDeleted[name].0, path, now) else w.st;
      && (inWindow ==> w'.lastDeleted == w.lastDeleted - {name})
      && (!inWindow ==> w'.lastDeleted == w.lastDeleted)
      && (IsContainer(path) && !OnCooldown(st1, path, now) ==> w'.st == ProcessContainer(e, st1, path, now))
      && (!IsContainer(path) || OnCooldown(st1, path, now) ==> w'.st == st1)
  {
    var name := FileName(path);
    var inWindow := name in w.lastDeleted && now - w.lastDeleted[name].1 < 1.0;
    var st1 := if inWindow && IsTracked(e, path) then UpdateAssetPath(e, w.st, w.lastDeleted[name].0, path, now) else w.st;
    var w1 := if inWindow then Watch(st1, w.lastDeleted - {name}) else w;
    assert w1.st == st1;
    assert OnCreated(e, w, path, now) == if IsContainer(path) && !OnCooldown(st1, path, now) then w1.(st := ProcessContainer(e, st1, path, now)) else w1;
  }

  lemma DeletedDetection(e: Engine, w: Watch, path: string, now: real)
    ensures var w' := OnDeleted(e, w, path, now);
      && (IsTracked(e, path) || IsContainer(path) ==> w'.lastDeleted == w.lastDeleted[FileName(path) := (path, now)])
      && (!IsTracked(e, path) && !IsContainer(path) ==> w' == w)
  {
  }

  /** A deletion followed within a second by a creation under the same file
      name is handled as a move of a tracked asset: the references are renamed
      from the deleted path to the created one and the record is consumed.  A
      creation a second or more later renames nothing and keeps the record. */
  lemma DeleteThenCreateIsMove(e: Engine, w: Watch, src: string, dest: string, t1: real, t2: real)
    requires FileName(src) == FileName(dest)
    requires IsTracked(e, src) && IsTracked(e, dest) && !IsContainer(src) && !IsContainer(dest)
    ensures var w2 := OnCreated(e, OnDeleted(e, w, src, t1), dest, t2);
      && (t2 - t1 < 1.0 ==>
            && w2.st == UpdateAssetPath(e, w.st, src, dest, t2)
            && w2.lastDeleted == w.lastDeleted - {FileName(src)})
      && (t2 - t1 >= 1.0 ==>
            && w2.st == w.st
            && w2.lastDeleted == w.lastDeleted[FileName(src) := (src, t1)])
  {
    var w1 := OnDeleted(e, w, src, t1);
    DeletedDetection(e, w, src, t1);
    assert w1.st == w.st;
    assert w1.lastDeleted[FileName(dest)] == (src, t1);
    assert w1.lastDeleted - {FileName(src)} == w.lastDeleted - {FileName(src)};
    CreatedDetection(e, w1, dest, t2);
  }

  /** Self-written files are left alone: while a container is on cooldown,
      modifying or deleting it does not touch the index or the files. */
  lemma CooldownSuppresses(e: Engine, w: Watch, path: string, now: real)
    requires OnCooldown(w.st, path, now)
    ensures OnModified(e, w, path, now) == w
    ensures OnDeleted(e, w, path, now).st == w.st
  {
  }
}

=== FILE: wrappers.dfy ===
/** Optional values used across the model. */
module Wrappers {

  /** A value that may be absent (Python's `None`). */
  datatype Option<T> = None | Some(value: T)
}
